=== FILE: README.md ===
# pysome matchers and `Same` correlation, modelled in Dafny

pysome is a Python test helper built around matcher objects that overload `==`:

- `Some(int, str)` equals any int or str.
- `SomeDict(a=Some(int))` equals any dict whose `"a"` entry is an int.
- `SomeStr(pattern="py_om_")` equals strings of that shape.
- There are more matchers of the same kind.

Every matcher is a subclass of `Some`. Its `__eq__` tries the rules in order: classes, nested matchers and one-argument predicates. It returns True at the first rule that accepts. If no rule accepts, it appends one message to the class-level list `Some.unequals` and returns False. Most specialised matchers wrap a single validator predicate. Three do not: `SomeOrNone` keeps its arguments plus an `is_none` rule, `NotSome` keeps its own arguments as rules and negates the result, and `SomeObject` wraps the matcher `AllOf(Some(*args), validate_some_object)`. `Same(int)` adds correlation on top of this. Inside an open `SameState` window, the first candidate a `Same` accepts is bound to its name, and every later candidate must equal that binding.

The model has these parts:

- **Values and matchers** (`values.dfy`):
  - A `Value` datatype: None, bool, int, str, list, tuple, dict, set, classes, user objects with attributes, predicates, matchers and `Same` objects.
  - A `Matcher` constructor per matcher class, holding what that class's `__init__` keeps.
  - `isinstance` over a fixed class lattice.
- **Construction** (`construct.dfy`): every `__init__` as a function that returns `Ok` or the exception it raises. This covers argument validation, the merge of `SomeDict`'s keyword arguments, and `Same`'s default name.
- **Evaluation** (`eval.dfy`): Python's `==` as one function `Eval.Eq`.
  - Its fuel bounds the nesting of comparisons, like Python's recursion limit.
  - A matcher or `Same` on the left runs its own `__eq__`. One on the right is reached through the reflected comparison. Plain values compare structurally.
  - Each comparison returns a `Step`: the verdict, the correlation state afterwards, and the number of messages appended to `Some.unequals`.
  - What user predicates return, and `re.match` outside a literal fragment, come from an `Env` parameter.
- **Properties** (`matcher_props.dfy`, `builtin_eq.dfy`, `text.dfy`):
  - Each matcher is characterised against an independent statement of what it accepts. Examples: the ordered OR of `Some`, the conjunction of `AllOf`, the element-wise `all` of `SomeIterable`, the partial dict match of `SomeDict`, and membership for `SomeIn`.
  - Structural equality is related to a reference predicate `PlainEq`.
- **Correlation state** (`same_state.dfy`, `same_props.dfy`):
  - `SameState` holds the two class dicts `_allow` and `_state`.
  - `_start` and `_end` are modelled as a loop, proved equal to a reference reset.
  - The binding protocol of `Same.__eq__` is stated as lemmas.
- **Signatures** (`signature.dfy`): `get_signature` and the signature each class stores, which `str(matcher)` returns.
- **Source defects** (`findings.dfy`): `Same.__eq__` exactly as written (`Findings.SameEqAsWritten`), a variant that keeps the source's flat use of `_state` but reads the flag the intended way (`Findings.FlatSameEq`), and the corrected reading the rest of the model uses (see Findings).
- **Examples** (`test_cases.dfy`): concrete cases from the repository's tests and docstrings, proved about the model.

Three behaviours of the code are easy to misread, and the model follows the code in each:

- **`SomeStr(pattern=…)` is anchored at both ends.** `re.match` anchors at the start and the code appends `$` (Some.py:347), so a template must cover the whole string (a final newline aside). `MatcherProps.PatternIsAnchored` states this, and test_Some.py:406 agrees.
- **A key missing from a `SomeDict` candidate compares as None.** The validator compares `other.get(key, None)` (Some.py:224), so a `SomeOrNone` value accepts a dict without that key. `MatcherProps.SomeDictMissingKeyIsNone` states this.
- **Unnamed `Same` objects.** They all share the single class `default_name` as their binding name (`Construct.UnnamedSamesShareName`).

## Model

| member | source | states |
|---|---|---|
| Construct.ArgToRule | src/pysome/Some.py:32-45 | A class, a matcher or a one-parameter callable becomes a rule that remembers exactly that argument; a callable with another arity raises InvalidFunction; anything else raises InvalidArgument |
| Construct.ValidateArgs | src/pysome/Some.py:31-45 | The arguments are accepted iff each one is; the rules keep the arguments' order; on failure the error is the one of the first invalid argument, every earlier argument being valid |
| Construct.MakeSome | src/pysome/Some.py:28-47 | `Some(*args)` constructs iff every argument is valid; its rules render back to the arguments in order; no argument at all gives the wildcard; only InvalidArgument or InvalidFunction can be raised; every predicate rule takes one parameter |
| Construct.MakeSomeOrNone | src/pysome/Some.py:128-136 | `SomeOrNone(*args)` raises exactly when `Some(*args)` does and keeps the same rules |
| Construct.MakeNotSome | src/pysome/Some.py:308-309 | `NotSome(*args)` raises exactly when `Some(*args)` does and keeps the same rules |
| Construct.MakeSomeIterable | src/pysome/Some.py:153-155 | `SomeIterable` raises InvalidArgument iff `is_type` is not a class, and otherwise keeps element pattern, length and class |
| Construct.Put | src/pysome/Some.py:218 | Storing `d[k] = v`: the key set gains `k` and nothing else, `k` reads `v`, every other key reads what it read before |
| Construct.PutNewAppends | src/pysome/Some.py:218 | A key not yet in the dict is appended at the end (insertion order) |
| Construct.PutKeepsPositions | src/pysome/Some.py:218 | Storing never reorders: every position keeps its key, and an existing key adds no entry |
| Construct.Update | src/pysome/Some.py:218 | `dict(base, **kwargs)` holds exactly the keys of both, and a key not among the keyword arguments keeps the base's value |
| Construct.UpdateOverrides | src/pysome/Some.py:218 | A keyword argument always wins over the base dict's value for the same key |
| Construct.MakeSomeDict | src/pysome/Some.py:213-229 | `SomeDict` raises TypeError for a keyword named `self`, then InvalidArgument iff the base is neither None nor a dict, then TypeError when the merged pattern has a key `cls` (the first parameter of `get_signature`); it constructs exactly when none of these applies, and the pattern is the base (empty for None) updated with the keyword arguments |
| Construct.MakeSomeIn | src/pysome/Some.py:245-247 | `SomeIn` raises InvalidArgument iff the container has no `__contains__`, and otherwise keeps the container |
| Construct.StrOption | src/pysome/Some.py:329-336 | A `SomeStr` option passes the `SomeOrNone(str)` check iff it is None or a string, and is kept as present exactly when it is a string |
| Construct.MakeSomeStr | src/pysome/Some.py:328-336 | `SomeStr` constructs iff all four options are None or strings, raising InvalidArgument otherwise; each option is kept present exactly when it was given as a string, holding that very string |
| Construct.MakeSomeObject | src/pysome/Some.py:425-435 | `SomeObject` raises TypeError for a keyword named `self`, then exactly what `Some(*args)` raises, validating eagerly, then TypeError for a keyword named `cls`; otherwise it keeps the rules of `Some(*args)` and the keywords as given |
| Construct.MakeSame | src/pysome/Same.py:14-18 | `Same(*args, name)` raises exactly when `Some(*args)` does; it wraps the same rules and binds under the given name, or under `default_name` when none is given |
| Construct.UnnamedSamesShareName | src/pysome/Same.py:14 | Any two unnamed `Same` objects bind under the same name, `default_name` |
| Values.Items | src/pysome/Some.py:162 | Iteration is defined exactly for sized values and visits as many items as `len` reports: the one-character strings of a str, the elements of a list, tuple or set, the keys of a dict; a matcher-free value yields matcher-free items |
| Values.Get | src/pysome/Some.py:224 | `d.get(k, None)` is None for a missing key and otherwise the value stored under `k` |
| Text.DottedKeepsTemplateMeaning | src/pysome/Some.py:347 | `pattern.replace("_", ".")` keeps a template a template, is idempotent, and changes nothing the template accepts, so testing the template is testing the expression `re.match` receives |
| Text.LiteralRegexIsPrefixTest | src/pysome/Some.py:342 | `re.match` with an expression free of special characters accepts exactly the strings that start with it |
| Text.PlainTemplateAcceptsItself | src/pysome/Some.py:347 | A template without wildcards accepts exactly itself, or itself followed by one newline where `$` also matches |
| Eval.Eq | src/pysome/Same.py:24-30 | No comparison removes or changes a binding, a flag or another channel: the "Same" bindings only grow; without `Same` objects the state is untouched |
| Eval.Match | src/pysome/Some.py:65-84 | A matcher's `__eq__` only grows the "Same" bindings, and leaves the state untouched when no `Same` is involved |
| Eval.SameEq | src/pysome/Same.py:20-30 | `Same.__eq__` only adds bindings and never alters an existing one |
| Eval.Contains | src/pysome/Some.py:249-250 | `other in container` leaves the correlation state as it was when no `Same` is involved, and only grows it otherwise |
| Eval.WithLenAccepts | src/pysome/Some.py:270-282 | The only exception the `SomeWithLen` validator can raise is the TypeError of `len` |
| BuiltinEq.EqIsPlainEq | src/pysome/Some.py:224 | On matcher-free values `==` is the structural equality `PlainEq`, appends no message and leaves the state alone, whenever the recursion limit exceeds the nesting depth |
| BuiltinEq.ContainerEqIsPlainEq | src/pysome/Some.py:162 | Lists, tuples, dicts and sets without matchers compare as `PlainEq` does: element-wise, by key and value, or by membership |
| BuiltinEq.TupleEqIsPlain | src/pysome/Some.py:162 | On matcher-free items, comparing tuples over their common prefix before their lengths gives the verdict of a length test followed by the pairwise one, with no message and no state change |
| MatcherProps.FirstRuleIgnoresLaterRules | src/pysome/Some.py:68-82 | Once a rule accepts or raises, appending further rules (even ones that would raise) changes nothing: later rules are never evaluated |
| MatcherProps.SomeIgnoresLaterRules | src/pysome/Some.py:66-84 | `Some(*rules, *more) == b` equals `Some(*rules) == b` whenever the latter accepts or raises |
| MatcherProps.FirstRuleRejectsIffAllReject | src/pysome/Some.py:68-84 | The rule loop rejects iff every rule was evaluated and each rejected |
| MatcherProps.FirstRuleAcceptsIffSomeAccepts | src/pysome/Some.py:68-82 | The rule loop accepts iff some rule accepts after every rule before it rejected: an ordered OR |
| MatcherProps.FirstRuleSkipsRejections | src/pysome/Some.py:68-82 | A prefix of rejecting rules does not affect the outcome |
| MatcherProps.FlatRulesLogNothing | src/pysome/Some.py:68-82 | Class and predicate rules append no message and touch no state |
| MatcherProps.SomeLogsOneMessagePerMiss | src/pysome/Some.py:66-84 | `Some()` accepts everything; over classes and predicates a miss appends exactly one message and a hit none |
| MatcherProps.PredicateMustReturnBool | src/pysome/Some.py:75-80 | A predicate reached after rejecting rules that returns a non-bool raises MustReturnBool |
| MatcherProps.NotSomeNegates | src/pysome/Some.py:311-312 | `NotSome(*rules)` accepts iff `Some(*rules)` rejects and vice versa, raises exactly what it raises, and `NotSome()` accepts nothing |
| MatcherProps.AllArgsIsConjunction | src/pysome/Some.py:104-105 | The `all(...)` loop of `AllOf` holds iff `Some(arg) == b` for every remaining argument |
| MatcherProps.AllOfIsConjunction | src/pysome/Some.py:103-108 | `AllOf(*args) == b` holds iff `Some(arg) == b` holds for every argument |
| MatcherProps.AllOfValidatesLate | src/pysome/Some.py:104-107 | An invalid argument of `AllOf` raises only when compared, and not at all once an earlier argument already rejected |
| MatcherProps.SomeOfOneClass | src/pysome/Some.py:69-71 | `Some(t) == b` is `isinstance(b, t)`, with one message on a miss |
| MatcherProps.AllOfStrIntMatchesNothing | src/pysome/Some.py:103-108 | `AllOf(str, int)` equals no value |
| MatcherProps.SomeOrNoneWidensSome | src/pysome/Some.py:128-135 | `SomeOrNone()` accepts everything; `SomeOrNone(*rules)` behaves as `Some(*rules)` on every value but None, and accepts None unless a rule raises first |
| MatcherProps.SomeListIsListIterable | src/pysome/Some.py:186-187 | `SomeList(arg, length)` compares exactly as `SomeIterable(arg, length, is_type=list)` |
| MatcherProps.AllEqIsForall | src/pysome/Some.py:162 | `all(arg == x for x in xs)` holds iff every item equals the element pattern |
| MatcherProps.SomeIterableCharacterised | src/pysome/Some.py:157-164 | `SomeIterable(arg, length, t) == b` holds iff `b` is a `t`, its length equals `length` unless that is None, and every item equals `arg` |
| MatcherProps.IterValidateCharacterised | src/pysome/Some.py:157-162 | The iterable validator accepts iff the class test, the length test and the item test all hold |
| MatcherProps.IterRejectsEarly | src/pysome/Some.py:158-159 | A candidate of the wrong class is rejected before its length or items are looked at |
| MatcherProps.IterLengthRaises | src/pysome/Some.py:160 | A length comparison that raises makes the whole comparison raise |
| MatcherProps.DictValidateIsForall | src/pysome/Some.py:223-226 | The dict validator holds iff `b.get(key, None) == value` for every pattern entry |
| MatcherProps.SomeDictCharacterised | src/pysome/Some.py:220-226 | `SomeDict(p) == b` holds iff `b` is a dict and every pattern key reads an equal value |
| MatcherProps.DictValidateSeesOnlyPatternKeys | src/pysome/Some.py:223-225 | Two candidate dicts that agree on the pattern's keys get the same verdict, messages and state |
| MatcherProps.SomeDictIgnoresOtherKeys | src/pysome/Some.py:220-226 | Extra keys in the candidate never matter |
| MatcherProps.SomeDictMissingKeyIsNone | src/pysome/Some.py:224 | A key missing from the candidate compares exactly as if it were present with value None |
| MatcherProps.AnyEqIsExists | src/pysome/Some.py:250 | `x in xs` for a list or tuple holds iff some item equals `x` |
| MatcherProps.SomeInCharacterised | src/pysome/Some.py:249-250 | A str container accepts exactly its substrings and raises TypeError for non-strings; a list or tuple accepts iff some item equals the candidate; a set raises TypeError for an unhashable candidate and otherwise accepts iff some element equals it; a dict accepts exactly its keys and raises TypeError for unhashable candidates |
| MatcherProps.WithLenZeroIsNoBound | src/pysome/Some.py:273-281 | A bound of 0 behaves as no bound, for each of length, min_length and max_length |
| MatcherProps.WithLenExactIsBothBounds | src/pysome/Some.py:270-282 | A truthy `length=n` accepts exactly what `min_length=n, max_length=n` accepts, errors included |
| MatcherProps.WithLenBoundsWiden | src/pysome/Some.py:276-281 | A candidate of exact length `n` meets `min_length=n` and `max_length=n` alone, and a met lower bound stays met when lowered to any positive bound |
| MatcherProps.StrFirstOptionDecides | src/pysome/Some.py:338-355 | Only the first option set among regex, pattern, endswith, startswith decides; non-strings are rejected; with no option every string is accepted |
| MatcherProps.PatternIsAnchored | src/pysome/Some.py:346-350 | A pattern without special characters accepts exactly itself, or itself followed by one newline |
| MatcherProps.LiteralRegexIsPrefix | src/pysome/Some.py:341-345 | A regex without special characters accepts exactly the strings it starts |
| MatcherProps.FixedRegexMatchers | src/pysome/Some.py:382-402 | `SomeEmail()` and `SomeUuid()` construct without error and compare exactly as `SomeStr` with their fixed regex |
| MatcherProps.AttrsCheckIsForall | src/pysome/Some.py:426-432 | `validate_some_object` holds iff every keyword names an existing attribute with an equal value |
| MatcherProps.ObjectAllCharacterised | src/pysome/Some.py:426-434 | The `AllOf(Some(*args), validate_some_object)` body accepts iff the rules and every attribute do; a rejection carries at least two messages |
| MatcherProps.SomeObjectCharacterised | src/pysome/Some.py:425-434 | `SomeObject(*rules, **attrs) == b` holds iff `Some(*rules) == b` and `b` has every attribute with an equal value; a rejection logs at least three messages |
| SameStates.InitClosed | src/pysome/SameState.py:5-13 | The class body declares exactly the channels "Same" and "NotSame", both closed and without bindings |
| SameStates.SetAllChannels | src/pysome/SameState.py:16-18 | The key loop sets every channel's flag and clears its bindings, keeps the key sets, leaves extra entries alone, and computes the reference reset |
| SameStates.Start | src/pysome/SameState.py:15-19 | `_start` opens every channel with no bindings and touches nothing else |
| SameStates.End | src/pysome/SameState.py:21-25 | `_end` closes every channel with no bindings and touches nothing else |
| SameStates.WindowIsStart | src/pysome/SameState.py:15-19 | Starting from the class body gives both channels open and empty |
| SameStates.ResetKeepsChannels | src/pysome/SameState.py:15-25 | `_start` and `_end` neither add nor remove a channel |
| SameStates.ResetIdempotent | src/pysome/SameState.py:15-25 | Calling `_start` (or `_end`) twice is calling it once |
| SameStates.ResetLastWins | src/pysome/SameState.py:15-25 | Of two consecutive `_start`/`_end` calls only the last one matters |
| SameStates.RunUniform | src/pysome/SameState.py:15-25 | After any non-empty sequence of `_start`/`_end` calls every channel carries the last call's flag, no binding survives, and the channels are unchanged |
| SameProps.SameOutsideExpectFirst | src/pysome/Same.py:22-23 | Outside an open window `Same.__eq__` raises SameOutsideExpect, whatever the rules, candidate and bindings |
| SameProps.ClosedWindowRaises | src/pysome/Same.py:20-23 | After `_end`, and in the initial state, every `Same` comparison raises |
| SameProps.SameRejectionKeepsBindings | src/pysome/Same.py:24-25 | A candidate the wrapped rules reject is unequal and binds nothing |
| SameProps.SameBindsFirstCandidate | src/pysome/Same.py:26-28 | An unbound name binds the first accepted candidate and compares equal; nothing else in the state changes |
| SameProps.SameComparesWithBinding | src/pysome/Same.py:29-30 | A bound name compares an accepted candidate with the bound value, with that comparison's outcome, and binds nothing |
| SameProps.SameTouchesOnlyItsName | src/pysome/Same.py:24-30 | A comparison either leaves the state alone or binds its own name to the candidate; every other name keeps its binding or absence |
| SameProps.StartForgetsEarlierBindings | src/pysome/SameState.py:15-19 | After `_start`, the first accepted candidate binds afresh, whatever earlier windows bound |
| SameProps.SameCorrelatesExample | src/pysome/Same.py:20-30 | `Same(int)` in a window: 1 binds, 1 again is equal, 2 is not, "x" is rejected with one message, and after `_end` it raises |
| Findings.ClassAttribute | src/pysome/SameState.py:5-25 | Among the names a class body can assign (dunders aside), reading `SameState.<name>` succeeds exactly for the four the body assigns (`_allow`, `_state`, `_start`, `_end`) and raises AttributeError otherwise |
| Findings.SameEqAsWritten | src/pysome/Same.py:21-23 | As written, every `Same` comparison raises AttributeError, because `SameState` defines no `_allow_same_usage` |
| Findings.AsWrittenNeverCorrelates | src/pysome/Same.py:21-23 | Inside an open window `Same(int) == 1` raises as written, but binds and answers True in the corrected reading |
| Findings.FlatReset | src/pysome/SameState.py:15-25 | Seen flat, `_start`/`_end` reset only the channel entries; any other key in `_state` survives |
| Findings.FlatWindowIsStart | src/pysome/SameState.py:15-19 | The flat state after `_start` has both flags set and both channel entries empty |
| Findings.FlatSameEq | src/pysome/Same.py:26-30 | With bindings kept flat in `_state`, a comparison never changes flags, never removes keys, leaves a bound name's state as it was, and binds an unbound name on acceptance |
| Findings.FlatUnboundBinds | src/pysome/Same.py:26-28 | Flat, a name missing from `_state` binds the accepted candidate |
| Findings.FlatBoundCompares | src/pysome/Same.py:29-30 | Flat, a name present in `_state` compares the candidate with whatever is stored there |
| Findings.FlatBindingLeaksAcrossWindows | src/pysome/Same.py:26-30 | Flat, `Same(int) == 1` in one window makes `Same(int) == 2` False in the next one |
| Findings.CorrectedWindowsStartEmpty | src/pysome/SameState.py:15-19 | Corrected, `Same(int) == 2` is True in a new window after one that bound 1 |
| Findings.FlatNameCollidesWithChannel | src/pysome/Same.py:26 | Flat, `Same(int, name="Same") == 1` is False on first use because the channel entry occupies the name; corrected, it binds and is True |
| Findings.CorrectedBindsCollidingName | src/pysome/Same.py:26-28 | Corrected, a `Same` named "Same" binds its first int like any other name |
| Findings.CorrectedBindsFresh | src/pysome/Same.py:26-28 | Corrected, in an open window without bindings `Same(int)` of any hashable name accepts any int |
| Signature.SigIsGetSignature | src/pysome/Some.py:49-63 | Each matcher's signature is `get_signature` of its class name, its positional arguments in order and the keyword arguments it was given, in declaration order |
| Signature.SomeSignatureMirrorsArgs | src/pysome/Some.py:29 | `str(Some(*args))` is `get_signature` of exactly the arguments given |
| Signature.RenderRulesAsArgs | src/pysome/Some.py:52-56 | A stored rule renders exactly as the constructor argument it came from |
| Signature.SomeOrNoneSignatureMirrorsArgs | src/pysome/Some.py:128-136 | `str(SomeOrNone(*args))` shows exactly the arguments given; the appended `is_none` rule never appears |
| Signature.NotSomeSignatureMirrorsArgs | src/pysome/Some.py:308-309 | `str(NotSome(*args))` shows exactly the arguments given, under the subclass's own name |
| Signature.SigIterableIsGetSignature | src/pysome/Some.py:165-170 | `SomeIterable` shows its element pattern, then `length` and `is_type` only when not defaulted |
| Signature.SigListIsGetSignature | src/pysome/Some.py:188-191 | `SomeList` shows its element pattern, then `length` only when given |
| Signature.SomeDictSignatureIsMerged | src/pysome/Some.py:213-229 | `str(SomeDict(base, **kwargs))` shows the merged dict as keyword arguments, each keyword overriding the base's value for its key |
| Signature.SigWithLenIsGetSignature | src/pysome/Some.py:285-292 | `SomeWithLen` shows only the bounds that were given |
| Signature.SigStrIsGetSignature | src/pysome/Some.py:358-368 | `SomeStr` shows only the options that were given, in declaration order |
| Signature.SomeObjectSignatureMirrorsArgs | src/pysome/Some.py:425-435 | `str(SomeObject(*args, **kwargs))` shows the positional, then the keyword arguments as given; the wrapped `AllOf` does not appear |
| Signature.SimpleSignatures | src/tests/pysome/test_Some.py:76-84 | `str(Some(int))` is "Some(int)" and `str(Some(str))` is "Some(str)" |
| Signature.TwoTypeSignature | src/tests/pysome/test_Some.py:76-84 | `str(Some(float, int))` is "Some(float, int)" |
| Signature.WithLenSignatureExample | src/tests/pysome/test_Some.py:351-354 | `str(SomeWithLen(length=12))` is "SomeWithLen(length=12)" |
| Signature.StrSignatureExample | src/tests/pysome/test_Some.py:431-439 | `str(SomeStr(regex="abc"))` is "SomeStr(regex=abc)" |
| Signature.AttrSignature | src/tests/pysome/test_Some.py:487-493 | `str(SomeObject(b=Some(int)))` is "SomeObject(b=Some(int))" |
| Signature.SomeDictMergeExample | src/tests/pysome/test_Some.py:279 | `SomeDict({"a": 12, "b": int}, c=SomeOrNone())` holds the pattern a, b, c in that order |
| Signature.SomeDictMergeSignature | src/tests/pysome/test_Some.py:279 | That merged `SomeDict` renders as "SomeDict(a=12, b=int, c=SomeOrNone())" |
| TestCases.ConstructionCases | src/tests/pysome/test_Some.py:7-41 | `Some(int, str)` keeps both classes, `Some(int, "a")` raises InvalidArgument, a two-parameter predicate raises InvalidFunction, `Some()` is the wildcard; a non-class `is_type`, a container-less `SomeIn` and a non-str `SomeStr` option raise InvalidArgument |
| TestCases.KeywordClashCases | src/pysome/Some.py:50 | `SomeDict({"cls": 1})`, `SomeDict(cls=1)` and `SomeObject(cls=Some(int))` raise TypeError, since `cls` is the first parameter of `get_signature`; `SomeDict(self=1)` raises TypeError at the call |
| TestCases.TuplePrefixRunsPredicate | src/pysome/Some.py:75-80 | `(Some(f),) == (1, 2)` with `f(1)` returning "x" raises MustReturnBool: the tuple's common prefix is compared before the lengths |
| TestCases.TuplePrefixLogsMiss | src/pysome/Some.py:83 | `(Some(int),) == ("a", 2)` is False and appends the one message of the miss in the prefix |
| TestCases.TuplePrefixBindsSame | src/pysome/Same.py:26-28 | In an open window, `(Same(int),) == (1, 2)` is False and still binds 1 |
| TestCases.SomeStrIntCases | src/tests/pysome/test_Some.py:38-41 | `Some(str, int) == 1` and `Some(int, str) == "ab"` are True |
| TestCases.PredicateReturningStrRaises | src/tests/pysome/test_Some.py:44-49 | A predicate returning "False" makes the comparison raise MustReturnBool |
| TestCases.SomeInCases | src/tests/pysome/test_Some.py:288-298 | `SomeIn("abcdefg")` accepts "ab" and "b", rejects "ac", raises for 1; `SomeIn([1, 2, 3])` accepts 1 |
| TestCases.SomeInSetCases | src/pysome/Some.py:237-242 | `SomeIn({"a", "b"})` accepts "a" and rejects "c"; an unhashable candidate raises TypeError |
| TestCases.PatternCases | src/tests/pysome/test_Some.py:401-406 | `SomeStr(pattern="py_om_")` accepts "pysome" and "pyxomx" but not "pxsome", "pysome " or " pysome" |
| TestCases.AffixCases | src/tests/pysome/test_Some.py:408-419 | `endswith="some"` and `startswith="py"` accept and reject the strings of the tests |
| TestCases.WithLenCases | src/pysome/Some.py:260-266 | `SomeWithLen(2)` accepts [1, 2] and rejects (1,) and 12; `SomeWithLen(0)` accepts [] and also [1] |
| TestCases.UserPatternCompares | src/tests/pysome/test_Some.py:200-220 | `{"id": Some(int), "name": Some(str)}` equals a user dict iff its id is an int, with one message otherwise |
| TestCases.GoodUsersMatch | src/tests/pysome/test_Some.py:200-210 | `SomeIterable(pattern)` accepts the users anna (id 1) and bert (id 2) |
| TestCases.BadUsersFail | src/tests/pysome/test_Some.py:211-220 | `SomeIterable(pattern)` rejects a list in which claus has the id "3" |
| TestCases.UsersDictDefersToMatcher | src/tests/pysome/test_Some.py:200-220 | Comparing `{"users": xs}` with `{"users": SomeIterable(pattern)}` yields the matcher's verdict on `xs` |
| TestCases.NestedIterableCase | src/tests/pysome/test_Some.py:200-220 | The nested dict of users equals the pattern with int ids and not with the string id "3" |
| TestCases.SomeDictCases | src/pysome/Some.py:205-226 | `SomeDict({"a": Some(dict)})` accepts `{"a": {...}, "b": 3}`; `SomeDict(a=SomeOrNone(int))` accepts `{}` |
| TestCases.SomeObjectCases | src/pysome/Some.py:413-432 | `SomeObject(x=Some(int))` accepts an object whose `x` is 12; `SomeObject(x=Some(str))` rejects it and rejects 1 |

## Left out

- Subclass priority of reflected `==`: when both operands are matchers and the right one's class is a subclass of the left one's, Python tries the right operand first. The model always lets the left operand decide.
- Identity shortcuts: `x in list` tests `is` before `==`, and Python containers compare identical elements as equal without calling `__eq__`. The model always calls `==`.
- Hash buckets: sets and dicts look candidates up by hash before comparing, so values that are equal across types (`1` and `True`) are modelled only as far as `PlainEq` goes. Dict keys are strings, and each dict and set literal is assumed to hold distinct keys or elements. A set is iterated in the order of its literal, where Python uses hash order, so for `SomeIterable` over a set the model fixes which element raises first, which one a `Same` binds first and how many messages are logged.
- The regular expression engine: `re.match` is a parameter of the environment returning a bool, except for expressions without special characters and `pattern` templates whose only wildcards are `_` and `.`, which are computed. An invalid expression (`re.error`, as for `SomeStr(pattern="a(")`) is not modelled. The two fixed regexes of `SomeEmail` and `SomeUuid` are not evaluated.
- User predicates: what they return comes from the environment, and a call always returns. A predicate that raises (as `sum(5)` would inside a `NotSome(sum_is_5) == 5`) is not modelled. A predicate is identified by its `__name__` and parameter count, which stands in for `inspect.signature`. Two different functions with the same name and arity are the same predicate in the model: every one-parameter `lambda` is `<lambda>` with one parameter. They get the same answer from the environment and compare equal, where Python runs each function's own body and compares functions by identity. `Some(lambda x: x > 0, lambda x: x < 0) == -1` is True in Python, and the model cannot express it.
- `str()` of containers, objects, classes and `Same` objects inside signatures is a parameter `lit`. Only ints, strings, None, bools, class names, function names and nested matcher signatures are rendered.
- The text of the messages appended to `Some.unequals` is not modelled: only their number is. The list is process-global in Python; the model returns the count each comparison adds. Construction returns no count: the `SomeOrNone(str) == option` checks inside `SomeStr.__init__` (Some.py:329-336) append one message for a non-string option before InvalidArgument is raised, and the model does not record it.
- The `print` call in `Same.__eq__` (Same.py:21): console output is not modelled.
- Floats, and every class outside the fixed lattice (None, bool, int, float, str, list, tuple, dict, set, object, Iterable and user classes deriving from object).
- Attributes exist only on user objects, so `hasattr` and `getattr` are false and absent for every built-in value.
- User objects never define `__len__`, `__contains__` or `__iter__`: `SomeIn` of a user container raises InvalidArgument in the model, and `SomeWithLen`/`SomeIterable` reject user-defined sized or iterable objects.
- The bounds of `SomeWithLen` are ints or absent. Other values that Some.py:269 accepts (`min_length="2"`, which raises TypeError at the comparison; `length=True`, which renders as `length=True`) are not modelled.
- Recursion depth: fuel stands for Python's recursion limit. When it runs out, the comparison raises RecursionError.
- The alias names `has_len`, `is_in`, `is_not`, `is_email` and `is_uuid` (Some.py:438-447) are the same classes and need no separate model.
- The "NotSame" channel of `SameState`: the library declares it but nothing reads it. It is kept in the state and reset like "Same", and no operation binds through it.
- Eval.Eq: the contract states only how the correlation state may evolve. The verdict of each kind of comparison is stated by the MatcherProps, BuiltinEq and SameProps lemmas.
- Eval.Match: as Eval.Eq, only the state discipline is stated here; the verdicts are in MatcherProps.
- Eval.Contains: as Eval.Eq, only the state discipline is stated here; the verdicts for str, list, tuple, set and dict containers are in MatcherProps.SomeInCharacterised.
- MatcherProps.SomeIterableCharacterised: like the other characterisation lemmas, it is stated for operands without `Same` objects and only for comparisons that do not raise. With a `Same` inside, each element comparison sees the state the previous one left.
- Construct.MakeSomeIn: tests `__len__` rather than `__contains__`. For every value of the model the two attributes coincide.
- Construct.MakeSame: the hashability test on the name (Same.py:16) asks `hasattr(name, "__hash__")`, which every Python object passes, so it never raises. An unhashable name raises TypeError when it is looked up among the bindings (`Hashable` in Eval.SameEq).
- Findings.ClassAttribute: the dunder attributes every Python class inherits (`__doc__`, `__dict__`, `__module__`, ...) are not modelled; the lookup is stated only for the names the class body could assign.
- Construct.MakeSomeDict: the keyword arguments are those that reach `**kwargs`. A keyword named `partial_dict` binds to the base parameter in Python, which the model's separate base argument stands for, so the model does not treat it specially.
- Findings.FlatSameEq: the wrapped rules and the comparison with the stored value are evaluated against a fresh window, since in the as-written layout no nested `Same` can read the flat bindings consistently.

## Findings

| source | as written | input that shows it | evidently intended | confidence | as-written member | corrected member |
|---|---|---|---|---|---|---|
| src/pysome/Same.py:21-22 | `Same.__eq__` reads `SameState._allow_same_usage`, which `SameState` never defines, so every comparison raises AttributeError | `SameState._start(); Same(int) == 1` | read the "Same" channel's flag `SameState._allow["Same"]` and proceed when it is set | not executed | Findings.AsWrittenNeverCorrelates | SameProps.SameBindsFirstCandidate |
| src/pysome/Same.py:26-30 | bindings are stored flat in `SameState._state[self.name]`, next to the channel entries that `_start`/`_end` reset, so bindings survive across windows and the name "Same" collides with a channel | masked by the first row: as written line 21 raises before line 26 is reached. With line 21 reading `SameState._allow["Same"]`, `_start(); Same(int) == 1; _end(); _start(); Same(int) == 2` gives False, and `_start(); Same(int, name="Same") == 1` gives False | keep bindings in the channel's map `SameState._state["Same"]`, which `_start`/`_end` clear | not executed | Findings.FlatBindingLeaksAcrossWindows | Findings.CorrectedWindowsStartEmpty |

=== FILE: builtin_eq.dfy ===
/** Python's built-in `==` on values that hold no matcher, as a structural
    reference definition, and the proof that the evaluator computes it
    whenever the recursion limit is not reached. */
module BuiltinEq {
  import opened Results
  import opened Values
  import opened SameStates
  import opened Eval

  /** Structural equality: None only equals None, bool and int compare as
      numbers, strings by content, lists and tuples element-wise, a dict
      equals a dict of the same size holding each of its keys with an equal
      value, a set equals a set of the same size containing each of its
      elements, and objects, classes and functions are equal only to
      themselves. */
  predicate PlainEq(a: Value, b: Value)
    decreases a
  {
    match a
    case VNone => b.VNone?
    case VBool(_) => IntValue(b) == IntValue(a)
    case VInt(_) => IntValue(b) == IntValue(a)
    case VStr(s) => b == VStr(s)
    case VList(xs) =>
      b.VList? && |b.items| == |xs| && forall i :: 0 <= i < |xs| ==> PlainEq(xs[i], b.items[i])
    case VTuple(xs) =>
      b.VTuple? && |b.items| == |xs| && forall i :: 0 <= i < |xs| ==> PlainEq(xs[i], b.items[i])
    case VDict(es) =>
      b.VDict? && |b.entries| == |es|
      && forall i :: 0 <= i < |es| ==> HasKey(b.entries, es[i].key) && PlainEq(es[i].val, Get(b.entries, es[i].key))
    case VSet(xs) =>
      b.VSet? && |b.items| == |xs|
      && forall i :: 0 <= i < |xs| ==> exists j :: 0 <= j < |b.items| && PlainEq(xs[i], b.items[j])
    case VObject(o, _, _) => b.VObject? && b.oid == o
    case _ => b == a
  }

  lemma GetPlain(es: seq<Entry>, k: string)
    requires forall i :: 0 <= i < |es| ==> Plain(es[i].val)
    ensures Plain(Get(es, k))
  {
  }

  /** On plain values `==` is `PlainEq`, logs nothing and leaves the
      correlation state alone, provided the recursion limit exceeds the
      nesting depth of the left operand. */
  lemma {:induction false} EqIsPlainEq(env: Env, fuel: nat, a: Value, b: Value, st: SameState)
    requires Plain(a) && Plain(b) && fuel > Depth(a)
    ensures Eq(env, fuel, a, b, st) == Ok(Step(PlainEq(a, b), st, 0))
    decreases fuel, 3
  {
    assert Eq(env, fuel, a, b, st) == Builtin(env, fuel, a, b, st);
    if a.VList? || a.VTuple? || a.VDict? || a.VSet? {
      ContainerEqIsPlainEq(env, fuel, a, b, st);
    }
  }

  lemma ContainerEqIsPlainEq(env: Env, fuel: nat, a: Value, b: Value, st: SameState)
    requires a.VList? || a.VTuple? || a.VDict? || a.VSet?
    requires Plain(a) && Plain(b) && fuel > Depth(a)
    ensures Builtin(env, fuel, a, b, st) == Ok(Step(PlainEq(a, b), st, 0))
    decreases fuel, 2
  {
    match a
    case VList(xs) =>
      if b.VList? && |b.items| == |xs| {
        SeqEqIsPlain(env, fuel, xs, b.items, 0, st);
        assert PlainEq(a, b) == SeqPlainFrom(xs, b.items, 0);
      }
    case VTuple(xs) =>
      if b.VTuple? {
        TupleEqIsPlain(env, fuel, xs, b.items, st);
      }
    case VDict(es) =>
      if b.VDict? && |b.entries| == |es| {
        DictEqIsPlain(env, fuel, es, b.entries, 0, st);
        assert PlainEq(a, b) == DictPlainFrom(es, b.entries, 0);
      }
    case VSet(xs) =>
      if b.VSet? && |b.items| == |xs| {
        SetEqIsPlain(env, fuel, xs, b.items, 0, st);
        assert PlainEq(a, b) == SetPlainFrom(xs, b.items, 0);
      }
  }

  /** Some element of `ys` from position `j` on is `PlainEq` to `x`. */
  predicate InPlain(x: Value, ys: seq<Value>, j: nat) {
    exists k :: j <= k < |ys| && PlainEq(x, ys[k])
  }

  lemma {:induction false} SeqEqIsPlain(env: Env, fuel: nat, xs: seq<Value>, ys: seq<Value>, i: nat, st: SameState)
    requires |xs| == |ys| && i <= |xs| && fuel > 0
    requires forall k :: 0 <= k < |xs| ==> Plain(xs[k]) && Plain(ys[k]) && fuel - 1 > Depth(xs[k])
    ensures SeqEq(env, fuel, xs, ys, i, st) == Ok(Step(SeqPlainFrom(xs, ys, i), st, 0))
    decreases fuel, 1, |xs| - i
  {
    if i == |xs| {
      SeqEqEnd(env, fuel, xs, ys, st);
    } else {
      EqIsPlainEq(env, fuel - 1, xs[i], ys[i], st);
      SeqEqIsPlain(env, fuel, xs, ys, i + 1, st);
      SeqEqStep(env, fuel, xs, ys, i, st);
    }
  }

  /** On plain items the prefix-first tuple comparison gives the verdict of
      a length test followed by the pairwise one. */
  lemma TupleEqIsPlain(env: Env, fuel: nat, xs: seq<Value>, ys: seq<Value>, st: SameState)
    requires fuel > 0
    requires forall k :: 0 <= k < |xs| ==> Plain(xs[k]) && fuel - 1 > Depth(xs[k])
    requires forall k :: 0 <= k < |ys| ==> Plain(ys[k])
    ensures TupleEq(env, fuel, xs, ys, st)
         == Ok(Step(|xs| == |ys| && forall k :: 0 <= k < |xs| ==> PlainEq(xs[k], ys[k]), st, 0))
    decreases fuel, 1
  {
    var n := if |xs| <= |ys| then |xs| else |ys|;
    SeqEqIsPlain(env, fuel, xs[..n], ys[..n], 0, st);
    if |xs| == |ys| {
      assert xs[..n] == xs;
      assert ys[..n] == ys;
    }
  }

  /** Positions `i` on of `xs` and `ys` are pairwise `PlainEq`. */
  predicate SeqPlainFrom(xs: seq<Value>, ys: seq<Value>, i: nat)
    requires |xs| == |ys|
  {
    forall k :: i <= k < |xs| ==> PlainEq(xs[k], ys[k])
  }

  lemma SeqEqEnd(env: Env, fuel: nat, xs: seq<Value>, ys: seq<Value>, st: SameState)
    requires fuel > 0 && |xs| == |ys|
    ensures SeqEq(env, fuel, xs, ys, |xs|, st) == Ok(Step(SeqPlainFrom(xs, ys, |xs|), st, 0))
  {
  }

  lemma SeqEqStep(env: Env, fuel: nat, xs: seq<Value>, ys: seq<Value>, i: nat, st: SameState)
    requires fuel > 0 && |xs| == |ys| && i < |xs|
    requires Eq(env, fuel - 1, xs[i], ys[i], st) == Ok(Step(PlainEq(xs[i], ys[i]), st, 0))
    requires SeqEq(env, fuel, xs, ys, i + 1, st) == Ok(Step(SeqPlainFrom(xs, ys, i + 1), st, 0))
    ensures SeqEq(env, fuel, xs, ys, i, st) == Ok(Step(SeqPlainFrom(xs, ys, i), st, 0))
  {
    assert SeqPlainFrom(xs, ys, i) <==> PlainEq(xs[i], ys[i]) && SeqPlainFrom(xs, ys, i + 1);
  }

  lemma {:induction false} DictEqIsPlain(env: Env, fuel: nat, es: seq<Entry>, fs: seq<Entry>, i: nat, st: SameState)
    requires i <= |es| && fuel > 0
    requires forall k :: 0 <= k < |es| ==> Plain(es[k].val) && fuel - 1 > Depth(es[k].val)
    requires forall k :: 0 <= k < |fs| ==> Plain(fs[k].val)
    ensures DictEq(env, fuel, es, fs, i, st) == Ok(Step(DictPlainFrom(es, fs, i), st, 0))
    decreases fuel, 1, |es| - i
  {
    if i == |es| {
      DictEqEnd(env, fuel, es, fs, st);
    } else if !HasKey(fs, es[i].key) {
      DictEqMissing(env, fuel, es, fs, i, st);
    } else {
      GetPlain(fs, es[i].key);
      EqIsPlainEq(env, fuel - 1, es[i].val, Get(fs, es[i].key), st);
      DictEqIsPlain(env, fuel, es, fs, i + 1, st);
      DictEqStep(env, fuel, es, fs, i, st);
    }
  }

  lemma DictEqEnd(env: Env, fuel: nat, es: seq<Entry>, fs: seq<Entry>, st: SameState)
    requires fuel > 0
    ensures DictEq(env, fuel, es, fs, |es|, st) == Ok(Step(DictPlainFrom(es, fs, |es|), st, 0))
  {
  }

  lemma DictEqMissing(env: Env, fuel: nat, es: seq<Entry>, fs: seq<Entry>, i: nat, st: SameState)
    requires fuel > 0 && i < |es| && !HasKey(fs, es[i].key)
    ensures DictEq(env, fuel, es, fs, i, st) == Ok(Step(DictPlainFrom(es, fs, i), st, 0))
  {
  }

  /** Every entry of `es` from position `i` on has its key in `fs`, with a
      `PlainEq` value. */
  predicate DictPlainFrom(es: seq<Entry>, fs: seq<Entry>, i: nat) {
    forall k :: i <= k < |es| ==> HasKey(fs, es[k].key) && PlainEq(es[k].val, Get(fs, es[k].key))
  }

  lemma DictEqStep(env: Env, fuel: nat, es: seq<Entry>, fs: seq<Entry>, i: nat, st: SameState)
    requires i < |es| && fuel > 0 && HasKey(fs, es[i].key)
    requires Eq(env, fuel - 1, es[i].val, Get(fs, es[i].key), st) ==
             Ok(Step(PlainEq(es[i].val, Get(fs, es[i].key)), st, 0))
    requires DictEq(env, fuel, es, fs, i + 1, st) == Ok(Step(DictPlainFrom(es, fs, i + 1), st, 0))
    ensures DictEq(env, fuel, es, fs, i, st) == Ok(Step(DictPlainFrom(es, fs, i), st, 0))
  {
    assert DictPlainFrom(es, fs, i) <==>
           PlainEq(es[i].val, Get(fs, es[i].key)) && DictPlainFrom(es, fs, i + 1);
  }

  lemma {:induction false} SetEqIsPlain(env: Env, fuel: nat, xs: seq<Value>, ys: seq<Value>, i: nat, st: SameState)
    requires i <= |xs| && fuel > 0
    requires forall k :: 0 <= k < |xs| ==> Plain(xs[k]) && fuel - 1 > Depth(xs[k])
    requires forall k :: 0 <= k < |ys| ==> Plain(ys[k])
    ensures SetEq(env, fuel, xs, ys, i, st) == Ok(Step(SetPlainFrom(xs, ys, i), st, 0))
    decreases fuel, 1, |xs| - i
  {
    if i == |xs| {
      SetEqEnd(env, fuel, xs, ys, st);
    } else {
      AnyEqIsPlain(env, fuel, xs[i], ys, 0, st);
      SetEqIsPlain(env, fuel, xs, ys, i + 1, st);
      SetEqStep(env, fuel, xs, ys, i, st);
    }
  }

  /** Every element of `xs` from position `i` on is `PlainEq` to some
      element of `ys`. */
  predicate SetPlainFrom(xs: seq<Value>, ys: seq<Value>, i: nat) {
    forall k :: i <= k < |xs| ==> InPlain(xs[k], ys, 0)
  }

  lemma SetEqEnd(env: Env, fuel: nat, xs: seq<Value>, ys: seq<Value>, st: SameState)
    requires fuel > 0
    ensures SetEq(env, fuel, xs, ys, |xs|, st) == Ok(Step(SetPlainFrom(xs, ys, |xs|), st, 0))
  {
  }

  lemma SetEqStep(env: Env, fuel: nat, xs: seq<Value>, ys: seq<Value>, i: nat, st: SameState)
    requires fuel > 0 && i < |xs|
    requires AnyEq(env, fuel, xs[i], ys, 0, st) == Ok(Step(InPlain(xs[i], ys, 0), st, 0))
    requires SetEq(env, fuel, xs, ys, i + 1, st) == Ok(Step(SetPlainFrom(xs, ys, i + 1), st, 0))
    ensures SetEq(env, fuel, xs, ys, i, st) == Ok(Step(SetPlainFrom(xs, ys, i), st, 0))
  {
    assert SetPlainFrom(xs, ys, i) <==> InPlain(xs[i], ys, 0) && SetPlainFrom(xs, ys, i + 1);
  }

  lemma {:induction false} AnyEqIsPlain(env: Env, fuel: nat, x: Value, ys: seq<Value>, j: nat, st: SameState)
    requires j <= |ys| && fuel > 0 && Plain(x) && fuel - 1 > Depth(x)
    requires forall k :: 0 <= k < |ys| ==> Plain(ys[k])
    ensures AnyEq(env, fuel, x, ys, j, st) == Ok(Step(InPlain(x, ys, j), st, 0))
    decreases fuel, 0, |ys| - j
  {
    if j == |ys| {
      AnyEqEnd(env, fuel, x, ys, st);
    } else {
      EqIsPlainEq(env, fuel - 1, x, ys[j], st);
      AnyEqIsPlain(env, fuel, x, ys, j + 1, st);
      AnyEqStep(env, fuel, x, ys, j, st);
    }
  }

  lemma AnyEqEnd(env: Env, fuel: nat, x: Value, ys: seq<Value>, st: SameState)
    requires fuel > 0
    ensures AnyEq(env, fuel, x, ys, |ys|, st) == Ok(Step(InPlain(x, ys, |ys|), st, 0))
  {
  }

  lemma AnyEqStep(env: Env, fuel: nat, x: Value, ys: seq<Value>, j: nat, st: SameState)
    requires fuel > 0 && j < |ys|
    requires Eq(env, fuel - 1, x, ys[j], st) == Ok(Step(PlainEq(x, ys[j]), st, 0))
    requires AnyEq(env, fuel, x, ys, j + 1, st) == Ok(Step(InPlain(x, ys, j + 1), st, 0))
    ensures AnyEq(env, fuel, x, ys, j, st) == Ok(Step(InPlain(x, ys, j), st, 0))
  {
    assert InPlain(x, ys, j) <==> PlainEq(x, ys[j]) || InPlain(x, ys, j + 1);
  }

  /** `True == 1` and `1 == True`: bool is a subclass of int. */
  lemma BoolIsNumeric(env: Env, fuel: nat, st: SameState)
    requires fuel > 0
    ensures Eq(env, fuel, VBool(true), VInt(1), st) == Ok(Step(true, st, 0))
    ensures Eq(env, fuel, VInt(0), VBool(false), st) == Ok(Step(true, st, 0))
    ensures Eq(env, fuel, VStr("1"), VInt(1), st) == Ok(Step(false, st, 0))
  {
  }
}

=== FILE: construct.dfy ===
/** The matcher constructors (`__init__`): argument validation and what each
    class keeps. Construction never evaluates anything. */
module Construct {
  import opened Results
  import opened Values

  /** One positional argument of `Some(*args)`: a class, a `Some` instance,
      or a callable with exactly one parameter. */
  function ArgToRule(arg: Value): (r: Result<Rule>)
    ensures r.Ok? ==> RuleArg(r.value) == arg
    ensures r == Err(InvalidFunction) <==> arg.VFunc? && arg.f.params != 1
    ensures r == Err(InvalidArgument) <==> !(arg.VType? || arg.VMatcher? || arg.VFunc?)
  {
    match arg
    case VType(t) => Ok(TypeRule(t))
    case VMatcher(m) => Ok(NestedRule(m))
    case VFunc(f) => if f.params != 1 then Err(InvalidFunction) else Ok(PredRule(f))
    case _ => Err(InvalidArgument)
  }

  /** The argument a rule was built from. */
  function RuleArg(r: Rule): Value {
    match r
    case TypeRule(t) => VType(t)
    case NestedRule(m) => VMatcher(m)
    case PredRule(f) => VFunc(f)
  }

  function RuleArgs(rs: seq<Rule>): (args: seq<Value>)
    ensures |args| == |rs|
    ensures forall i :: 0 <= i < |rs| ==> args[i] == RuleArg(rs[i])
  {
    seq(|rs|, i requires 0 <= i < |rs| => RuleArg(rs[i]))
  }

  /** A rule `Some.__init__` could have produced. */
  predicate ValidRule(r: Rule) {
    r.PredRule? ==> r.f.params == 1
  }

  /** The validation loop of `Some.__init__`: every argument is checked in
      order and the first invalid one raises. */
  function ValidateArgs(args: seq<Value>): (r: Result<seq<Rule>>)
    ensures r.Ok? <==> forall i :: 0 <= i < |args| ==> ArgToRule(args[i]).Ok?
    ensures r.Ok? ==> |r.value| == |args|
    ensures r.Ok? ==> forall i :: 0 <= i < |args| ==> ArgToRule(args[i]) == Ok(r.value[i])
    ensures r.Err? ==>
      exists i :: 0 <= i < |args| && ArgToRule(args[i]) == Err(r.error)
                  && forall j :: 0 <= j < i ==> ArgToRule(args[j]).Ok?
  {
    if args == [] then Ok([])
    else
      var first :- ArgToRule(args[0]);
      var rest :- ValidateArgs(args[1..]);
      assert forall i :: 1 <= i < |args| ==> args[i] == args[1..][i - 1];
      Ok([first] + rest)
  }

  /** `Some(*args)`: with no arguments `types` is None (the wildcard);
      otherwise every argument is kept, in order, as a rule. */
  function MakeSome(args: seq<Value>): (r: Result<Matcher>)
    ensures r.Ok? <==> forall i :: 0 <= i < |args| ==> ArgToRule(args[i]).Ok?
    ensures r.Ok? ==> r.value.Some? && RuleArgs(r.value.rules) == args
    ensures r.Ok? ==> (r.value.rules == [] <==> args == [])
    ensures r.Ok? ==> forall i :: 0 <= i < |r.value.rules| ==> ValidRule(r.value.rules[i])
    ensures r.Err? ==> r.error == InvalidArgument || r.error == InvalidFunction
  {
    var rules :- ValidateArgs(args);
    assert RuleArgs(rules) == args;
    Ok(Some(rules))
  }

  /** `SomeOrNone(*args)`: the arguments are validated like `Some`'s
      (the appended `is_none` predicate is always valid). */
  function MakeSomeOrNone(args: seq<Value>): (r: Result<Matcher>)
    ensures r.Ok? <==> MakeSome(args).Ok?
    ensures r.Ok? ==> r.value == SomeOrNone(MakeSome(args).value.rules)
    ensures r.Err? ==> r.error == MakeSome(args).error
  {
    var rules :- ValidateArgs(args);
    Ok(SomeOrNone(rules))
  }

  /** `NotSome(*args)`: validated exactly like `Some(*args)`. */
  function MakeNotSome(args: seq<Value>): (r: Result<Matcher>)
    ensures r.Ok? <==> MakeSome(args).Ok?
    ensures r.Ok? ==> r.value == NotSome(MakeSome(args).value.rules)
    ensures r.Err? ==> r.error == MakeSome(args).error
  {
    var rules :- ValidateArgs(args);
    Ok(NotSome(rules))
  }

  /** `SomeIterable(arg, length, is_type)`: `is_type` must be a class. */
  function MakeSomeIterable(arg: Value, length: Value, isType: Value): (r: Result<Matcher>)
    ensures r.Err? <==> !isType.VType?
    ensures r.Err? ==> r.error == InvalidArgument
    ensures r.Ok? ==> r.value == SomeIterable(arg, length, isType.t)
  {
    if !isType.VType? then Err(InvalidArgument) else Ok(SomeIterable(arg, length, isType.t))
  }

  /** The default element pattern of `SomeIterable`/`SomeList`: `Some()`. */
  const AnyElement: Value := VMatcher(Some([]))

  lemma HasKeyCons(e: Entry, d: seq<Entry>, k: string)
    ensures HasKey([e] + d, k) <==> e.key == k || HasKey(d, k)
    ensures Get([e] + d, k) == if e.key == k then e.val else Get(d, k)
  {
    assert ([e] + d)[0] == e;
    assert ([e] + d)[1..] == d;
    if HasKey(d, k) {
      var i :| 0 <= i < |d| && d[i].key == k;
      assert ([e] + d)[i + 1].key == k;
    }
    if HasKey([e] + d, k) && e.key != k {
      var i :| 0 <= i < |[e] + d| && ([e] + d)[i].key == k;
      assert d[i - 1].key == k;
    }
  }

  lemma HasKeyTail(d: seq<Entry>, k: string)
    requires d != []
    ensures HasKey(d, k) <==> d[0].key == k || HasKey(d[1..], k)
  {
    assert d == [d[0]] + d[1..];
    HasKeyCons(d[0], d[1..], k);
  }

  /** `d[k] = v` on a dict: an existing key keeps its position, a new key is
      appended. */
  function Put(d: seq<Entry>, e: Entry): (r: seq<Entry>)
    ensures forall k :: HasKey(r, k) <==> HasKey(d, k) || k == e.key
    ensures Get(r, e.key) == e.val
    ensures forall k :: k != e.key ==> Get(r, k) == Get(d, k)
  {
    if d == [] then
      HasKeyCons(e, [], e.key);
      assert [e] + [] == [e];
      assert forall k :: HasKey([e], k) <==> k == e.key by {
        forall k ensures HasKey([e] + [], k) <==> e.key == k || HasKey([], k) { HasKeyCons(e, [], k); }
      }
      [e]
    else if d[0].key == e.key then
      var r := [e] + d[1..];
      assert forall k :: HasKey(r, k) <==> HasKey(d, k) || k == e.key by {
        forall k ensures HasKey(r, k) <==> HasKey(d, k) || k == e.key {
          HasKeyCons(e, d[1..], k);
          HasKeyTail(d, k);
        }
      }
      assert forall k :: Get(r, k) == if e.key == k then e.val else Get(d[1..], k) by {
        forall k ensures Get(r, k) == if e.key == k then e.val else Get(d[1..], k) {
          HasKeyCons(e, d[1..], k);
        }
      }
      r
    else
      var rest := Put(d[1..], e);
      var r := [d[0]] + rest;
      assert forall k :: HasKey(r, k) <==> HasKey(d, k) || k == e.key by {
        forall k ensures HasKey(r, k) <==> HasKey(d, k) || k == e.key {
          HasKeyCons(d[0], rest, k);
          HasKeyTail(d, k);
        }
      }
      assert forall k :: Get(r, k) == if d[0].key == k then d[0].val else Get(rest, k) by {
        forall k ensures Get(r, k) == if d[0].key == k then d[0].val else Get(rest, k) {
          HasKeyCons(d[0], rest, k);
        }
      }
      r
  }

  /** Insertion order: a new key goes to the end. */
  lemma {:induction false} PutNewAppends(d: seq<Entry>, e: Entry)
    requires !HasKey(d, e.key)
    ensures Put(d, e) == d + [e]
  {
    if d != [] {
      HasKeyTail(d, e.key);
      PutNewAppends(d[1..], e);
      assert Put(d, e) == [d[0]] + (d[1..] + [e]);
      assert d == [d[0]] + d[1..];
    }
  }

  /** Insertion order: every position keeps its key, and a key already
      present adds no entry. */
  lemma {:induction false} PutKeepsPositions(d: seq<Entry>, e: Entry)
    ensures |Put(d, e)| == if HasKey(d, e.key) then |d| else |d| + 1
    ensures forall i :: 0 <= i < |d| ==> Put(d, e)[i].key == d[i].key
  {
    if d == [] {
      assert !HasKey(d, e.key);
    } else {
      HasKeyTail(d, e.key);
      var r := Put(d, e);
      if d[0].key == e.key {
        assert r == [e] + d[1..];
      } else {
        var rest := Put(d[1..], e);
        PutKeepsPositions(d[1..], e);
        assert r == [d[0]] + rest;
        forall i | 1 <= i < |d|
          ensures r[i].key == d[i].key
        {
          assert r[i] == rest[i - 1];
          assert d[i] == d[1..][i - 1];
        }
      }
    }
  }

  /** `dict(base, **kwargs)`: the keyword entries are stored in order, each
      overriding an existing key or adding a new one. */
  function Update(d: seq<Entry>, kwargs: seq<Entry>): (r: seq<Entry>)
    ensures forall k :: HasKey(r, k) <==> HasKey(d, k) || HasKey(kwargs, k)
    ensures forall k :: !HasKey(kwargs, k) ==> Get(r, k) == Get(d, k)
    decreases |kwargs|
  {
    if kwargs == [] then d
    else
      assert forall k :: HasKey(kwargs, k) <==> kwargs[0].key == k || HasKey(kwargs[1..], k) by {
        forall k ensures HasKey(kwargs, k) <==> kwargs[0].key == k || HasKey(kwargs[1..], k) {
          HasKeyTail(kwargs, k);
        }
      }
      Update(Put(d, kwargs[0]), kwargs[1..])
  }

  /** Every keyword entry wins over the base (keyword names are distinct). */
  lemma {:induction false} UpdateOverrides(d: seq<Entry>, kwargs: seq<Entry>, k: string)
    requires DistinctKeys(kwargs) && HasKey(kwargs, k)
    ensures Get(Update(d, kwargs), k) == Get(kwargs, k)
    decreases |kwargs|
  {
    HasKeyTail(kwargs, k);
    if kwargs[0].key == k {
      assert !HasKey(kwargs[1..], k);
    } else {
      assert DistinctKeys(kwargs[1..]) by {
        forall i, j | 0 <= i < j < |kwargs[1..]| ensures kwargs[1..][i].key != kwargs[1..][j].key {
          assert kwargs[1..][i] == kwargs[i + 1] && kwargs[1..][j] == kwargs[j + 1];
        }
      }
      UpdateOverrides(Put(d, kwargs[0]), kwargs[1..], k);
    }
  }

  /** `SomeDict(partial_dict, **kwargs)`: a keyword named `self` clashes
      with the instance parameter of `__init__`; the base must be None or a
      dict; the pattern is the base updated with the keyword entries; and
      `get_signature(**pattern)` raises TypeError for a key named `cls`, the
      classmethod's own first parameter. */
  function MakeSomeDict(base: Value, kwargs: seq<Entry>): (r: Result<Matcher>)
    ensures HasKey(kwargs, "self") ==> r == Err(TypeError)
    ensures !HasKey(kwargs, "self") && !(base.VNone? || base.VDict?) ==> r == Err(InvalidArgument)
    ensures r.Ok? <==> && !HasKey(kwargs, "self")
                       && (base.VNone? || base.VDict?)
                       && !HasKey(kwargs, "cls")
                       && !(base.VDict? && HasKey(base.entries, "cls"))
    ensures r.Err? ==> r.error == InvalidArgument || r.error == TypeError
    ensures r.Ok? ==> r.value.SomeDict?
    ensures r.Ok? && base.VNone? ==> r.value.partial == Update([], kwargs)
    ensures r.Ok? && base.VDict? ==> r.value.partial == Update(base.entries, kwargs)
  {
    if HasKey(kwargs, "self") then Err(TypeError)
    else
      var partial :- match base
        case VNone => Ok(Update([], kwargs))
        case VDict(es) => Ok(Update(es, kwargs))
        case _ => Err(InvalidArgument);
      if HasKey(partial, "cls") then Err(TypeError) else Ok(SomeDict(partial))
  }

  /** `SomeIn(container)`: the container must have `__contains__`. */
  function MakeSomeIn(container: Value): (r: Result<Matcher>)
    ensures r.Ok? <==> HasLenAttr(container)
    ensures r.Ok? ==> r.value == SomeIn(container)
    ensures r.Err? ==> r.error == InvalidArgument
  {
    if HasLenAttr(container) then Ok(SomeIn(container)) else Err(InvalidArgument)
  }

  /** A `SomeStr` option must be a string or None. */
  function StrOption(v: Value): (r: Result<Option<string>>)
    ensures r.Ok? <==> v.VNone? || v.VStr?
    ensures r.Ok? ==> (r.value.Present? <==> v.VStr?)
    ensures r.Ok? && v.VStr? ==> r.value.value == v.s
  {
    match v
    case VNone => Ok(Absent)
    case VStr(s) => Ok(Present(s))
    case _ => Err(InvalidArgument)
  }

  /** `SomeStr(regex, pattern, endswith, startswith)`: each option is
      checked in this order against `SomeOrNone(str)`. */
  function MakeSomeStr(regex: Value, pattern: Value, endswith: Value, startswith: Value): (r: Result<Matcher>)
    ensures r.Ok? <==> (forall o :: o in [regex, pattern, endswith, startswith] ==> o.VNone? || o.VStr?)
    ensures r.Err? ==> r.error == InvalidArgument
    ensures r.Ok? ==> (r.value.SomeStr?
      && (r.value.regex.Present? <==> regex.VStr?)
      && (r.value.pattern.Present? <==> pattern.VStr?)
      && (r.value.endswith.Present? <==> endswith.VStr?)
      && (r.value.startswith.Present? <==> startswith.VStr?))
    ensures r.Ok? && regex.VStr? ==> r.value.regex == Present(regex.s)
    ensures r.Ok? && pattern.VStr? ==> r.value.pattern == Present(pattern.s)
    ensures r.Ok? && endswith.VStr? ==> r.value.endswith == Present(endswith.s)
    ensures r.Ok? && startswith.VStr? ==> r.value.startswith == Present(startswith.s)
  {
    var re :- StrOption(regex);
    var pat :- StrOption(pattern);
    var ew :- StrOption(endswith);
    var sw :- StrOption(startswith);
    Ok(SomeStr(re, pat, ew, sw))
  }

  /** The fixed regular expressions of `SomeEmail` and `SomeUuid`. */
  const EmailRegex: string := "^[a-zA-Z0-9_.+-]+@[a-zA-Z0-9-]+\\.[a-zA-Z0-9-.]+$"
  const UuidRegex: string := "^[0-9a-f]{8}\\b-[0-9a-f]{4}-[0-9a-f]{4}-[0-9a-f]{4}-\\b[0-9a-f]{12}$"

  /** `SomeObject(*args, **kwargs)`: a keyword named `self` clashes with
      the instance parameter of `__init__`; `Some(*args)` is built eagerly,
      so its validation errors surface at construction; and
      `get_signature(*args, **kwargs)` raises TypeError for a keyword named
      `cls`. */
  function MakeSomeObject(args: seq<Value>, kwargs: seq<Entry>): (r: Result<Matcher>)
    ensures HasKey(kwargs, "self") ==> r == Err(TypeError)
    ensures !HasKey(kwargs, "self") && MakeSome(args).Err? ==> r == Err(MakeSome(args).error)
    ensures r.Ok? <==> !HasKey(kwargs, "self") && MakeSome(args).Ok? && !HasKey(kwargs, "cls")
    ensures r.Err? && !HasKey(kwargs, "self") && MakeSome(args).Ok? ==> r.error == TypeError
    ensures r.Ok? ==> r.value == SomeObject(MakeSome(args).value.rules, kwargs)
  {
    if HasKey(kwargs, "self") then Err(TypeError)
    else
      var rules :- ValidateArgs(args);
      if HasKey(kwargs, "cls") then Err(TypeError) else Ok(SomeObject(rules, kwargs))
  }

  /** `Same(*args, name=default_name)`: the arguments are wrapped in `Some`;
      the hashability test on the name cannot fail (every object has a
      `__hash__` attribute, possibly None). */
  function MakeSame(args: seq<Value>, name: Option<Value>): (r: Result<Same>)
    ensures r.Ok? <==> MakeSome(args).Ok?
    ensures r.Ok? ==> r.value.rules == MakeSome(args).value.rules
    ensures r.Ok? ==> r.value.name == (if name.Present? then name.value else DefaultName)
    ensures r.Err? ==> r.error == MakeSome(args).error
  {
    var rules :- ValidateArgs(args);
    Ok(Same(rules, if name.Present? then name.value else DefaultName))
  }

  /** All unnamed `Same` objects share one binding name. */
  lemma UnnamedSamesShareName(args1: seq<Value>, args2: seq<Value>)
    requires MakeSame(args1, Absent).Ok? && MakeSame(args2, Absent).Ok?
    ensures MakeSame(args1, Absent).value.name == MakeSame(args2, Absent).value.name == DefaultName
  {
  }
}

=== FILE: eval.dfy ===
/** Python's `==` as the matcher engine sees it: dispatch to the left
    operand's `__eq__`, reflection to a matcher or `Same` on the right, and
    built-in structural equality otherwise, together with every matcher's
    `__eq__` and `Same.__eq__`. */
module Eval {
  import opened Results
  import opened Values
  import opened SameStates
  import Construct
  import Text

  /** What the model does not compute itself: the result of calling a user
      predicate on a value, and `re.match` for expressions outside the
      fragment `Text` makes concrete. */
  datatype Env = Env(call: (Func, Value) -> Value, reMatch: (string, string) -> bool)

  /** The outcome of one comparison: its truth value, the correlation state
      after it, and how many messages it appended to `Some.unequals`. */
  datatype Step = Step(eq: bool, state: SameState, unequals: nat)

  /** `Some.__eq__` ends by logging one message when no rule matched. */
  function Conclude(r: Step): (c: Step)
    ensures c.eq == r.eq && c.state == r.state
    ensures c.unequals == if r.eq then r.unequals else r.unequals + 1
  {
    if r.eq then r else Step(false, r.state, r.unequals + 1)
  }

  /** A comparison `second` that ran after `first`: its result, with both
      comparisons' messages. */
  function Then(first: Step, second: Step): Step {
    Step(second.eq, second.state, first.unequals + second.unequals)
  }

  /** Every binding of `m1` is still in `m2`, unchanged. */
  predicate Extends(m1: map<Value, Value>, m2: map<Value, Value>) {
    forall k :: k in m1 ==> k in m2 && m2[k] == m1[k]
  }

  /** What any evaluation may do to the correlation state: the flags and
      the channels stay, channels other than "Same" stay as they are, and
      the "Same" bindings only grow. */
  predicate Evolves(st: SameState, st2: SameState) {
    if "Same" in st.state then
      && "Same" in st2.state
      && st2 == st.(state := st.state["Same" := st2.state["Same"]])
      && Extends(st.state["Same"], st2.state["Same"])
    else st2 == st
  }

  /** `int(v)` for the values `==` treats as numbers: bool is a subclass of int. */
  function IntValue(v: Value): Option<int> {
    match v
    case VBool(b) => Present(if b then 1 else 0)
    case VInt(i) => Present(i)
    case _ => Absent
  }

  /** Python truthiness of an optional int bound of `SomeWithLen`
      (`if length:`): present and non-zero, negative bounds included. */
  predicate Truthy(o: Option<int>) {
    o.Present? && o.value != 0
  }

  /** `a == b`. The left operand's `__eq__` runs first; a matcher or `Same`
      on the right is reached through Python's reflected comparison; plain
      values compare structurally. `fuel` bounds the nesting of comparisons
      (Python's recursion limit). */
  function Eq(env: Env, fuel: nat, a: Value, b: Value, st: SameState): (r: Result<Step>)
    decreases fuel, 7
    ensures r.Ok? ==> Evolves(st, r.value.state)
    ensures r.Ok? && SameFree(a) && SameFree(b) ==> r.value.state == st
  {
    if fuel == 0 then Err(RecursionError)
    else if a.VMatcher? then Match(env, fuel, a.m, b, st)
    else if a.VSame? then SameEq(env, fuel, a.same, b, st)
    else if b.VMatcher? then Match(env, fuel, b.m, a, st)
    else if b.VSame? then SameEq(env, fuel, b.same, a, st)
    else Builtin(env, fuel, a, b, st)
  }

  /** The built-in `__eq__` of the left operand: numbers by value, strings
      by content, lists element-wise once the lengths agree, tuples
      element-wise over the common prefix before the lengths, dicts by keys then values,
      sets by membership, objects, classes and functions by identity. */
  function Builtin(env: Env, fuel: nat, a: Value, b: Value, st: SameState): (r: Result<Step>)
    decreases fuel, 5
    ensures r.Ok? ==> Evolves(st, r.value.state)
    ensures r.Ok? && SameFree(a) && SameFree(b) ==> r.value.state == st
  {
    if fuel == 0 then Err(RecursionError)
    else
      match a
      case VNone => Ok(Step(b.VNone?, st, 0))
      case VBool(_) => Ok(Step(IntValue(b) == IntValue(a), st, 0))
      case VInt(_) => Ok(Step(IntValue(b) == IntValue(a), st, 0))
      case VStr(s) => Ok(Step(b.VStr? && b.s == s, st, 0))
      case VList(xs) =>
        if b.VList? && |b.items| == |xs| then SeqEq(env, fuel, xs, b.items, 0, st) else Ok(Step(false, st, 0))
      case VTuple(xs) =>
        if b.VTuple? then TupleEq(env, fuel, xs, b.items, st) else Ok(Step(false, st, 0))
      case VDict(es) =>
        if b.VDict? && |b.entries| == |es| then DictEq(env, fuel, es, b.entries, 0, st) else Ok(Step(false, st, 0))
      case VSet(xs) =>
        if b.VSet? && |b.items| == |xs| then SetEq(env, fuel, xs, b.items, 0, st) else Ok(Step(false, st, 0))
      case VObject(o, _, _) => Ok(Step(b.VObject? && b.oid == o, st, 0))
      case _ => Ok(Step(b == a, st, 0))
  }

  /** Pairwise equality of two equally long sequences: element by element
      from the left, stopping at the first unequal pair. */
  function SeqEq(env: Env, fuel: nat, xs: seq<Value>, ys: seq<Value>, i: nat, st: SameState): (r: Result<Step>)
    requires |xs| == |ys| && i <= |xs|
    decreases fuel, 3, |xs| - i
    ensures r.Ok? ==> Evolves(st, r.value.state)
    ensures (r.Ok? && SameFreeSeq(xs)
                  && SameFreeSeq(ys))
            ==> r.value.state == st
  {
    if fuel == 0 then Err(RecursionError)
    else if i == |xs| then Ok(Step(true, st, 0))
    else
      var r1 :- Eq(env, fuel - 1, xs[i], ys[i], st);
      if !r1.eq then Ok(r1)
      else
        var r2 :- SeqEq(env, fuel, xs, ys, i + 1, r1.state);
        Ok(Then(r1, r2))
  }

  /** Tuple equality. Unlike lists, tuples have no length shortcut: the
      items are compared pairwise up to the shorter length, stopping at the
      first unequal pair, and only then do the lengths decide. Matchers in
      the common prefix therefore run, log and bind even when the lengths
      differ. */
  function TupleEq(env: Env, fuel: nat, xs: seq<Value>, ys: seq<Value>, st: SameState): (r: Result<Step>)
    decreases fuel, 4
    ensures r.Ok? ==> Evolves(st, r.value.state)
    ensures r.Ok? && SameFreeSeq(xs) && SameFreeSeq(ys) ==> r.value.state == st
    ensures r.Ok? && |xs| != |ys| ==> !r.value.eq
  {
    var n := if |xs| <= |ys| then |xs| else |ys|;
    var p :- SeqEq(env, fuel, xs[..n], ys[..n], 0, st);
    Ok(p.(eq := p.eq && |xs| == |ys|))
  }

  /** Dict equality after the sizes agreed: every key of the left dict is
      in the right one with an equal value (left value on the left). */
  function DictEq(env: Env, fuel: nat, es: seq<Entry>, fs: seq<Entry>, i: nat, st: SameState): (r: Result<Step>)
    requires i <= |es|
    decreases fuel, 3, |es| - i
    ensures r.Ok? ==> Evolves(st, r.value.state)
    ensures (r.Ok? && SameFreeEntries(es)
                  && SameFreeEntries(fs))
            ==> r.value.state == st
  {
    if fuel == 0 then Err(RecursionError)
    else if i == |es| then Ok(Step(true, st, 0))
    else if !HasKey(fs, es[i].key) then Ok(Step(false, st, 0))
    else
      var r1 :- Eq(env, fuel - 1, es[i].val, Get(fs, es[i].key), st);
      if !r1.eq then Ok(r1)
      else
        var r2 :- DictEq(env, fuel, es, fs, i + 1, r1.state);
        Ok(Then(r1, r2))
  }

  /** Set equality after the sizes agreed: every element of the left set is
      a member of the right one. */
  function SetEq(env: Env, fuel: nat, xs: seq<Value>, ys: seq<Value>, i: nat, st: SameState): (r: Result<Step>)
    requires i <= |xs|
    decreases fuel, 4, |xs| - i
    ensures r.Ok? ==> Evolves(st, r.value.state)
    ensures (r.Ok? && SameFreeSeq(xs)
                  && SameFreeSeq(ys))
            ==> r.value.state == st
  {
    if fuel == 0 then Err(RecursionError)
    else if i == |xs| then Ok(Step(true, st, 0))
    else
      var r1 :- AnyEq(env, fuel, xs[i], ys, 0, st);
      if !r1.eq then Ok(r1)
      else
        var r2 :- SetEq(env, fuel, xs, ys, i + 1, r1.state);
        Ok(Then(r1, r2))
  }

  /** `x in container` for a list, tuple or set: some element from position
      `i` on compares equal to `x` (`x` on the left). */
  function AnyEq(env: Env, fuel: nat, x: Value, xs: seq<Value>, i: nat, st: SameState): (r: Result<Step>)
    requires i <= |xs|
    decreases fuel, 3, |xs| - i
    ensures r.Ok? ==> Evolves(st, r.value.state)
    ensures r.Ok? && SameFree(x) && SameFreeSeq(xs) ==> r.value.state == st
  {
    if fuel == 0 then Err(RecursionError)
    else if i == |xs| then Ok(Step(false, st, 0))
    else
      var r1 :- Eq(env, fuel - 1, x, xs[i], st);
      if r1.eq then Ok(r1)
      else
        var r2 :- AnyEq(env, fuel, x, xs, i + 1, r1.state);
        Ok(Then(r1, r2))
  }

  /** `matcher == b`: the `__eq__` of each matcher class. */
  function Match(env: Env, fuel: nat, m: Matcher, b: Value, st: SameState): (r: Result<Step>)
    decreases fuel, 6
    ensures r.Ok? ==> Evolves(st, r.value.state)
    ensures r.Ok? && SameFreeMatcher(m) && SameFree(b) ==> r.value.state == st
  {
    if fuel == 0 then Err(RecursionError)
    else
      match m
      case Some(rs) => SomeEq(env, fuel, rs, b, st)
      case SomeOrNone(rs) =>
        if rs == [] then Ok(Step(true, st, 0))
        else
          var r1 :- FirstRule(env, fuel, rs, 0, b, st);
          if r1.eq || !b.VNone? then Ok(Conclude(r1)) else Ok(Step(true, r1.state, r1.unequals))
      case NotSome(rs) =>
        var r1 :- SomeEq(env, fuel, rs, b, st);
        Ok(Step(!r1.eq, r1.state, r1.unequals))
      case AllOf(args) =>
        var r1 :- AllArgs(env, fuel, args, 0, b, st);
        Ok(Conclude(r1))
      case SomeIterable(arg, length, t) =>
        var r1 :- IterValidate(env, fuel, arg, length, t, b, st);
        Ok(Conclude(r1))
      case SomeList(arg, length) =>
        var r1 :- IterValidate(env, fuel, arg, length, List, b, st);
        Ok(Conclude(r1))
      case SomeDict(p) =>
        if !b.VDict? then Ok(Step(false, st, 1))
        else
          var r1 :- DictValidate(env, fuel, p, b.entries, 0, st);
          Ok(Conclude(r1))
      case SomeIn(c) =>
        var r1 :- Contains(env, fuel, c, b, st);
        Ok(Conclude(r1))
      case SomeWithLen(l, mn, mx) =>
        var ok :- WithLenAccepts(l, mn, mx, b);
        Ok(Conclude(Step(ok, st, 0)))
      case SomeStr(re, pat, ew, sw) => Ok(Conclude(Step(StrAccepts(env, re, pat, ew, sw, b), st, 0)))
      case SomeEmail => Ok(Conclude(Step(StrAccepts(env, Present(Construct.EmailRegex), Absent, Absent, Absent, b), st, 0)))
      case SomeUuid => Ok(Conclude(Step(StrAccepts(env, Present(Construct.UuidRegex), Absent, Absent, Absent, b), st, 0)))
      case SomeObject(rs, attrs) =>
        var r1 :- ObjectAll(env, fuel, rs, attrs, b, st);
        Ok(Conclude(r1))
  }

  /** `Some.__eq__`: with no rules (`types is None`) everything matches;
      otherwise the rules are tried in order and a miss logs one message. */
  function SomeEq(env: Env, fuel: nat, rs: seq<Rule>, b: Value, st: SameState): (r: Result<Step>)
    decreases fuel, 4
    ensures r.Ok? ==> Evolves(st, r.value.state)
    ensures r.Ok? && SameFreeRules(rs) && SameFree(b) ==> r.value.state == st
  {
    if fuel == 0 then Err(RecursionError)
    else if rs == [] then Ok(Step(true, st, 0))
    else
      var r1 :- FirstRule(env, fuel, rs, 0, b, st);
      Ok(Conclude(r1))
  }

  /** The loop of `Some.__eq__` from rule `i` on: true at the first rule
      that accepts, later rules untouched. */
  function FirstRule(env: Env, fuel: nat, rs: seq<Rule>, i: nat, b: Value, st: SameState): (r: Result<Step>)
    requires i <= |rs|
    decreases fuel, 3, |rs| - i
    ensures r.Ok? ==> Evolves(st, r.value.state)
    ensures r.Ok? && SameFreeRules(rs) && SameFree(b) ==> r.value.state == st
  {
    if fuel == 0 then Err(RecursionError)
    else if i == |rs| then Ok(Step(false, st, 0))
    else
      var r1 :- RuleAccepts(env, fuel, rs[i], b, st);
      if r1.eq then Ok(r1)
      else
        var r2 :- FirstRule(env, fuel, rs, i + 1, b, r1.state);
        Ok(Then(r1, r2))
  }

  /** One rule of a `Some`: `isinstance`, a nested matcher's `__eq__`, or a
      predicate call that must return a bool. */
  function RuleAccepts(env: Env, fuel: nat, rule: Rule, b: Value, st: SameState): (r: Result<Step>)
    decreases fuel, 2
    ensures r.Ok? ==> Evolves(st, r.value.state)
    ensures r.Ok? && SameFreeRule(rule) && SameFree(b) ==> r.value.state == st
  {
    if fuel == 0 then Err(RecursionError)
    else
      match rule
      case TypeRule(t) => Ok(Step(IsInstance(b, t), st, 0))
      case NestedRule(m) => Match(env, fuel - 1, m, b, st)
      case PredRule(f) =>
        var v := env.call(f, b);
        if v.VBool? then Ok(Step(v.b, st, 0)) else Err(MustReturnBool)
  }

  /** `all(Some(arg) == other for arg in args)` from argument `i` on: each
      argument is wrapped in a `Some` only when the loop reaches it, so an
      invalid one raises only then. */
  function AllArgs(env: Env, fuel: nat, args: seq<Value>, i: nat, b: Value, st: SameState): (r: Result<Step>)
    requires i <= |args|
    decreases fuel, 3, |args| - i
    ensures r.Ok? ==> Evolves(st, r.value.state)
    ensures r.Ok? && SameFreeSeq(args) && SameFree(b) ==> r.value.state == st
  {
    if fuel == 0 then Err(RecursionError)
    else if i == |args| then Ok(Step(true, st, 0))
    else
      assert SameFreeSeq(args) ==> SameFree(args[i]);
      var rule :- Construct.ArgToRule(args[i]);
      assert SameFreeSeq(args) ==> SameFreeRules([rule]);
      var r1 :- Match(env, fuel - 1, Some([rule]), b, st);
      if !r1.eq then Ok(r1)
      else
        var r2 :- AllArgs(env, fuel, args, i + 1, b, r1.state);
        Ok(Then(r1, r2))
  }

  /** The validator of `SomeIterable`: the class test, then `len(b) != length`
      when a length was given, then `all(arg == x for x in b)`. */
  function IterValidate(env: Env, fuel: nat, arg: Value, length: Value, t: PyType, b: Value, st: SameState)
    : (r: Result<Step>)
    decreases fuel, 4
    ensures r.Ok? ==> Evolves(st, r.value.state)
    ensures r.Ok? && SameFree(arg) && SameFree(length) && SameFree(b) ==> r.value.state == st
  {
    if fuel == 0 then Err(RecursionError)
    else if !IsInstance(b, t) then Ok(Step(false, st, 0))
    else
      // `len(b)` is the number of items `for x in b` visits, and both
      // raise TypeError on the same values.
      var xs :- Items(b);
      if length.VNone? then AllEq(env, fuel, arg, xs, 0, st)
      else
        var r1 :- Eq(env, fuel - 1, VInt(|xs|), length, st);
        if !r1.eq then Ok(r1)
        else
          var r2 :- AllEq(env, fuel, arg, xs, 0, r1.state);
          Ok(Then(r1, r2))
  }

  /** `all(arg == x for x in xs)` from position `i` on (`arg` on the left). */
  function AllEq(env: Env, fuel: nat, arg: Value, xs: seq<Value>, i: nat, st: SameState): (r: Result<Step>)
    requires i <= |xs|
    decreases fuel, 3, |xs| - i
    ensures r.Ok? ==> Evolves(st, r.value.state)
    ensures r.Ok? && SameFree(arg) && SameFreeSeq(xs) ==> r.value.state == st
  {
    if fuel == 0 then Err(RecursionError)
    else if i == |xs| then Ok(Step(true, st, 0))
    else
      var r1 :- Eq(env, fuel - 1, arg, xs[i], st);
      if !r1.eq then Ok(r1)
      else
        var r2 :- AllEq(env, fuel, arg, xs, i + 1, r1.state);
        Ok(Then(r1, r2))
  }

  /** The validator of `SomeDict` from pattern entry `i` on:
      `other.get(key, None) == value` for each entry (candidate on the left). */
  function DictValidate(env: Env, fuel: nat, p: seq<Entry>, es: seq<Entry>, i: nat, st: SameState): (r: Result<Step>)
    requires i <= |p|
    decreases fuel, 3, |p| - i
    ensures r.Ok? ==> Evolves(st, r.value.state)
    ensures (r.Ok? && SameFreeEntries(p)
                  && SameFreeEntries(es))
            ==> r.value.state == st
  {
    if fuel == 0 then Err(RecursionError)
    else if i == |p| then Ok(Step(true, st, 0))
    else
      GetSameFreeIfAll(es, p[i].key);
      var r1 :- Eq(env, fuel - 1, Get(es, p[i].key), p[i].val, st);
      if !r1.eq then Ok(r1)
      else
        var r2 :- DictValidate(env, fuel, p, es, i + 1, r1.state);
        Ok(Then(r1, r2))
  }

  lemma GetSameFreeIfAll(es: seq<Entry>, k: string)
    ensures SameFreeEntries(es) ==> SameFree(Get(es, k))
  {
    if SameFreeEntries(es) {
      GetSameFree(es, k);
    }
  }

  /** The validator of `SomeIn`: `other in container`. A string container
      tests for a substring and rejects non-strings with a TypeError; a dict
      tests its keys and a set its elements, both after hashing the
      candidate; lists and tuples compare element by element. */
  function Contains(env: Env, fuel: nat, c: Value, b: Value, st: SameState): (r: Result<Step>)
    decreases fuel, 4
    ensures r.Ok? ==> Evolves(st, r.value.state)
    ensures r.Ok? && SameFree(c) && SameFree(b) ==> r.value.state == st
  {
    if fuel == 0 then Err(RecursionError)
    else
      match c
      case VStr(s) => if b.VStr? then Ok(Step(Text.IsSubstring(b.s, s), st, 0)) else Err(TypeError)
      case VList(xs) => AnyEq(env, fuel, b, xs, 0, st)
      case VTuple(xs) => AnyEq(env, fuel, b, xs, 0, st)
      case VSet(xs) => if Hashable(b) then AnyEq(env, fuel, b, xs, 0, st) else Err(TypeError)
      case VDict(es) => if Hashable(b) then Ok(Step(b.VStr? && HasKey(es, b.s), st, 0)) else Err(TypeError)
      case _ => Err(TypeError)
  }

  /** `SomeObject`'s body, `AllOf(Some(*args), validate_some_object)`: the
      wrapped rules first, then every keyword attribute. A failure logs one
      message for the inner `Some` wrapper and one for the `AllOf`. */
  function ObjectAll(env: Env, fuel: nat, rs: seq<Rule>, attrs: seq<Entry>, b: Value, st: SameState): (r: Result<Step>)
    decreases fuel, 4
    ensures r.Ok? ==> Evolves(st, r.value.state)
    ensures (r.Ok? && SameFreeRules(rs) && SameFreeEntries(attrs)
                  && SameFree(b))
            ==> r.value.state == st
  {
    if fuel == 0 then Err(RecursionError)
    else
      var r1 :- SomeEq(env, fuel - 1, rs, b, st);
      if !r1.eq then Ok(Step(false, r1.state, r1.unequals + 2))
      else
        var r2 :- AttrsCheck(env, fuel, attrs, 0, b, r1.state);
        Ok(Step(r2.eq, r2.state, r1.unequals + r2.unequals + if r2.eq then 0 else 2))
  }

  /** `validate_some_object` from keyword `i` on: the attribute exists and
      `value != getattr(other, key)` is false. */
  function AttrsCheck(env: Env, fuel: nat, attrs: seq<Entry>, i: nat, b: Value, st: SameState): (r: Result<Step>)
    requires i <= |attrs|
    decreases fuel, 3, |attrs| - i
    ensures r.Ok? ==> Evolves(st, r.value.state)
    ensures r.Ok? && SameFreeEntries(attrs) && SameFree(b) ==> r.value.state == st
  {
    if fuel == 0 then Err(RecursionError)
    else if i == |attrs| then Ok(Step(true, st, 0))
    else
      match GetAttr(b, attrs[i].key)
      case Absent => Ok(Step(false, st, 0))
      case Present(v) =>
        GetAttrSameFree(b, attrs[i].key);
        var r1 :- Eq(env, fuel - 1, attrs[i].val, v, st);
        if !r1.eq then Ok(r1)
        else
          var r2 :- AttrsCheck(env, fuel, attrs, i + 1, b, r1.state);
          Ok(Then(r1, r2))
  }

  lemma GetAttrSameFree(b: Value, k: string)
    ensures SameFree(b) && GetAttr(b, k).Present? ==> SameFree(GetAttr(b, k).value)
  {
    if SameFree(b) && GetAttr(b, k).Present? {
      GetSameFree(b.attrs, k);
    }
  }

  /** `Same.__eq__`, reading the "Same" channel: outside an open channel it
      raises; a candidate the wrapped `Some` rejects is unequal; an unbound
      name binds the candidate; a bound name compares the candidate with
      the bound value. */
  function SameEq(env: Env, fuel: nat, s: Same, b: Value, st: SameState): (r: Result<Step>)
    decreases fuel, 6
    ensures r.Ok? ==> Evolves(st, r.value.state)
  {
    if fuel == 0 then Err(RecursionError)
    else if "Same" !in st.allow || "Same" !in st.state then Err(KeyError)
    else if !st.allow["Same"] then Err(SameOutsideExpect)
    else
      var r1 :- SomeEq(env, fuel, s.rules, b, st);
      if !r1.eq then Ok(r1)
      else if !Hashable(s.name) then Err(TypeError)
      else
        var bindings := r1.state.state["Same"];
        if s.name !in bindings then
          Ok(Step(true, r1.state.(state := r1.state.state["Same" := bindings[s.name := b]]), r1.unequals))
        else
          var r2 :- Eq(env, fuel - 1, b, bindings[s.name], r1.state);
          Ok(Then(r1, r2))
  }

  /** The validator of `SomeWithLen`: values without `__len__` fail; each
      bound is enforced only when it is truthy, so 0 means no bound. */
  function WithLenAccepts(l: Option<int>, mn: Option<int>, mx: Option<int>, b: Value): (r: Result<bool>)
    ensures r.Err? ==> r.error == TypeError
  {
    if !HasLenAttr(b) then Ok(false)
    else if !(Truthy(l) || Truthy(mn) || Truthy(mx)) then Ok(true)
    else
      var n :- Len(b);
      Ok((!Truthy(l) || n == l.value) && (!Truthy(mn) || n >= mn.value) && (!Truthy(mx) || n <= mx.value))
  }

  /** The validator of `SomeStr`: a string, tested by the first option that
      is set. */
  predicate StrAccepts(env: Env, re: Option<string>, pat: Option<string>, ew: Option<string>, sw: Option<string>, b: Value) {
    && b.VStr?
    && if re.Present? then Text.ReMatch(env.reMatch, re.value, b.s)
       else if pat.Present? then Text.PatternMatch(env.reMatch, pat.value, b.s)
       else if ew.Present? then Text.IsSuffix(ew.value, b.s)
       else if sw.Present? then Text.IsPrefix(sw.value, b.s)
       else true
  }
}

=== FILE: findings.dfy ===
/** Two places where `Same.__eq__`, as written, disagrees with the
    `SameState` class it relies on. Each is modelled as written, with an
    input that shows the discrepancy; `Eval.SameEq` is the corrected reading
    the rest of the model uses. */
module Findings {
  import opened Results
  import opened Values
  import opened SameStates
  import opened Eval
  import MatcherProps
  import SameProps

  // ---------------------------------------------------------------------
  // 1. The window flag is read from an attribute that does not exist.

  /** The attributes the `SameState` class defines. */
  const SameStateAttributes: set<string> := {"_allow", "_state", "_start", "_end"}

  /** Reading the class attribute `SameState.<name>` for a name the class
      body could assign: AttributeError unless it does. The dunder
      attributes every class inherits (`__doc__`, `__dict__`, ...) are not
      modelled. */
  function ClassAttribute(name: string): (r: Result<string>)
    ensures r.Ok? <==> name in SameStateAttributes
    ensures r.Ok? ==> r.value == name
    ensures r.Err? ==> r.error == AttributeError
  {
    if name in SameStateAttributes then Ok(name) else Err(AttributeError)
  }

  /** `Same.__eq__` as written: its first statement evaluates
      `SameState._allow_same_usage`, and that lookup fails, so every
      comparison raises AttributeError before anything else happens. */
  function SameEqAsWritten(env: Env, fuel: nat, s: Same, b: Value, st: SameState): (r: Result<Step>)
    ensures r == Err(AttributeError)
  {
    var flag := ClassAttribute("_allow_same_usage");
    if flag.Err? then Err(flag.error) else SameEq(env, fuel, s, b, st)
  }

  /** Inside an open window, `Same(int) == 1` raises as written, where the
      corrected reading binds the name and answers True. */
  lemma AsWrittenNeverCorrelates(env: Env)
    ensures var s := Same([TypeRule(Int)], DefaultName);
            && SameEqAsWritten(env, 3, s, VInt(1), Window) == Err(AttributeError)
            && MatcherProps.Holds(SameEq(env, 3, s, VInt(1), Window))
  {
    SameProps.FirstOneBinds(env, Same([TypeRule(Int)], DefaultName));
  }

  // ---------------------------------------------------------------------
  // 2. Bindings are stored flat, next to the channel keys.

  /** `SameState` as `Same.__eq__` uses it: `_state` as one flat map from
      names to bound values, which also holds the channel entries
      `"Same": {}` and `"NotSame": {}`. */
  datatype FlatState = FlatState(allow: map<string, bool>, state: map<Value, Value>)

  /** The class body, seen flat. */
  const FlatInit: FlatState :=
    FlatState(map["Same" := false, "NotSame" := false],
              map[VStr("Same") := VDict([]), VStr("NotSame") := VDict([])])

  /** `_start` (true) and `_end` (false): they reset the channel entries
      only, so a binding stored flat survives them. */
  function FlatReset(fs: FlatState, flag: bool): (r: FlatState)
    ensures r.allow.Keys == fs.allow.Keys
    ensures forall c :: c in fs.allow ==> r.allow[c] == flag
    ensures r.state.Keys == fs.state.Keys + (set c | c in fs.allow :: VStr(c))
    ensures forall c :: c in fs.allow ==> r.state[VStr(c)] == VDict([])
    ensures forall k :: k in fs.state && !(k.VStr? && k.s in fs.allow) ==> k in r.state && r.state[k] == fs.state[k]
  {
    FlatState(map c | c in fs.allow :: flag,
              map k | k in fs.state.Keys + (set c | c in fs.allow :: VStr(c)) ::
                if k.VStr? && k.s in fs.allow then VDict([]) else fs.state[k])
  }

  /** The flat state right after `_start`. */
  const FlatWindow: FlatState :=
    FlatState(map["Same" := true, "NotSame" := true],
              map[VStr("Same") := VDict([]), VStr("NotSame") := VDict([])])

  lemma FlatWindowIsStart()
    ensures FlatReset(FlatInit, true) == FlatWindow
  {
    var w := FlatReset(FlatInit, true);
    assert w.allow == FlatWindow.allow;
    assert w.state.Keys == FlatWindow.state.Keys;
    assert w.state == FlatWindow.state;
  }

  /** The outcome of a flat comparison. */
  datatype FlatStep = FlatStep(eq: bool, state: FlatState)

  /** `Same.__eq__` with the flag read from `_allow["Same"]` but the
      bindings kept flat in `_state`, as lines 26-30 of `Same.py` do. The wrapped rules
      and the comparison with a bound value are evaluated with the
      correlation state of a fresh window. */
  function FlatSameEq(env: Env, fuel: nat, s: Same, b: Value, fs: FlatState): (r: Result<FlatStep>)
    ensures r.Ok? ==> r.value.state.allow == fs.allow
    ensures r.Ok? ==> fs.state.Keys <= r.value.state.state.Keys
    ensures r.Ok? && s.name in fs.state ==> r.value.state == fs
    ensures r.Ok? && s.name !in fs.state && r.value.eq ==> r.value.state.state == fs.state[s.name := b]
  {
    if "Same" !in fs.allow then Err(KeyError)
    else if !fs.allow["Same"] then Err(SameOutsideExpect)
    else
      var r1 :- SomeEq(env, fuel, s.rules, b, Window);
      if !r1.eq then Ok(FlatStep(false, fs))
      else if !Hashable(s.name) then Err(TypeError)
      else if s.name !in fs.state then Ok(FlatStep(true, fs.(state := fs.state[s.name := b])))
      else
        var r2 :- Eq(env, fuel - 1, b, fs.state[s.name], Window);
        Ok(FlatStep(r2.eq, fs))
  }

  /** An unbound name inside an open window binds the candidate the
      rules accept, flat in `_state`. */
  lemma FlatUnboundBinds(env: Env, fuel: nat, s: Same, b: Value, fs: FlatState)
    requires "Same" in fs.allow && fs.allow["Same"]
    requires Hashable(s.name) && s.name !in fs.state
    requires MatcherProps.Holds(SomeEq(env, fuel, s.rules, b, Window))
    ensures FlatSameEq(env, fuel, s, b, fs) == Ok(FlatStep(true, fs.(state := fs.state[s.name := b])))
  {
  }

  /** A name found in `_state` compares the candidate with what is stored
      there, whatever stored it. */
  lemma FlatBoundCompares(env: Env, fuel: nat, s: Same, b: Value, fs: FlatState)
    requires "Same" in fs.allow && fs.allow["Same"]
    requires Hashable(s.name) && s.name in fs.state
    requires MatcherProps.Holds(SomeEq(env, fuel, s.rules, b, Window))
    requires fuel > 0 && Eq(env, fuel - 1, b, fs.state[s.name], Window).Ok?
    ensures FlatSameEq(env, fuel, s, b, fs) == Ok(FlatStep(Eq(env, fuel - 1, b, fs.state[s.name], Window).value.eq, fs))
  {
  }

  /** A binding made in one `_start`/`_end` window leaks into the next:
      `Same(int) == 1` in one window, then `Same(int) == 2` in a new one is
      False as written, where the corrected reading binds afresh. */
  lemma FlatBindingLeaksAcrossWindows(env: Env)
    ensures var s := Same([TypeRule(Int)], DefaultName);
            var bound := FlatWindow.(state := FlatWindow.state[DefaultName := VInt(1)]);
            var w2 := FlatReset(FlatReset(bound, false), true);
            && FlatSameEq(env, 3, s, VInt(1), FlatWindow) == Ok(FlatStep(true, bound))
            && FlatSameEq(env, 3, s, VInt(2), w2) == Ok(FlatStep(false, w2))
  {
    var s := Same([TypeRule(Int)], DefaultName);
    FlatFirstUseBinds(env, s, 3);
    var bound := FlatWindow.(state := FlatWindow.state[DefaultName := VInt(1)]);
    var w2 := FlatReset(FlatReset(bound, false), true);
    FlatSecondUseCompares(env, s, w2);
  }

  lemma FlatFirstUseBinds(env: Env, s: Same, fuel: nat)
    requires s == Same([TypeRule(Int)], DefaultName) && fuel > 0
    ensures FlatSameEq(env, fuel, s, VInt(1), FlatWindow) ==
            Ok(FlatStep(true, FlatWindow.(state := FlatWindow.state[DefaultName := VInt(1)])))
  {
    MatcherProps.SomeEqOfOneClass(env, fuel, Int, VInt(1), Window);
    FlatUnboundBinds(env, fuel, s, VInt(1), FlatWindow);
  }

  lemma FlatSecondUseCompares(env: Env, s: Same, w2: FlatState)
    requires s == Same([TypeRule(Int)], DefaultName)
    requires "Same" in w2.allow && w2.allow["Same"] && DefaultName in w2.state && w2.state[DefaultName] == VInt(1)
    ensures FlatSameEq(env, 3, s, VInt(2), w2) == Ok(FlatStep(false, w2))
  {
    MatcherProps.SomeEqOfOneClass(env, 3, Int, VInt(2), Window);
    IntsCompare(env, 2, 2, 1, Window);
    FlatBoundCompares(env, 3, s, VInt(2), w2);
  }

  /** Two ints compare by value and touch no state. */
  lemma IntsCompare(env: Env, fuel: nat, i: int, j: int, st: SameState)
    requires fuel > 0
    ensures Eq(env, fuel, VInt(i), VInt(j), st) == Ok(Step(i == j, st, 0))
  {
    assert Eq(env, fuel, VInt(i), VInt(j), st) == Builtin(env, fuel, VInt(i), VInt(j), st);
  }

  /** The corrected reading starts every window with no bindings. */
  lemma CorrectedWindowsStartEmpty(env: Env)
    ensures var s := Same([TypeRule(Int)], DefaultName);
            var bound := Window.(state := Window.state["Same" := map[DefaultName := VInt(1)]]);
            MatcherProps.Holds(SameEq(env, 3, s, VInt(2), Reset(Reset(bound, false), true)))
  {
    var s := Same([TypeRule(Int)], DefaultName);
    var bound := Window.(state := Window.state["Same" := map[DefaultName := VInt(1)]]);
    assert WellFormed(bound);
    ResetKeepsChannels(bound, false);
    MatcherProps.SomeEqOfOneClass(env, 3, Int, VInt(2), Reset(Reset(bound, false), true));
    SameProps.StartForgetsEarlierBindings(env, 3, s, VInt(2), Reset(bound, false));
  }

  /** A `Same` named "Same" finds the channel entry `{}` already bound to
      its name: `Same(int, name="Same") == 1` is False on first use as
      written, where the corrected reading binds and answers True. */
  lemma FlatNameCollidesWithChannel(env: Env)
    ensures var s := Same([TypeRule(Int)], VStr("Same"));
            && FlatSameEq(env, 3, s, VInt(1), FlatWindow) == Ok(FlatStep(false, FlatWindow))
            && MatcherProps.Holds(SameEq(env, 3, s, VInt(1), Window))
  {
    var s := Same([TypeRule(Int)], VStr("Same"));
    FlatCollision(env, s);
    CorrectedBindsCollidingName(env, s);
  }

  lemma FlatCollision(env: Env, s: Same)
    requires s == Same([TypeRule(Int)], VStr("Same"))
    ensures FlatSameEq(env, 3, s, VInt(1), FlatWindow) == Ok(FlatStep(false, FlatWindow))
  {
    var w1 := FlatWindow;
    MatcherProps.SomeEqOfOneClass(env, 3, Int, VInt(1), Window);
    IntAgainstDict(env, 2, 1, Window);
    FlatBoundCompares(env, 3, s, VInt(1), w1);
  }

  /** An int never equals a dict. */
  lemma IntAgainstDict(env: Env, fuel: nat, i: int, st: SameState)
    requires fuel > 0
    ensures Eq(env, fuel, VInt(i), VDict([]), st) == Ok(Step(false, st, 0))
  {
    assert Eq(env, fuel, VInt(i), VDict([]), st) == Builtin(env, fuel, VInt(i), VDict([]), st);
  }

  lemma CorrectedBindsCollidingName(env: Env, s: Same)
    requires s == Same([TypeRule(Int)], VStr("Same"))
    ensures MatcherProps.Holds(SameEq(env, 3, s, VInt(1), Window))
  {
    CorrectedBindsFresh(env, s, VInt(1), Window);
  }

  /** In a window with no bindings, `Same(int)` of any name binds an int. */
  lemma CorrectedBindsFresh(env: Env, s: Same, b: Value, st: SameState)
    requires s.rules == [TypeRule(Int)] && Hashable(s.name) && b.VInt?
    requires SameProps.SameAllowed(st) && st.state["Same"] == map[]
    ensures MatcherProps.Holds(SameEq(env, 3, s, b, st))
  {
    MatcherProps.SomeEqOfOneClass(env, 3, Int, b, st);
    assert SameFreeRules(s.rules);
    SameProps.SameBindsFirstCandidate(env, 3, s, b, st);
  }
}

=== FILE: matcher_props.dfy ===
/** What each matcher's `__eq__` promises, stated against the evaluator:
    `Some` is an ordered OR that stops at the first accepting rule, the
    combinators negate, conjoin and widen it, and the structural matchers
    accept exactly the candidates their validators describe. */
module MatcherProps {
  import opened Results
  import opened Values
  import opened SameStates
  import opened Eval
  import Construct
  import Text

  /** The comparison succeeded and came out equal. */
  predicate Holds(r: Result<Step>) {
    r.Ok? && r.value.eq
  }

  /** The comparison succeeded and came out unequal. */
  predicate Fails(r: Result<Step>) {
    r.Ok? && !r.value.eq
  }

  /** What a caller of `==` observes: the truth value or the exception. */
  function Outcome(r: Result<Step>): Result<bool> {
    if r.Ok? then Ok(r.value.eq) else Err(r.error)
  }

  // ---------------------------------------------------------------------
  // Some: an ordered OR over its rules

  /** Once a prefix of the rules has accepted the candidate (or raised),
      the rules after it are never evaluated: appending any rules, even
      predicates that would raise, changes nothing. */
  lemma {:induction false} FirstRuleIgnoresLaterRules(env: Env, fuel: nat, rs: seq<Rule>, tail: seq<Rule>, i: nat, b: Value, st: SameState)
    requires i <= |rs|
    requires FirstRule(env, fuel, rs, i, b, st).Err? || FirstRule(env, fuel, rs, i, b, st).value.eq
    ensures FirstRule(env, fuel, rs + tail, i, b, st) == FirstRule(env, fuel, rs, i, b, st)
    decreases |rs| - i
  {
    if fuel == 0 {
    } else if i == |rs| {
      assert false;
    } else {
      assert (rs + tail)[i] == rs[i];
      var r1 := RuleAccepts(env, fuel, rs[i], b, st);
      if r1.Ok? && !r1.value.eq {
        FirstRuleIgnoresLaterRules(env, fuel, rs, tail, i + 1, b, r1.value.state);
      }
    }
  }

  /** `Some(*rules) == b` when `Some(*rules)` already accepts `b`: the
      result of `Some(*rules, *more) == b` is the same. */
  lemma SomeIgnoresLaterRules(env: Env, fuel: nat, rs: seq<Rule>, more: seq<Rule>, b: Value, st: SameState)
    requires rs != []
    requires Holds(SomeEq(env, fuel, rs, b, st)) || SomeEq(env, fuel, rs, b, st).Err?
    ensures SomeEq(env, fuel, rs + more, b, st) == SomeEq(env, fuel, rs, b, st)
  {
    if fuel > 0 {
      FirstRuleIgnoresLaterRules(env, fuel, rs, more, 0, b, st);
    }
  }

  /** With no correlation matcher involved, every rule from position `i` on
      sees the same state, and the loop rejects exactly when it evaluated
      every rule and each of them rejected. */
  lemma {:induction false} FirstRuleRejectsIffAllReject(env: Env, fuel: nat, rs: seq<Rule>, i: nat, b: Value, st: SameState)
    requires i <= |rs| && SameFreeRules(rs) && SameFree(b)
    ensures Fails(FirstRule(env, fuel, rs, i, b, st)) <==>
              fuel > 0 && forall j :: i <= j < |rs| ==> Fails(RuleAccepts(env, fuel, rs[j], b, st))
    decreases |rs| - i
  {
    if fuel > 0 && i < |rs| {
      assert SameFreeRule(rs[i]);
      FirstRuleRejectsIffAllReject(env, fuel, rs, i + 1, b, st);
    }
  }

  /** The first rule that does not reject decides. */
  predicate FirstAcceptAt(env: Env, fuel: nat, rs: seq<Rule>, i: nat, j: nat, b: Value, st: SameState)
    requires i <= j < |rs|
  {
    Holds(RuleAccepts(env, fuel, rs[j], b, st)) && forall k :: i <= k < j ==> Fails(RuleAccepts(env, fuel, rs[k], b, st))
  }

  /** With no correlation matcher involved, the loop accepts exactly when
      some rule accepts after every rule before it rejected: it is an
      ordered OR. */
  lemma {:induction false} FirstRuleAcceptsIffSomeAccepts(env: Env, fuel: nat, rs: seq<Rule>, i: nat, b: Value, st: SameState)
    requires i <= |rs| && SameFreeRules(rs) && SameFree(b)
    ensures Holds(FirstRule(env, fuel, rs, i, b, st)) <==>
              fuel > 0 && exists j :: i <= j < |rs| && FirstAcceptAt(env, fuel, rs, i, j, b, st)
    decreases |rs| - i
  {
    if fuel > 0 && i < |rs| {
      var r1 := RuleAccepts(env, fuel, rs[i], b, st);
      assert SameFreeRule(rs[i]);
      if Holds(r1) {
        assert FirstAcceptAt(env, fuel, rs, i, i, b, st);
      } else if Fails(r1) {
        assert r1.value.state == st;
        FirstRuleAcceptsIffSomeAccepts(env, fuel, rs, i + 1, b, st);
        if Holds(FirstRule(env, fuel, rs, i + 1, b, st)) {
          var j :| i + 1 <= j < |rs| && FirstAcceptAt(env, fuel, rs, i + 1, j, b, st);
          assert FirstAcceptAt(env, fuel, rs, i, j, b, st);
        }
        if exists j :: i <= j < |rs| && FirstAcceptAt(env, fuel, rs, i, j, b, st) {
          var j :| i <= j < |rs| && FirstAcceptAt(env, fuel, rs, i, j, b, st);
          assert j != i;
          assert FirstAcceptAt(env, fuel, rs, i + 1, j, b, st);
        }
      }
    }
  }

  /** The rules that never reach another matcher: classes and predicates. */
  predicate FlatRules(rs: seq<Rule>) {
    forall i :: 0 <= i < |rs| ==> !rs[i].NestedRule?
  }

  /** Over classes and predicates the loop logs nothing. */
  lemma {:induction false} FlatRulesLogNothing(env: Env, fuel: nat, rs: seq<Rule>, i: nat, b: Value, st: SameState)
    requires i <= |rs| && FlatRules(rs)
    ensures FirstRule(env, fuel, rs, i, b, st).Ok? ==>
              FirstRule(env, fuel, rs, i, b, st).value.unequals == 0
              && FirstRule(env, fuel, rs, i, b, st).value.state == st
    decreases |rs| - i
  {
    if fuel > 0 && i < |rs| {
      FlatRulesLogNothing(env, fuel, rs, i + 1, b, st);
    }
  }

  /** `Some.__eq__` over classes and predicates: `Some()` accepts everything;
      otherwise a miss appends exactly one message to `Some.unequals` and a
      hit appends none. */
  lemma SomeLogsOneMessagePerMiss(env: Env, fuel: nat, rs: seq<Rule>, b: Value, st: SameState)
    requires fuel > 0 && FlatRules(rs)
    ensures rs == [] ==> SomeEq(env, fuel, rs, b, st) == Ok(Step(true, st, 0))
    ensures SomeEq(env, fuel, rs, b, st).Ok? ==>
              SomeEq(env, fuel, rs, b, st).value.state == st
              && SomeEq(env, fuel, rs, b, st).value.unequals == if SomeEq(env, fuel, rs, b, st).value.eq then 0 else 1
  {
    FlatRulesLogNothing(env, fuel, rs, 0, b, st);
  }

  /** When every rule before position `j` rejects, the loop's outcome is the
      outcome from `j` on. */
  lemma {:induction false} FirstRuleSkipsRejections(env: Env, fuel: nat, rs: seq<Rule>, i: nat, j: nat, b: Value, st: SameState)
    requires i <= j <= |rs| && SameFreeRules(rs) && SameFree(b)
    requires forall k :: i <= k < j ==> Fails(RuleAccepts(env, fuel, rs[k], b, st))
    ensures Outcome(FirstRule(env, fuel, rs, i, b, st)) == Outcome(FirstRule(env, fuel, rs, j, b, st))
    decreases j - i
  {
    if i < j {
      assert Fails(RuleAccepts(env, fuel, rs[i], b, st));
      assert SameFreeRule(rs[i]);
      FirstRuleSkipsRejections(env, fuel, rs, i + 1, j, b, st);
    }
  }

  /** A predicate that is reached and returns something other than a bool
      raises `MustReturnBool`. */
  lemma PredicateMustReturnBool(env: Env, fuel: nat, rs: seq<Rule>, j: nat, b: Value, st: SameState)
    requires fuel > 0 && j < |rs| && SameFreeRules(rs) && SameFree(b)
    requires forall k :: 0 <= k < j ==> Fails(RuleAccepts(env, fuel, rs[k], b, st))
    requires rs[j].PredRule? && !env.call(rs[j].f, b).VBool?
    ensures SomeEq(env, fuel, rs, b, st) == Err(MustReturnBool)
  {
    FirstRuleSkipsRejections(env, fuel, rs, 0, j, b, st);
  }

  // ---------------------------------------------------------------------
  // Combinators

  /** `NotSome(*rules) == b` is `not (Some(*rules) == b)`, errors included,
      so `NotSome()` accepts nothing. */
  lemma NotSomeNegates(env: Env, fuel: nat, rs: seq<Rule>, b: Value, st: SameState)
    ensures Holds(Match(env, fuel, NotSome(rs), b, st)) <==> Fails(SomeEq(env, fuel, rs, b, st))
    ensures Fails(Match(env, fuel, NotSome(rs), b, st)) <==> Holds(SomeEq(env, fuel, rs, b, st))
    ensures Match(env, fuel, NotSome(rs), b, st).Err? ==>
              Match(env, fuel, NotSome(rs), b, st) == SomeEq(env, fuel, rs, b, st)
    ensures fuel > 0 ==> Fails(Match(env, fuel, NotSome([]), b, st))
  {
  }

  /** `Some(arg) == b`, built only at evaluation time as `AllOf` does. */
  predicate WrappedAccepts(env: Env, fuel: nat, arg: Value, b: Value, st: SameState) {
    Construct.ArgToRule(arg).Ok? && Holds(Match(env, fuel, Some([Construct.ArgToRule(arg).value]), b, st))
  }

  /** The loop of `AllOf` is a conjunction of `Some(arg) == b` over its
      arguments. */
  lemma {:induction false} AllArgsIsConjunction(env: Env, fuel: nat, args: seq<Value>, i: nat, b: Value, st: SameState)
    requires i <= |args| && SameFree(b)
    requires SameFreeSeq(args)
    ensures AllArgs(env, fuel, args, i, b, st).Ok? ==>
              (AllArgs(env, fuel, args, i, b, st).value.eq <==>
               forall k :: i <= k < |args| ==> WrappedAccepts(env, fuel - 1, args[k], b, st))
    decreases |args| - i
  {
    if fuel > 0 && i < |args| && Construct.ArgToRule(args[i]).Ok? {
      var rule := Construct.ArgToRule(args[i]).value;
      assert Construct.RuleArg(rule) == args[i];
      assert SameFreeMatcher(Some([rule]));
      AllArgsIsConjunction(env, fuel, args, i + 1, b, st);
    }
  }

  /** `AllOf(*args) == b` holds iff `Some(arg) == b` for every argument. */
  lemma AllOfIsConjunction(env: Env, fuel: nat, args: seq<Value>, b: Value, st: SameState)
    requires SameFree(b) && SameFreeSeq(args)
    ensures Match(env, fuel, AllOf(args), b, st).Ok? ==>
              (Holds(Match(env, fuel, AllOf(args), b, st)) <==>
               forall k :: 0 <= k < |args| ==> WrappedAccepts(env, fuel - 1, args[k], b, st))
  {
    AllArgsIsConjunction(env, fuel, args, 0, b, st);
  }

  /** `AllOf(1)` constructs (its argument is kept unchecked) and raises
      `InvalidArgument` only when compared; an invalid argument after one
      that already rejected is never checked. */
  lemma AllOfValidatesLate(env: Env, b: Value, st: SameState)
    ensures Construct.MakeSome([VInt(1)]) == Err(InvalidArgument)
    ensures Match(env, 1, AllOf([VInt(1)]), b, st) == Err(InvalidArgument)
    ensures Match(env, 2, AllOf([VType(Str), VInt(1)]), VInt(5), st) == Ok(Step(false, st, 2))
  {
    SomeOfOneClass(env, 1, Str, VInt(5), st);
  }

  /** `Some(t) == b` is `isinstance(b, t)`, logging one message on a miss. */
  lemma SomeOfOneClass(env: Env, fuel: nat, t: PyType, b: Value, st: SameState)
    requires fuel > 0
    ensures Match(env, fuel, Some([TypeRule(t)]), b, st) ==
            Ok(Step(IsInstance(b, t), st, if IsInstance(b, t) then 0 else 1))
  {
    SomeEqOfOneClass(env, fuel, t, b, st);
  }

  lemma SomeEqOfOneClass(env: Env, fuel: nat, t: PyType, b: Value, st: SameState)
    requires fuel > 0
    ensures SomeEq(env, fuel, [TypeRule(t)], b, st) ==
            Ok(Step(IsInstance(b, t), st, if IsInstance(b, t) then 0 else 1))
  {
    var rs := [TypeRule(t)];
    assert RuleAccepts(env, fuel, rs[0], b, st) == Ok(Step(IsInstance(b, t), st, 0));
    assert FirstRule(env, fuel, rs, 1, b, st) == Ok(Step(false, st, 0));
    assert FirstRule(env, fuel, rs, 0, b, st) == Ok(Step(IsInstance(b, t), st, 0));
  }

  /** `AllOf(str, int)` accepts nothing: no value is both a str and an int. */
  lemma AllOfStrIntMatchesNothing(env: Env, fuel: nat, b: Value, st: SameState)
    ensures !Holds(Match(env, fuel, AllOf([VType(Str), VType(Int)]), b, st))
  {
    var args := [VType(Str), VType(Int)];
    assert Construct.ArgToRule(args[0]) == Ok(TypeRule(Str));
    if fuel == 1 {
      assert AllArgs(env, fuel, args, 0, b, st).Err?;
    } else if fuel > 1 {
      SomeOfOneClass(env, fuel - 1, Str, b, st);
      if IsInstance(b, Str) {
        StrIsNoInt(env, fuel, args, b, st);
      }
      assert !Holds(AllArgs(env, fuel, args, 0, b, st));
    }
  }

  /** A str candidate reaches the second argument of `AllOf(str, int)`,
      which rejects it. */
  lemma StrIsNoInt(env: Env, fuel: nat, args: seq<Value>, b: Value, st: SameState)
    requires fuel > 1 && args == [VType(Str), VType(Int)] && IsInstance(b, Str)
    ensures Fails(AllArgs(env, fuel, args, 1, b, st))
  {
    assert Construct.ArgToRule(args[1]) == Ok(TypeRule(Int));
    SomeOfOneClass(env, fuel - 1, Int, b, st);
  }

  /** `SomeOrNone()` accepts everything; `SomeOrNone(*rules)` is
      `Some(*rules)` on every value but None, and accepts None unless one of
      its rules raised first. */
  lemma SomeOrNoneWidensSome(env: Env, fuel: nat, rs: seq<Rule>, b: Value, st: SameState)
    requires fuel > 0
    ensures rs == [] ==> Match(env, fuel, SomeOrNone(rs), b, st) == Ok(Step(true, st, 0))
    ensures rs != [] && !b.VNone? ==> Match(env, fuel, SomeOrNone(rs), b, st) == SomeEq(env, fuel, rs, b, st)
    ensures rs != [] && b.VNone? ==>
              Outcome(Match(env, fuel, SomeOrNone(rs), b, st)) ==
              if FirstRule(env, fuel, rs, 0, b, st).Err? then Err(FirstRule(env, fuel, rs, 0, b, st).error) else Ok(true)
  {
  }

  /** `SomeList(arg, length)` is `SomeIterable(arg, length, is_type=list)`. */
  lemma SomeListIsListIterable(env: Env, fuel: nat, arg: Value, length: Value, b: Value, st: SameState)
    ensures Match(env, fuel, SomeList(arg, length), b, st) == Match(env, fuel, SomeIterable(arg, length, List), b, st)
  {
  }

  // ---------------------------------------------------------------------
  // Structural matchers

  /** `all(arg == x for x in xs[i:])` */
  lemma {:induction false} AllEqIsForall(env: Env, fuel: nat, arg: Value, xs: seq<Value>, i: nat, st: SameState)
    requires i <= |xs| && SameFree(arg) && SameFreeSeq(xs)
    ensures AllEq(env, fuel, arg, xs, i, st).Ok? ==>
              (AllEq(env, fuel, arg, xs, i, st).value.eq <==>
               forall k :: i <= k < |xs| ==> Holds(Eq(env, fuel - 1, arg, xs[k], st)))
    decreases |xs| - i
  {
    if fuel > 0 && i < |xs| {
      AllEqIsForall(env, fuel, arg, xs, i + 1, st);
    }
  }

  /** `SomeIterable(arg, length, t) == b` holds iff `b` is an instance of
      `t`, its length equals `length` unless that is None, and every element
      it iterates over equals `arg`. */
  lemma SomeIterableCharacterised(env: Env, fuel: nat, arg: Value, length: Value, t: PyType, b: Value, st: SameState)
    requires SameFree(arg) && SameFree(length) && SameFree(b)
    ensures Match(env, fuel, SomeIterable(arg, length, t), b, st).Ok? ==>
              (Holds(Match(env, fuel, SomeIterable(arg, length, t), b, st)) <==>
               && IsInstance(b, t)
               && Items(b).Ok?
               && (length.VNone? || Holds(Eq(env, fuel - 1, VInt(|Items(b).value|), length, st)))
               && forall k :: 0 <= k < |Items(b).value| ==> Holds(Eq(env, fuel - 1, arg, Items(b).value[k], st)))
  {
    if fuel > 0 {
      MatchIterable(env, fuel, arg, length, t, b, st);
      IterValidateCharacterised(env, fuel, arg, length, t, b, st);
    }
  }

  /** `Some.__eq__` ending a validator's verdict: one message on a miss. */
  function Concluded(r: Result<Step>): Result<Step> {
    if r.Ok? then Ok(Conclude(r.value)) else r
  }

  lemma MatchIterable(env: Env, fuel: nat, arg: Value, length: Value, t: PyType, b: Value, st: SameState)
    requires fuel > 0
    ensures Match(env, fuel, SomeIterable(arg, length, t), b, st) == Concluded(IterValidate(env, fuel, arg, length, t, b, st))
  {
  }

  /** The acceptance condition of `SomeIterable(arg, length, t)`. */
  predicate IterAccepts(env: Env, fuel: nat, arg: Value, length: Value, t: PyType, b: Value, st: SameState)
    requires fuel > 0
  {
    && IsInstance(b, t)
    && Items(b).Ok?
    && (length.VNone? || Holds(Eq(env, fuel - 1, VInt(|Items(b).value|), length, st)))
    && forall k :: 0 <= k < |Items(b).value| ==> Holds(Eq(env, fuel - 1, arg, Items(b).value[k], st))
  }

  lemma IterValidateCharacterised(env: Env, fuel: nat, arg: Value, length: Value, t: PyType, b: Value, st: SameState)
    requires fuel > 0 && SameFree(arg) && SameFree(length) && SameFree(b)
    ensures IterValidate(env, fuel, arg, length, t, b, st).Ok? ==>
              (IterValidate(env, fuel, arg, length, t, b, st).value.eq <==> IterAccepts(env, fuel, arg, length, t, b, st))
  {
    if !IsInstance(b, t) || Items(b).Err? {
      IterRejectsEarly(env, fuel, arg, length, t, b, st);
    } else if length.VNone? {
      IterNoLength(env, fuel, arg, length, t, b, st, Items(b).value);
    } else {
      IterWithLength(env, fuel, arg, length, t, b, st, Items(b).value);
    }
  }

  lemma IterRejectsEarly(env: Env, fuel: nat, arg: Value, length: Value, t: PyType, b: Value, st: SameState)
    requires fuel > 0 && (!IsInstance(b, t) || Items(b).Err?)
    ensures IterValidate(env, fuel, arg, length, t, b, st).Ok? ==> !IterValidate(env, fuel, arg, length, t, b, st).value.eq
    ensures !IterAccepts(env, fuel, arg, length, t, b, st)
  {
  }

  lemma IterNoLength(env: Env, fuel: nat, arg: Value, length: Value, t: PyType, b: Value, st: SameState, xs: seq<Value>)
    requires fuel > 0 && length.VNone? && IsInstance(b, t) && Items(b) == Ok(xs)
    requires SameFree(arg) && SameFreeSeq(xs)
    ensures IterValidate(env, fuel, arg, length, t, b, st).Ok? ==>
              (IterValidate(env, fuel, arg, length, t, b, st).value.eq <==> IterAccepts(env, fuel, arg, length, t, b, st))
  {
    AllEqIsForall(env, fuel, arg, xs, 0, st);
  }

  lemma IterWithLength(env: Env, fuel: nat, arg: Value, length: Value, t: PyType, b: Value, st: SameState, xs: seq<Value>)
    requires fuel > 0 && !length.VNone? && IsInstance(b, t) && Items(b) == Ok(xs)
    requires SameFree(arg) && SameFree(length) && SameFreeSeq(xs)
    ensures IterValidate(env, fuel, arg, length, t, b, st).Ok? ==>
              (IterValidate(env, fuel, arg, length, t, b, st).value.eq <==> IterAccepts(env, fuel, arg, length, t, b, st))
  {
    var r1 := Eq(env, fuel - 1, VInt(|xs|), length, st);
    if r1.Ok? {
      assert r1.value.state == st;
      IterAcceptsWithLength(env, fuel, arg, length, t, b, st, xs);
      IterLengthChecked(env, fuel, arg, length, t, b, st, xs, r1.value);
    } else {
      IterLengthRaises(env, fuel, arg, length, t, b, st, xs);
    }
  }

  lemma IterAcceptsWithLength(env: Env, fuel: nat, arg: Value, length: Value, t: PyType, b: Value, st: SameState, xs: seq<Value>)
    requires fuel > 0 && !length.VNone? && IsInstance(b, t) && Items(b) == Ok(xs)
    requires SameFree(arg) && SameFreeSeq(xs)
    ensures AllEq(env, fuel, arg, xs, 0, st).Ok? ==>
              (IterAccepts(env, fuel, arg, length, t, b, st) <==>
               Holds(Eq(env, fuel - 1, VInt(|xs|), length, st)) && AllEq(env, fuel, arg, xs, 0, st).value.eq)
  {
    AllEqIsForall(env, fuel, arg, xs, 0, st);
  }

  lemma IterLengthChecked(env: Env, fuel: nat, arg: Value, length: Value, t: PyType, b: Value, st: SameState,
                          xs: seq<Value>, r1: Step)
    requires fuel > 0 && !length.VNone? && IsInstance(b, t) && Items(b) == Ok(xs)
    requires Eq(env, fuel - 1, VInt(|xs|), length, st) == Ok(r1) && r1.state == st
    ensures IterValidate(env, fuel, arg, length, t, b, st).Ok? ==>
              (IterValidate(env, fuel, arg, length, t, b, st).value.eq <==> r1.eq && Holds(AllEq(env, fuel, arg, xs, 0, st)))
  {
  }

  lemma IterLengthRaises(env: Env, fuel: nat, arg: Value, length: Value, t: PyType, b: Value, st: SameState, xs: seq<Value>)
    requires fuel > 0 && !length.VNone? && IsInstance(b, t) && Items(b) == Ok(xs)
    requires Eq(env, fuel - 1, VInt(|xs|), length, st).Err?
    ensures IterValidate(env, fuel, arg, length, t, b, st).Err?
  {
  }

  /** The validator of `SomeDict` from entry `i` on is a conjunction of
      `b.get(key, None) == value` over the pattern. */
  lemma {:induction false} DictValidateIsForall(env: Env, fuel: nat, p: seq<Entry>, es: seq<Entry>, i: nat, st: SameState)
    requires i <= |p|
    requires SameFreeEntries(p)
    requires SameFreeEntries(es)
    ensures DictValidate(env, fuel, p, es, i, st).Ok? ==>
              (DictValidate(env, fuel, p, es, i, st).value.eq <==>
               forall k :: i <= k < |p| ==> Holds(Eq(env, fuel - 1, Get(es, p[k].key), p[k].val, st)))
    decreases |p| - i
  {
    if fuel > 0 && i < |p| {
      GetSameFree(es, p[i].key);
      DictValidateIsForall(env, fuel, p, es, i + 1, st);
    }
  }

  /** `SomeDict(pattern) == b` holds iff `b` is a dict and
      `b.get(key, None) == value` for every pattern entry. */
  lemma SomeDictCharacterised(env: Env, fuel: nat, p: seq<Entry>, b: Value, st: SameState)
    requires SameFreeMatcher(SomeDict(p)) && SameFree(b)
    ensures Match(env, fuel, SomeDict(p), b, st).Ok? ==>
              (Holds(Match(env, fuel, SomeDict(p), b, st)) <==>
               b.VDict? && forall k :: 0 <= k < |p| ==> Holds(Eq(env, fuel - 1, Get(b.entries, p[k].key), p[k].val, st)))
  {
    if fuel > 0 && b.VDict? {
      DictValidateIsForall(env, fuel, p, b.entries, 0, st);
    }
  }

  /** Only the pattern's keys are looked at: two candidate dicts that agree
      on them (a missing key reading as None) are treated alike, so extra
      keys never matter. */
  lemma {:induction false} DictValidateSeesOnlyPatternKeys(env: Env, fuel: nat, p: seq<Entry>, es1: seq<Entry>, es2: seq<Entry>, i: nat, st: SameState)
    requires i <= |p|
    requires forall k :: i <= k < |p| ==> Get(es1, p[k].key) == Get(es2, p[k].key)
    ensures DictValidate(env, fuel, p, es1, i, st) == DictValidate(env, fuel, p, es2, i, st)
    decreases |p| - i
  {
    if fuel > 0 && i < |p| {
      var r1 := Eq(env, fuel - 1, Get(es1, p[i].key), p[i].val, st);
      if r1.Ok? && r1.value.eq {
        DictValidateSeesOnlyPatternKeys(env, fuel, p, es1, es2, i + 1, r1.value.state);
      }
    }
  }

  /** `SomeDict(pattern) == b` for dicts that agree on the pattern's keys. */
  lemma SomeDictIgnoresOtherKeys(env: Env, fuel: nat, p: seq<Entry>, es1: seq<Entry>, es2: seq<Entry>, st: SameState)
    requires forall k :: 0 <= k < |p| ==> Get(es1, p[k].key) == Get(es2, p[k].key)
    ensures Match(env, fuel, SomeDict(p), VDict(es1), st) == Match(env, fuel, SomeDict(p), VDict(es2), st)
  {
    if fuel > 0 {
      DictValidateSeesOnlyPatternKeys(env, fuel, p, es1, es2, 0, st);
      MatchDict(env, fuel, p, es1, st);
      MatchDict(env, fuel, p, es2, st);
    }
  }

  lemma MatchDict(env: Env, fuel: nat, p: seq<Entry>, es: seq<Entry>, st: SameState)
    requires fuel > 0
    ensures Match(env, fuel, SomeDict(p), VDict(es), st) == Concluded(DictValidate(env, fuel, p, es, 0, st))
  {
  }

  /** A key missing from the candidate compares as None. */
  lemma SomeDictMissingKeyIsNone(env: Env, fuel: nat, p: seq<Entry>, es: seq<Entry>, key: string, st: SameState)
    requires !HasKey(es, key)
    ensures Match(env, fuel, SomeDict(p), VDict(es), st) ==
            Match(env, fuel, SomeDict(p), VDict(es + [Entry(key, VNone)]), st)
  {
    forall k | 0 <= k < |p| ensures Get(es, p[k].key) == Get(es + [Entry(key, VNone)], p[k].key) {
      GetAppend(es, Entry(key, VNone), p[k].key);
    }
    SomeDictIgnoresOtherKeys(env, fuel, p, es, es + [Entry(key, VNone)], st);
  }

  lemma {:induction false} GetAppend(es: seq<Entry>, e: Entry, k: string)
    requires !HasKey(es, e.key)
    ensures Get(es + [e], k) == if HasKey(es, k) then Get(es, k) else if k == e.key then e.val else VNone
  {
    if es != [] {
      assert (es + [e])[1..] == es[1..] + [e];
      Construct.HasKeyTail(es, k);
      Construct.HasKeyTail(es, e.key);
      if es[0].key != k {
        GetAppend(es[1..], e, k);
      }
    } else {
      assert [e][1..] == [];
    }
  }

  /** `x in xs[i:]` for a list, tuple or set: some element equals `x`. */
  lemma {:induction false} AnyEqIsExists(env: Env, fuel: nat, x: Value, xs: seq<Value>, i: nat, st: SameState)
    requires i <= |xs| && SameFree(x) && SameFreeSeq(xs)
    ensures AnyEq(env, fuel, x, xs, i, st).Ok? ==>
              (AnyEq(env, fuel, x, xs, i, st).value.eq <==> MemberFrom(env, fuel, x, xs, i, st))
    decreases |xs| - i
  {
    if fuel > 0 && i < |xs| {
      AnyEqIsExists(env, fuel, x, xs, i + 1, st);
      AnyEqExistsStep(env, fuel, x, xs, i, st);
    }
  }

  /** Some item of `xs` from index `i` on equals `x`. */
  predicate MemberFrom(env: Env, fuel: nat, x: Value, xs: seq<Value>, i: nat, st: SameState)
    requires fuel > 0
  {
    exists k :: i <= k < |xs| && Holds(Eq(env, fuel - 1, x, xs[k], st))
  }

  lemma AnyEqExistsStep(env: Env, fuel: nat, x: Value, xs: seq<Value>, i: nat, st: SameState)
    requires fuel > 0 && i < |xs| && SameFree(x) && SameFreeSeq(xs)
    requires AnyEq(env, fuel, x, xs, i + 1, st).Ok? ==>
               (AnyEq(env, fuel, x, xs, i + 1, st).value.eq <==> MemberFrom(env, fuel, x, xs, i + 1, st))
    ensures AnyEq(env, fuel, x, xs, i, st).Ok? ==>
              (AnyEq(env, fuel, x, xs, i, st).value.eq <==> MemberFrom(env, fuel, x, xs, i, st))
  {
    assert MemberFrom(env, fuel, x, xs, i, st) <==>
           Holds(Eq(env, fuel - 1, x, xs[i], st)) || MemberFrom(env, fuel, x, xs, i + 1, st);
  }

  /** `SomeIn(container) == b`: a substring test for a str container, which
      raises TypeError for any other candidate; membership by equality for
      a list or tuple, and for a set once the candidate hashes; key lookup
      for a dict. */
  lemma SomeInCharacterised(env: Env, fuel: nat, c: Value, b: Value, st: SameState)
    requires fuel > 0 && SameFree(c) && SameFree(b)
    ensures c.VStr? ==>
              Outcome(Match(env, fuel, SomeIn(c), b, st)) ==
              if b.VStr? then Ok(Text.IsSubstring(b.s, c.s)) else Err(TypeError)
    ensures (c.VList? || c.VTuple?) && Match(env, fuel, SomeIn(c), b, st).Ok? ==>
              (Holds(Match(env, fuel, SomeIn(c), b, st)) <==>
               exists k :: 0 <= k < |c.items| && Holds(Eq(env, fuel - 1, b, c.items[k], st)))
    ensures c.VSet? && !Hashable(b) ==> Match(env, fuel, SomeIn(c), b, st) == Err(TypeError)
    ensures c.VSet? && Hashable(b) && Match(env, fuel, SomeIn(c), b, st).Ok? ==>
              (Holds(Match(env, fuel, SomeIn(c), b, st)) <==>
               exists k :: 0 <= k < |c.items| && Holds(Eq(env, fuel - 1, b, c.items[k], st)))
    ensures c.VDict? ==>
              Outcome(Match(env, fuel, SomeIn(c), b, st)) ==
              if Hashable(b) then Ok(b.VStr? && HasKey(c.entries, b.s)) else Err(TypeError)
  {
    MatchIn(env, fuel, c, b, st);
    if c.VList? || c.VTuple? || (c.VSet? && Hashable(b)) {
      AnyEqIsExists(env, fuel, b, c.items, 0, st);
      assert Contains(env, fuel, c, b, st) == AnyEq(env, fuel, b, c.items, 0, st);
    }
  }

  lemma MatchIn(env: Env, fuel: nat, c: Value, b: Value, st: SameState)
    requires fuel > 0
    ensures Match(env, fuel, SomeIn(c), b, st) == Concluded(Contains(env, fuel, c, b, st))
  {
  }

  /** A bound of 0 is no bound at all: `if length:` skips it. */
  lemma WithLenZeroIsNoBound(l: Option<int>, mn: Option<int>, mx: Option<int>, b: Value)
    ensures WithLenAccepts(Present(0), mn, mx, b) == WithLenAccepts(Absent, mn, mx, b)
    ensures WithLenAccepts(l, Present(0), mx, b) == WithLenAccepts(l, Absent, mx, b)
    ensures WithLenAccepts(l, mn, Present(0), b) == WithLenAccepts(l, mn, Absent, b)
  {
  }

  /** `SomeWithLen` over a sized value: each non-zero bound is enforced. */
  lemma WithLenCharacterised(l: Option<int>, mn: Option<int>, mx: Option<int>, b: Value)
    ensures !HasLenAttr(b) ==> WithLenAccepts(l, mn, mx, b) == Ok(false)
    ensures Len(b).Ok? ==>
              WithLenAccepts(l, mn, mx, b) ==
              Ok((!Truthy(l) || Len(b).value == l.value)
                 && (!Truthy(mn) || Len(b).value >= mn.value)
                 && (!Truthy(mx) || Len(b).value <= mx.value))
    ensures WithLenAccepts(l, mn, mx, b).Err? <==>
              HasLenAttr(b) && Len(b).Err? && (Truthy(l) || Truthy(mn) || Truthy(mx))
  {
  }

  /** An exact length `n` (any truthy `n`) is the same test as the pair of
      bounds `min_length=n, max_length=n`. */
  lemma WithLenExactIsBothBounds(n: int, b: Value)
    requires n != 0
    ensures WithLenAccepts(Present(n), Absent, Absent, b) == WithLenAccepts(Absent, Present(n), Present(n), b)
  {
  }

  /** A candidate of exact length `n` satisfies `min_length=n` and
      `max_length=n` alone, and a lower bound that is met stays met when it
      is lowered to any positive bound. */
  lemma WithLenBoundsWiden(n: int, lo: int, b: Value)
    requires n != 0 && 0 < lo <= n
    ensures WithLenAccepts(Present(n), Absent, Absent, b) == Ok(true) ==>
              WithLenAccepts(Absent, Present(n), Absent, b) == Ok(true)
              && WithLenAccepts(Absent, Absent, Present(n), b) == Ok(true)
    ensures WithLenAccepts(Absent, Present(n), Absent, b) == Ok(true) ==>
              WithLenAccepts(Absent, Present(lo), Absent, b) == Ok(true)
  {
  }

  /** Only the first option of `SomeStr` that is set decides; the others
      are ignored. */
  lemma StrFirstOptionDecides(env: Env, re: Option<string>, pat: Option<string>, ew: Option<string>, sw: Option<string>, b: Value)
    ensures re.Present? ==> StrAccepts(env, re, pat, ew, sw, b) == StrAccepts(env, re, Absent, Absent, Absent, b)
    ensures re.Absent? && pat.Present? ==> StrAccepts(env, re, pat, ew, sw, b) == StrAccepts(env, Absent, pat, Absent, Absent, b)
    ensures re.Absent? && pat.Absent? && ew.Present? ==> StrAccepts(env, re, pat, ew, sw, b) == StrAccepts(env, Absent, Absent, ew, Absent, b)
    ensures !b.VStr? ==> !StrAccepts(env, re, pat, ew, sw, b)
    ensures b.VStr? ==> StrAccepts(env, Absent, Absent, Absent, Absent, b)
  {
  }

  /** A `pattern` without wildcards or other special characters is anchored
      at both ends: it accepts exactly itself, or itself followed by one
      newline (where `$` also matches). */
  lemma PatternIsAnchored(env: Env, p: string, s: string)
    requires forall i :: 0 <= i < |p| ==> p[i] != '_' && p[i] != '.' && !Text.IsMeta(p[i])
    ensures StrAccepts(env, Absent, Present(p), Absent, Absent, VStr(s)) <==> s == p || s == p + "\n"
  {
    Text.PlainTemplateAcceptsItself(p, s);
  }

  /** A `regex` without special characters is only anchored at the start. */
  lemma LiteralRegexIsPrefix(env: Env, re: string, s: string)
    requires Text.IsLiteral(re)
    ensures StrAccepts(env, Present(re), Absent, Absent, Absent, VStr(s)) <==> exists rest :: s == re + rest
  {
    Text.LiteralRegexIsPrefixTest(env.reMatch, re, s);
  }

  /** `SomeEmail()` and `SomeUuid()` are `SomeStr` with one fixed regex. */
  lemma FixedRegexMatchers(env: Env, fuel: nat, b: Value, st: SameState)
    ensures Construct.MakeSomeStr(VStr(Construct.EmailRegex), VNone, VNone, VNone) == Ok(SomeStr(Present(Construct.EmailRegex), Absent, Absent, Absent))
    ensures Construct.MakeSomeStr(VStr(Construct.UuidRegex), VNone, VNone, VNone) == Ok(SomeStr(Present(Construct.UuidRegex), Absent, Absent, Absent))
    ensures Match(env, fuel, SomeEmail, b, st) == Match(env, fuel, SomeStr(Present(Construct.EmailRegex), Absent, Absent, Absent), b, st)
    ensures Match(env, fuel, SomeUuid, b, st) == Match(env, fuel, SomeStr(Present(Construct.UuidRegex), Absent, Absent, Absent), b, st)
  {
  }

  /** `validate_some_object` from keyword `i` on: every attribute exists and
      equals its pattern. */
  lemma {:induction false} AttrsCheckIsForall(env: Env, fuel: nat, attrs: seq<Entry>, i: nat, b: Value, st: SameState)
    requires i <= |attrs| && SameFree(b) && SameFreeEntries(attrs)
    ensures AttrsCheck(env, fuel, attrs, i, b, st).Ok? ==>
              (AttrsCheck(env, fuel, attrs, i, b, st).value.eq <==> AttrsFrom(env, fuel, attrs, i, b, st))
    decreases |attrs| - i
  {
    if fuel > 0 && i < |attrs| {
      if GetAttr(b, attrs[i].key).Present? {
        AttrsCheckIsForall(env, fuel, attrs, i + 1, b, st);
        AttrsCheckStep(env, fuel, attrs, i, b, st);
      } else {
        AttrsCheckMissing(env, fuel, attrs, i, b, st);
      }
    }
  }

  /** From index `i` on, `b` has every attribute with an equal value. */
  predicate AttrsFrom(env: Env, fuel: nat, attrs: seq<Entry>, i: nat, b: Value, st: SameState)
    requires fuel > 0
  {
    forall k :: i <= k < |attrs| ==>
      GetAttr(b, attrs[k].key).Present? && Holds(Eq(env, fuel - 1, attrs[k].val, GetAttr(b, attrs[k].key).value, st))
  }

  lemma AttrsCheckMissing(env: Env, fuel: nat, attrs: seq<Entry>, i: nat, b: Value, st: SameState)
    requires fuel > 0 && i < |attrs| && GetAttr(b, attrs[i].key).Absent?
    ensures AttrsCheck(env, fuel, attrs, i, b, st) == Ok(Step(false, st, 0))
    ensures !AttrsFrom(env, fuel, attrs, i, b, st)
  {
  }

  lemma AttrsCheckStep(env: Env, fuel: nat, attrs: seq<Entry>, i: nat, b: Value, st: SameState)
    requires fuel > 0 && i < |attrs| && GetAttr(b, attrs[i].key).Present?
    requires SameFree(b) && SameFreeEntries(attrs)
    requires AttrsCheck(env, fuel, attrs, i + 1, b, st).Ok? ==>
               (AttrsCheck(env, fuel, attrs, i + 1, b, st).value.eq <==> AttrsFrom(env, fuel, attrs, i + 1, b, st))
    ensures AttrsCheck(env, fuel, attrs, i, b, st).Ok? ==>
              (AttrsCheck(env, fuel, attrs, i, b, st).value.eq <==> AttrsFrom(env, fuel, attrs, i, b, st))
  {
    GetSameFree(b.attrs, attrs[i].key);
    assert AttrsFrom(env, fuel, attrs, i, b, st) <==>
           Holds(Eq(env, fuel - 1, attrs[i].val, GetAttr(b, attrs[i].key).value, st)) && AttrsFrom(env, fuel, attrs, i + 1, b, st);
  }

  /** `SomeObject(*rules, **attrs) == b` holds iff `Some(*rules) == b` and `b`
      has every attribute with an equal value; a rejection logs the messages
      of the inner `Some`, the `AllOf` and the `SomeObject` wrappers. */
  lemma SomeObjectCharacterised(env: Env, fuel: nat, rs: seq<Rule>, attrs: seq<Entry>, b: Value, st: SameState)
    requires SameFreeMatcher(SomeObject(rs, attrs)) && SameFree(b)
    ensures Match(env, fuel, SomeObject(rs, attrs), b, st).Ok? ==>
              (Holds(Match(env, fuel, SomeObject(rs, attrs), b, st)) <==>
               && Holds(SomeEq(env, fuel - 1, rs, b, st))
               && forall k :: 0 <= k < |attrs| ==>
                    GetAttr(b, attrs[k].key).Present? && Holds(Eq(env, fuel - 1, attrs[k].val, GetAttr(b, attrs[k].key).value, st)))
    ensures Fails(Match(env, fuel, SomeObject(rs, attrs), b, st)) ==> Match(env, fuel, SomeObject(rs, attrs), b, st).value.unequals >= 3
  {
    if fuel > 0 {
      MatchObject(env, fuel, rs, attrs, b, st);
      ObjectAllCharacterised(env, fuel, rs, attrs, b, st);
    }
  }

  lemma MatchObject(env: Env, fuel: nat, rs: seq<Rule>, attrs: seq<Entry>, b: Value, st: SameState)
    requires fuel > 0
    ensures Match(env, fuel, SomeObject(rs, attrs), b, st) == Concluded(ObjectAll(env, fuel, rs, attrs, b, st))
  {
  }

  /** The body of `SomeObject` accepts iff the rules and every attribute do;
      a rejection carries the two wrapper messages. */
  lemma ObjectAllCharacterised(env: Env, fuel: nat, rs: seq<Rule>, attrs: seq<Entry>, b: Value, st: SameState)
    requires fuel > 0 && SameFreeRules(rs) && SameFreeEntries(attrs) && SameFree(b)
    ensures ObjectAll(env, fuel, rs, attrs, b, st).Ok? ==>
              (ObjectAll(env, fuel, rs, attrs, b, st).value.eq <==>
               Holds(SomeEq(env, fuel - 1, rs, b, st)) && AttrsFrom(env, fuel, attrs, 0, b, st))
    ensures Fails(ObjectAll(env, fuel, rs, attrs, b, st)) ==> ObjectAll(env, fuel, rs, attrs, b, st).value.unequals >= 2
  {
    AttrsCheckIsForall(env, fuel, attrs, 0, b, st);
  }
}

=== FILE: results.dfy ===
/** Error signals and failure-compatible wrappers shared by every module. */
module Results {

  /** The exceptions the matcher engine raises, as named signals.
      `TypeError`, `KeyError`, `AttributeError` and `RecursionError` are the
      Python built-ins that the engine's own code can trigger. */
  datatype Error =
    | InvalidArgument
    | InvalidFunction
    | MustReturnBool
    | SameOutsideExpect
    | TypeError
    | KeyError
    | AttributeError
    | RecursionError

  /** Either a value or the exception that aborted the computation. */
  datatype Result<+T> = Ok(value: T) | Err(error: Error) {

    predicate IsFailure() {
      Err?
    }

    function PropagateFailure<U>(): Result<U>
      requires Err?
    {
      Err(error)
    }

    function Extract(): T
      requires Ok?
    {
      value
    }
  }

  /** An optional keyword argument: `Absent` stands for Python's `None`. */
  datatype Option<+T> = Absent | Present(value: T)
}

=== FILE: same_props.dfy ===
/** What `Same.__eq__` promises about the "Same" channel of the correlation
    state: it only runs inside an open window, it binds a name to the first
    candidate its rules accept, it compares every later candidate with that
    binding, and it touches no other name. */
module SameProps {
  import opened Results
  import opened Values
  import opened SameStates
  import opened Eval
  import MatcherProps

  /** The "Same" channel exists, whatever its flag. */
  predicate HasSameChannel(st: SameState) {
    "Same" in st.allow && "Same" in st.state
  }

  /** The channel is open: `_start` ran and `_end` has not. */
  predicate SameAllowed(st: SameState) {
    HasSameChannel(st) && st.allow["Same"]
  }

  /** Outside an open window the comparison raises `SameOutsideExpect`
      whatever the rules, the candidate and the bindings are: none of them
      is consulted. */
  lemma SameOutsideExpectFirst(env: Env, fuel: nat, s: Same, b: Value, st: SameState)
    requires fuel > 0 && HasSameChannel(st) && !st.allow["Same"]
    ensures SameEq(env, fuel, s, b, st) == Err(SameOutsideExpect)
  {
  }

  /** After `_end` (and before any `_start`) every `Same` raises. */
  lemma ClosedWindowRaises(env: Env, fuel: nat, s: Same, b: Value, st: SameState)
    requires fuel > 0 && WellFormed(st)
    ensures SameEq(env, fuel, s, b, Reset(st, false)) == Err(SameOutsideExpect)
    ensures SameEq(env, fuel, s, b, Init) == Err(SameOutsideExpect)
  {
    ResetKeepsChannels(st, false);
    assert Reset(st, false).allow["Same"] == false;
  }

  /** A candidate the wrapped rules reject is unequal, and the bindings stay
      as they were. */
  lemma SameRejectionKeepsBindings(env: Env, fuel: nat, s: Same, b: Value, st: SameState)
    requires fuel > 0 && SameAllowed(st)
    requires SameFreeRules(s.rules) && SameFree(b)
    requires MatcherProps.Fails(SomeEq(env, fuel, s.rules, b, st))
    ensures MatcherProps.Fails(SameEq(env, fuel, s, b, st))
    ensures SameEq(env, fuel, s, b, st).value.state == st
  {
  }

  /** The first accepted candidate binds the name and compares equal; the
      rest of the correlation state is unchanged. */
  lemma SameBindsFirstCandidate(env: Env, fuel: nat, s: Same, b: Value, st: SameState)
    requires fuel > 0 && SameAllowed(st)
    requires SameFreeRules(s.rules) && SameFree(b) && Hashable(s.name)
    requires MatcherProps.Holds(SomeEq(env, fuel, s.rules, b, st))
    requires s.name !in st.state["Same"]
    ensures MatcherProps.Holds(SameEq(env, fuel, s, b, st))
    ensures SameEq(env, fuel, s, b, st).value.state ==
            st.(state := st.state["Same" := st.state["Same"][s.name := b]])
  {
  }

  /** Once the name is bound, an accepted candidate compares equal exactly
      when it equals the bound value, and the bindings stay as they were. */
  lemma SameComparesWithBinding(env: Env, fuel: nat, s: Same, b: Value, st: SameState)
    requires fuel > 0 && SameAllowed(st)
    requires SameFreeRules(s.rules) && SameFree(b) && Hashable(s.name)
    requires MatcherProps.Holds(SomeEq(env, fuel, s.rules, b, st))
    requires s.name in st.state["Same"] && SameFree(st.state["Same"][s.name])
    ensures MatcherProps.Outcome(SameEq(env, fuel, s, b, st)) ==
            MatcherProps.Outcome(Eq(env, fuel - 1, b, st.state["Same"][s.name], st))
    ensures SameEq(env, fuel, s, b, st).Ok? ==> SameEq(env, fuel, s, b, st).value.state == st
  {
  }

  /** The binding of every other name, and every other channel, is left
      alone: the comparison either changes nothing or binds its own name to
      the candidate. */
  lemma SameTouchesOnlyItsName(env: Env, fuel: nat, s: Same, b: Value, st: SameState)
    requires SameFreeRules(s.rules) && SameFree(b)
    requires HasSameChannel(st) && forall k :: k in st.state["Same"] ==> SameFree(st.state["Same"][k])
    ensures SameEq(env, fuel, s, b, st).Ok? ==>
              var st2 := SameEq(env, fuel, s, b, st).value.state;
              st2 == st || st2 == st.(state := st.state["Same" := st.state["Same"][s.name := b]])
    ensures SameEq(env, fuel, s, b, st).Ok? ==>
              var st2 := SameEq(env, fuel, s, b, st).value.state;
              forall k :: k != s.name ==>
                (k in st2.state["Same"] <==> k in st.state["Same"])
                && (k in st.state["Same"] ==> st2.state["Same"][k] == st.state["Same"][k])
  {
  }

  /** `_start()` opens a fresh window: the first accepted candidate of any
      `Same` binds, whatever earlier windows bound. */
  lemma StartForgetsEarlierBindings(env: Env, fuel: nat, s: Same, b: Value, st: SameState)
    requires fuel > 0 && WellFormed(st)
    requires SameFreeRules(s.rules) && SameFree(b) && Hashable(s.name)
    requires MatcherProps.Holds(SomeEq(env, fuel, s.rules, b, Reset(st, true)))
    ensures MatcherProps.Holds(SameEq(env, fuel, s, b, Reset(st, true)))
    ensures SameEq(env, fuel, s, b, Reset(st, true)).value.state.state["Same"] == map[s.name := b]
  {
    var window := Reset(st, true);
    assert window.allow["Same"] && window.state["Same"] == map[];
    SameBindsFirstCandidate(env, fuel, s, b, window);
  }

  /** `Same(int)` inside `_start()`: `1` binds, a second `1` is equal, `2`
      is not, `"x"` is rejected by the rules and logs one message; after
      `_end()` the comparison raises. */
  lemma SameCorrelatesExample(env: Env)
    ensures var s := Same([TypeRule(Int)], DefaultName);
            var bound := Window.(state := Window.state["Same" := map[DefaultName := VInt(1)]]);
            && SameEq(env, 3, s, VInt(1), Window) == Ok(Step(true, bound, 0))
            && SameEq(env, 3, s, VInt(1), bound) == Ok(Step(true, bound, 0))
            && SameEq(env, 3, s, VInt(2), bound) == Ok(Step(false, bound, 0))
            && SameEq(env, 3, s, VStr("x"), bound) == Ok(Step(false, bound, 1))
            && SameEq(env, 3, s, VInt(1), Reset(bound, false)) == Err(SameOutsideExpect)
  {
    var s := Same([TypeRule(Int)], DefaultName);
    FirstOneBinds(env, s);
    var bound := Window.(state := Window.state["Same" := map[DefaultName := VInt(1)]]);
    BoundIntCompares(env, s, 1, bound);
    BoundIntCompares(env, s, 2, bound);
    BoundRejectsStr(env, s, bound);
    assert Reset(bound, false).allow["Same"] == false;
  }

  lemma FirstOneBinds(env: Env, s: Same)
    requires s == Same([TypeRule(Int)], DefaultName)
    ensures SameEq(env, 3, s, VInt(1), Window) ==
            Ok(Step(true, Window.(state := Window.state["Same" := map[DefaultName := VInt(1)]]), 0))
  {
    assert Window.allow["Same"] && Window.state["Same"] == map[];
    MatcherProps.SomeEqOfOneClass(env, 3, Int, VInt(1), Window);
  }

  lemma BoundIntCompares(env: Env, s: Same, i: int, bound: SameState)
    requires s == Same([TypeRule(Int)], DefaultName)
    requires bound == Window.(state := Window.state["Same" := map[DefaultName := VInt(1)]])
    ensures SameEq(env, 3, s, VInt(i), bound) == Ok(Step(i == 1, bound, 0))
  {
    assert bound.allow["Same"] && bound.state["Same"] == map[DefaultName := VInt(1)];
    MatcherProps.SomeEqOfOneClass(env, 3, Int, VInt(i), bound);
    assert Eq(env, 2, VInt(i), VInt(1), bound) == Builtin(env, 2, VInt(i), VInt(1), bound);
  }

  lemma BoundRejectsStr(env: Env, s: Same, bound: SameState)
    requires s == Same([TypeRule(Int)], DefaultName)
    requires bound == Window.(state := Window.state["Same" := map[DefaultName := VInt(1)]])
    ensures SameEq(env, 3, s, VStr("x"), bound) == Ok(Step(false, bound, 1))
  {
    assert bound.allow["Same"] && bound.state["Same"] == map[DefaultName := VInt(1)];
    MatcherProps.SomeEqOfOneClass(env, 3, Int, VStr("x"), bound);
  }
}

=== FILE: same_state.dfy ===
/** The class-level correlation state of `SameState`: per channel, whether
    `Same` objects may be evaluated, and the bindings made so far. */
module SameStates {
  import opened Values

  /** `SameState._allow` and `SameState._state`, both keyed by channel name. */
  datatype SameState = SameState(allow: map<string, bool>, state: map<string, map<Value, Value>>)

  /** The channels the class body declares. */
  const Channels: set<string> := {"Same", "NotSame"}

  /** The class body: both channels closed, no bindings. */
  const Init: SameState :=
    SameState(map["Same" := false, "NotSame" := false], map["Same" := map[], "NotSame" := map[]])

  /** The state right after `_start`: both channels open, no bindings. */
  const Window: SameState :=
    SameState(map["Same" := true, "NotSame" := true], map["Same" := map[], "NotSame" := map[]])

  lemma WindowIsStart()
    ensures Window == Reset(Init, true)
  {
    assert Window.allow == Reset(Init, true).allow;
    assert Window.state == Reset(Init, true).state;
  }

  /** Exactly the declared channels, each with a flag and a binding map. */
  predicate WellFormed(st: SameState) {
    st.allow.Keys == Channels && st.state.Keys == Channels
  }

  /** Every channel shares one allow flag and has no bindings. */
  predicate Uniform(st: SameState, flag: bool) {
    (forall c :: c in st.allow ==> st.allow[c] == flag)
    && (forall c :: c in st.allow ==> c in st.state && st.state[c] == map[])
  }

  /** The state `for key in _allow.keys(): _allow[key] = flag; _state[key] = {}`
      leaves behind. */
  function Reset(st: SameState, flag: bool): SameState {
    SameState(map c | c in st.allow :: flag,
              map c | c in st.state.Keys + st.allow.Keys :: if c in st.allow then map[] else st.state[c])
  }

  /** The loop shared by `_start` and `_end`, one key at a time. */
  method SetAllChannels(st: SameState, flag: bool) returns (r: SameState)
    ensures r.allow.Keys == st.allow.Keys
    ensures r.state.Keys == st.state.Keys + st.allow.Keys
    ensures Uniform(r, flag)
    ensures forall c :: c in st.state && c !in st.allow ==> r.state[c] == st.state[c]
    ensures r == Reset(st, flag)
  {
    var todo := st.allow.Keys;
    r := st;
    while todo != {}
      invariant todo <= st.allow.Keys
      invariant r.allow.Keys == st.allow.Keys
      invariant r.state.Keys == st.state.Keys + (st.allow.Keys - todo)
      invariant forall c :: c in st.allow && c !in todo ==> r.allow[c] == flag && r.state[c] == map[]
      invariant forall c :: c in todo ==> r.allow[c] == st.allow[c]
      invariant forall c :: c in r.state && c !in st.allow ==> r.state[c] == st.state[c]
      invariant forall c :: c in todo && c in st.state ==> r.state[c] == st.state[c]
      decreases todo
    {
      var key :| key in todo;
      r := SameState(r.allow[key := flag], r.state[key := map[]]);
      todo := todo - {key};
    }
    ResetDetermined(st, flag, r);
  }

  /** The channel keys, the shared flag, the cleared bindings and the
      untouched extra entries determine the result of a reset. */
  lemma ResetDetermined(st: SameState, flag: bool, r: SameState)
    requires r.allow.Keys == st.allow.Keys
    requires r.state.Keys == st.state.Keys + st.allow.Keys
    requires Uniform(r, flag)
    requires forall c :: c in st.state && c !in st.allow ==> r.state[c] == st.state[c]
    ensures r == Reset(st, flag)
  {
    assert r.allow == Reset(st, flag).allow;
    assert r.state == Reset(st, flag).state;
  }

  /** `SameState._start()`: every channel opens with no bindings; nothing
      else is touched. */
  method Start(st: SameState) returns (r: SameState)
    ensures r.allow.Keys == st.allow.Keys
    ensures r.state.Keys == st.state.Keys + st.allow.Keys
    ensures Uniform(r, true)
    ensures forall c :: c in st.state && c !in st.allow ==> r.state[c] == st.state[c]
    ensures r == Reset(st, true)
  {
    r := SetAllChannels(st, true);
  }

  /** `SameState._end()`: every channel closes with no bindings; nothing
      else is touched. */
  method End(st: SameState) returns (r: SameState)
    ensures r.allow.Keys == st.allow.Keys
    ensures r.state.Keys == st.state.Keys + st.allow.Keys
    ensures Uniform(r, false)
    ensures forall c :: c in st.state && c !in st.allow ==> r.state[c] == st.state[c]
    ensures r == Reset(st, false)
  {
    r := SetAllChannels(st, false);
  }

  /** The initial state is closed on both declared channels. */
  lemma InitClosed()
    ensures WellFormed(Init) && Uniform(Init, false)
    ensures !Init.allow["Same"] && !Init.allow["NotSame"]
  {
  }

  /** Opening or closing neither adds nor removes a channel. */
  lemma ResetKeepsChannels(st: SameState, flag: bool)
    requires WellFormed(st)
    ensures WellFormed(Reset(st, flag))
  {
  }

  /** Opening twice is opening once; closing twice is closing once. */
  lemma ResetIdempotent(st: SameState, flag: bool)
    ensures Reset(Reset(st, flag), flag) == Reset(st, flag)
  {
    var once := Reset(st, flag);
    var twice := Reset(once, flag);
    assert twice.allow == once.allow;
    assert twice.state == once.state;
  }

  /** The last of two resets decides: closing after opening equals closing. */
  lemma ResetLastWins(st: SameState, first: bool, second: bool)
    ensures Reset(Reset(st, first), second) == Reset(st, second)
  {
    var once := Reset(st, first);
    var twice := Reset(once, second);
    assert twice.allow == Reset(st, second).allow;
    assert twice.state == Reset(st, second).state;
  }

  /** Applies a sequence of `_start` (true) and `_end` (false) calls. */
  function Run(st: SameState, ops: seq<bool>): SameState
    decreases |ops|
  {
    if ops == [] then st else Run(Reset(st, ops[0]), ops[1..])
  }

  /** After any non-empty sequence of `_start`/`_end` calls on a well-formed
      state, the state is well-formed, every channel carries the flag of the
      last call, and no binding survives. */
  lemma {:induction false} RunUniform(st: SameState, ops: seq<bool>)
    requires WellFormed(st) && ops != []
    decreases |ops|
    ensures WellFormed(Run(st, ops))
    ensures Uniform(Run(st, ops), ops[|ops| - 1])
    ensures Run(st, ops) == Reset(st, ops[|ops| - 1])
  {
    if |ops| == 1 {
      assert Run(st, ops) == Run(Reset(st, ops[0]), []);
    } else {
      var next := Reset(st, ops[0]);
      RunUniform(next, ops[1..]);
      ResetLastWins(st, ops[0], ops[|ops| - 1]);
    }
  }
}

=== FILE: signature.dfy ===
/** The human-readable signature of a matcher (`str(matcher)`), and Python's
    `get_signature(*args, **kwargs)` over raw constructor arguments. */
module Signature {
  import opened Results
  import opened Values
  import Construct

  function DigitChar(d: nat): char
    requires d < 10
  {
    "0123456789"[d]
  }

  /** `str(n)` for a natural number. */
  function Digits(n: nat): string
    decreases n
  {
    if n < 10 then [DigitChar(n)] else Digits(n / 10) + [DigitChar(n % 10)]
  }

  /** `str(i)` for an integer. */
  function IntText(i: int): string {
    if i < 0 then "-" + Digits(-i) else Digits(i)
  }

  /** `", ".join(parts)` */
  function Join(parts: seq<string>): string {
    if parts == [] then ""
    else if |parts| == 1 then parts[0]
    else parts[0] + ", " + Join(parts[1..])
  }

  /** `cls.__name__ + "(" + ", ".join(parts) + ")"` */
  function Call(cls: string, parts: seq<string>): string {
    cls + "(" + Join(parts) + ")"
  }

  /** `str(v)`. The text of containers, objects, classes and `Same` objects
      is not modelled: it comes from `lit`. */
  function PyStr(v: Value, lit: Value -> string): string
    decreases v, 0
  {
    match v
    case VMatcher(m) => Sig(m, lit)
    case VStr(s) => s
    case VInt(i) => IntText(i)
    case VBool(b) => if b then "True" else "False"
    case VNone => "None"
    case _ => lit(v)
  }

  /** One positional argument: classes and callables render by `__name__`,
      everything else by `str`. */
  function RenderArg(v: Value, lit: Value -> string): string
    decreases v, 1
  {
    if v.VType? then TypeName(v.t) else if v.VFunc? then v.f.name else PyStr(v, lit)
  }

  /** One keyword argument: `key=value`. */
  function RenderKw(e: Entry, lit: Value -> string): string {
    Kw(e.key, RenderArg(e.val, lit))
  }

  /** `f"{key}={text}"` */
  function Kw(key: string, text: string): string {
    key + "=" + text
  }

  function RenderRule(r: Rule, lit: Value -> string): string {
    match r
    case TypeRule(t) => TypeName(t)
    case PredRule(f) => f.name
    case NestedRule(m) => Sig(m, lit)
  }

  function IntKw(key: string, o: Option<int>): seq<string> {
    if o.Present? then [Kw(key, IntText(o.value))] else []
  }

  function StrKw(key: string, o: Option<string>): seq<string> {
    if o.Present? then [Kw(key, o.value)] else []
  }

  /** The class name a matcher reports. */
  function ClassName(m: Matcher): string {
    match m
    case Some(_) => "Some"
    case AllOf(_) => "AllOf"
    case SomeOrNone(_) => "SomeOrNone"
    case SomeIterable(_, _, _) => "SomeIterable"
    case SomeList(_, _) => "SomeList"
    case SomeDict(_) => "SomeDict"
    case SomeIn(_) => "SomeIn"
    case SomeWithLen(_, _, _) => "SomeWithLen"
    case NotSome(_) => "NotSome"
    case SomeStr(_, _, _, _) => "SomeStr"
    case SomeEmail => "SomeEmail"
    case SomeUuid => "SomeUuid"
    case SomeObject(_, _) => "SomeObject"
  }

  /** The rendered rules of a matcher, in order. */
  function RenderRules(rs: seq<Rule>, lit: Value -> string): (r: seq<string>)
    ensures |r| == |rs|
  {
    if rs == [] then [] else [RenderRule(rs[0], lit)] + RenderRules(rs[1..], lit)
  }

  /** The rendered positional arguments, in order. */
  function RenderArgs(args: seq<Value>, lit: Value -> string): (r: seq<string>)
    ensures |r| == |args|
  {
    if args == [] then [] else [RenderArg(args[0], lit)] + RenderArgs(args[1..], lit)
  }

  /** The rendered keyword arguments, in order. */
  function RenderKws(kws: seq<Entry>, lit: Value -> string): (r: seq<string>)
    ensures |r| == |kws|
  {
    if kws == [] then [] else [RenderKw(kws[0], lit)] + RenderKws(kws[1..], lit)
  }

  /** `str(m)`: rendered from what the matcher keeps. */
  function Sig(m: Matcher, lit: Value -> string): string
  {
    var parts := match m
      case Some(rs) => RenderRules(rs, lit)
      case AllOf(args) => RenderArgs(args, lit)
      case SomeOrNone(rs) => RenderRules(rs, lit)
      case SomeIterable(arg, length, t) =>
        [RenderArg(arg, lit)]
        + (if length.VNone? then [] else [Kw("length", RenderArg(length, lit))])
        + (if t == Iterable then [] else [Kw("is_type", TypeName(t))])
      case SomeList(arg, length) =>
        [RenderArg(arg, lit)] + (if length.VNone? then [] else [Kw("length", RenderArg(length, lit))])
      case SomeDict(p) => RenderKws(p, lit)
      case SomeIn(c) => [RenderArg(c, lit)]
      case SomeWithLen(l, mn, mx) => IntKw("length", l) + IntKw("min_length", mn) + IntKw("max_length", mx)
      case NotSome(rs) => RenderRules(rs, lit)
      case SomeStr(re, pat, ew, sw) => StrKw("regex", re) + StrKw("pattern", pat) + StrKw("endswith", ew) + StrKw("startswith", sw)
      case SomeEmail => []
      case SomeUuid => []
      case SomeObject(rs, attrs) => RenderRules(rs, lit) + RenderKws(attrs, lit);
    Call(ClassName(m), parts)
  }

  /** Python's `cls.get_signature(*args, **kwargs)` over raw arguments. */
  function GetSignature(cls: string, args: seq<Value>, kwargs: seq<Entry>, lit: Value -> string): string {
    Call(cls, RenderArgs(args, lit) + RenderKws(kwargs, lit))
  }

  lemma {:induction false} RenderKwsAppend(a: seq<Entry>, b: seq<Entry>, lit: Value -> string)
    ensures RenderKws(a + b, lit) == RenderKws(a, lit) + RenderKws(b, lit)
  {
    if a != [] {
      assert (a + b)[1..] == a[1..] + b;
      RenderKwsAppend(a[1..], b, lit);
    } else {
      assert a + b == b;
    }
  }

  /** The positional arguments each class's `__init__` hands to `get_signature`. */
  function SigArgs(m: Matcher): seq<Value> {
    match m
    case Some(rs) => Construct.RuleArgs(rs)
    case AllOf(args) => args
    case SomeOrNone(rs) => Construct.RuleArgs(rs)
    case SomeIterable(arg, _, _) => [arg]
    case SomeList(arg, _) => [arg]
    case SomeIn(c) => [c]
    case NotSome(rs) => Construct.RuleArgs(rs)
    case SomeObject(rs, _) => Construct.RuleArgs(rs)
    case _ => []
  }

  function IntEntry(key: string, o: Option<int>): seq<Entry> {
    if o.Present? then [Entry(key, VInt(o.value))] else []
  }

  function StrEntry(key: string, o: Option<string>): seq<Entry> {
    if o.Present? then [Entry(key, VStr(o.value))] else []
  }

  /** The keyword arguments each class's `__init__` hands to `get_signature`:
      only the options that are not None, in declaration order. */
  function SigKwargs(m: Matcher): seq<Entry> {
    match m
    case SomeIterable(_, length, t) =>
      (if length.VNone? then [] else [Entry("length", length)])
      + (if t == Iterable then [] else [Entry("is_type", VType(t))])
    case SomeList(_, length) => if length.VNone? then [] else [Entry("length", length)]
    case SomeDict(p) => p
    case SomeWithLen(l, mn, mx) => IntEntry("length", l) + IntEntry("min_length", mn) + IntEntry("max_length", mx)
    case SomeStr(re, pat, ew, sw) => StrEntry("regex", re) + StrEntry("pattern", pat) + StrEntry("endswith", ew) + StrEntry("startswith", sw)
    case SomeObject(_, attrs) => attrs
    case _ => []
  }

  lemma RenderRuleArg(r: Rule, lit: Value -> string)
    ensures RenderArg(Construct.RuleArg(r), lit) == RenderRule(r, lit)
  {
  }

  /** A rule renders exactly as the constructor argument it came from. */
  lemma {:induction false} RenderRulesAsArgs(rs: seq<Rule>, lit: Value -> string)
    ensures RenderRules(rs, lit) == RenderArgs(Construct.RuleArgs(rs), lit)
  {
    if rs != [] {
      RenderRuleArg(rs[0], lit);
      assert Construct.RuleArgs(rs)[1..] == Construct.RuleArgs(rs[1..]);
      RenderRulesAsArgs(rs[1..], lit);
    }
  }

  lemma RenderOne(v: Value, e: Entry, lit: Value -> string)
    ensures RenderArgs([v], lit) == [RenderArg(v, lit)]
    ensures RenderKws([e], lit) == [RenderKw(e, lit)]
  {
  }

  lemma IntEntryRenders(k: string, o: Option<int>, lit: Value -> string)
    ensures RenderKws(IntEntry(k, o), lit) == IntKw(k, o)
  {
    if o.Present? {
      var e := Entry(k, VInt(o.value));
      RenderOne(VNone, e, lit);
      assert PyStr(VInt(o.value), lit) == IntText(o.value);
      assert RenderArg(VInt(o.value), lit) == IntText(o.value);
    }
  }

  lemma StrEntryRenders(k: string, o: Option<string>, lit: Value -> string)
    ensures RenderKws(StrEntry(k, o), lit) == StrKw(k, o)
  {
    if o.Present? {
      var e := Entry(k, VStr(o.value));
      RenderOne(VNone, e, lit);
      assert PyStr(VStr(o.value), lit) == o.value;
      assert RenderArg(VStr(o.value), lit) == o.value;
    }
  }

  lemma SigWithLenIsGetSignature(l: Option<int>, mn: Option<int>, mx: Option<int>, lit: Value -> string)
    ensures Sig(SomeWithLen(l, mn, mx), lit)
         == GetSignature("SomeWithLen", [], IntEntry("length", l) + IntEntry("min_length", mn) + IntEntry("max_length", mx), lit)
  {
    var a, b, c := IntEntry("length", l), IntEntry("min_length", mn), IntEntry("max_length", mx);
    IntEntryRenders("length", l, lit);
    IntEntryRenders("min_length", mn, lit);
    IntEntryRenders("max_length", mx, lit);
    RenderKwsAppend(a, b, lit);
    RenderKwsAppend(a + b, c, lit);
    var parts := IntKw("length", l) + IntKw("min_length", mn) + IntKw("max_length", mx);
    assert RenderKws(a + b + c, lit) == parts;
    assert RenderArgs([], lit) + parts == parts;
  }

  lemma SigStrIsGetSignature(re: Option<string>, pat: Option<string>, ew: Option<string>, sw: Option<string>,
                             lit: Value -> string)
    ensures Sig(SomeStr(re, pat, ew, sw), lit)
         == GetSignature("SomeStr", [], StrEntry("regex", re) + StrEntry("pattern", pat)
                                        + StrEntry("endswith", ew) + StrEntry("startswith", sw), lit)
  {
    var a, b, c, d := StrEntry("regex", re), StrEntry("pattern", pat), StrEntry("endswith", ew), StrEntry("startswith", sw);
    StrEntryRenders("regex", re, lit);
    StrEntryRenders("pattern", pat, lit);
    StrEntryRenders("endswith", ew, lit);
    StrEntryRenders("startswith", sw, lit);
    RenderKwsAppend(a, b, lit);
    RenderKwsAppend(a + b, c, lit);
    RenderKwsAppend(a + b + c, d, lit);
    var parts := StrKw("regex", re) + StrKw("pattern", pat) + StrKw("endswith", ew) + StrKw("startswith", sw);
    assert RenderKws(a + b + c + d, lit) == parts;
    assert RenderArgs([], lit) + parts == parts;
  }

  /** The signature a matcher reports is the one its constructor computed
      from its own arguments: class name, positional arguments in order,
      then the keyword arguments that were given, in declaration order. */
  lemma SigIsGetSignature(m: Matcher, lit: Value -> string)
    ensures Sig(m, lit) == GetSignature(ClassName(m), SigArgs(m), SigKwargs(m), lit)
  {
    match m
    case Some(rs) =>
      RenderRulesAsArgs(rs, lit);
      assert RenderRules(rs, lit) + RenderKws([], lit) == RenderRules(rs, lit);
    case SomeOrNone(rs) =>
      RenderRulesAsArgs(rs, lit);
      assert RenderRules(rs, lit) + RenderKws([], lit) == RenderRules(rs, lit);
    case NotSome(rs) =>
      RenderRulesAsArgs(rs, lit);
      assert RenderRules(rs, lit) + RenderKws([], lit) == RenderRules(rs, lit);
    case SomeObject(rs, attrs) => RenderRulesAsArgs(rs, lit);
    case AllOf(args) =>
      assert RenderArgs(args, lit) + RenderKws([], lit) == RenderArgs(args, lit);
    case SomeIterable(arg, length, t) => SigIterableIsGetSignature(arg, length, t, lit);
    case SomeList(arg, length) => SigListIsGetSignature(arg, length, lit);
    case SomeDict(p) =>
      assert RenderArgs([], lit) + RenderKws(p, lit) == RenderKws(p, lit);
    case SomeIn(c) =>
    case SomeWithLen(l, mn, mx) => SigWithLenIsGetSignature(l, mn, mx, lit);
    case SomeStr(re, pat, ew, sw) => SigStrIsGetSignature(re, pat, ew, sw, lit);
    case SomeEmail =>
    case SomeUuid =>
  }

  lemma SigIterableIsGetSignature(arg: Value, length: Value, t: PyType, lit: Value -> string)
    ensures Sig(SomeIterable(arg, length, t), lit)
         == GetSignature("SomeIterable", SigArgs(SomeIterable(arg, length, t)), SigKwargs(SomeIterable(arg, length, t)), lit)
  {
    var lk := if length.VNone? then [] else [Entry("length", length)];
    var tk := if t == Iterable then [] else [Entry("is_type", VType(t))];
    RenderKwsAppend(lk, tk, lit);
    RenderOne(arg, Entry("length", length), lit);
    RenderOne(arg, Entry("is_type", VType(t)), lit);
    assert RenderArg(VType(t), lit) == TypeName(t);
    var lp := if length.VNone? then [] else [Kw("length", RenderArg(length, lit))];
    var tp := if t == Iterable then [] else [Kw("is_type", TypeName(t))];
    assert RenderKws(lk, lit) == lp;
    assert RenderKws(tk, lit) == tp;
    assert RenderKws(lk + tk, lit) == lp + tp;
    assert [RenderArg(arg, lit)] + lp + tp == RenderArgs([arg], lit) + (lp + tp);
  }

  lemma SigListIsGetSignature(arg: Value, length: Value, lit: Value -> string)
    ensures Sig(SomeList(arg, length), lit)
         == GetSignature("SomeList", SigArgs(SomeList(arg, length)), SigKwargs(SomeList(arg, length)), lit)
  {
    var lk := if length.VNone? then [] else [Entry("length", length)];
    RenderOne(arg, Entry("length", length), lit);
    assert RenderKws(lk, lit) == (if length.VNone? then [] else [Kw("length", RenderArg(length, lit))]);
  }

  /** `str(Some(*args))` is `get_signature` of exactly the arguments given. */
  lemma SomeSignatureMirrorsArgs(args: seq<Value>, lit: Value -> string)
    requires Construct.MakeSome(args).Ok?
    ensures Sig(Construct.MakeSome(args).value, lit) == GetSignature("Some", args, [], lit)
  {
    SigIsGetSignature(Construct.MakeSome(args).value, lit);
  }

  /** `str(SomeOrNone(*args))` shows only the arguments given: the `is_none`
      rule the constructor appends never appears. */
  lemma SomeOrNoneSignatureMirrorsArgs(args: seq<Value>, lit: Value -> string)
    requires Construct.MakeSomeOrNone(args).Ok?
    ensures Sig(Construct.MakeSomeOrNone(args).value, lit) == GetSignature("SomeOrNone", args, [], lit)
  {
    SigIsGetSignature(Construct.MakeSomeOrNone(args).value, lit);
  }

  /** `str(NotSome(*args))` is rendered under the subclass's own name. */
  lemma NotSomeSignatureMirrorsArgs(args: seq<Value>, lit: Value -> string)
    requires Construct.MakeNotSome(args).Ok?
    ensures Sig(Construct.MakeNotSome(args).value, lit) == GetSignature("NotSome", args, [], lit)
  {
    SigIsGetSignature(Construct.MakeNotSome(args).value, lit);
  }

  /** `str(SomeObject(*args, **kwargs))` shows the positional arguments,
      then the keyword arguments, as given; the `AllOf` it wraps does not
      appear. */
  lemma SomeObjectSignatureMirrorsArgs(args: seq<Value>, kwargs: seq<Entry>, lit: Value -> string)
    requires Construct.MakeSomeObject(args, kwargs).Ok?
    ensures Sig(Construct.MakeSomeObject(args, kwargs).value, lit) == GetSignature("SomeObject", args, kwargs, lit)
  {
    SigIsGetSignature(Construct.MakeSomeObject(args, kwargs).value, lit);
  }

  /** `str(SomeDict(base, **kwargs))` shows the merged dict as keyword
      arguments: the base's keys first, each overridden by a keyword of the
      same name, then the new keywords. */
  lemma SomeDictSignatureIsMerged(base: Value, kwargs: seq<Entry>, lit: Value -> string)
    requires Construct.MakeSomeDict(base, kwargs).Ok?
    ensures Sig(Construct.MakeSomeDict(base, kwargs).value, lit)
         == GetSignature("SomeDict", [], Construct.Update(if base.VDict? then base.entries else [], kwargs), lit)
  {
    SigIsGetSignature(Construct.MakeSomeDict(base, kwargs).value, lit);
  }

  lemma JoinCons(p: string, ps: seq<string>)
    requires ps != []
    ensures Join([p] + ps) == p + ", " + Join(ps)
  {
    assert ([p] + ps)[1..] == ps;
  }

  lemma RenderRulesCons(r: Rule, rs: seq<Rule>, lit: Value -> string)
    ensures RenderRules([r] + rs, lit) == [RenderRule(r, lit)] + RenderRules(rs, lit)
  {
    assert ([r] + rs)[1..] == rs;
  }

  lemma RenderArgsCons(v: Value, vs: seq<Value>, lit: Value -> string)
    ensures RenderArgs([v] + vs, lit) == [RenderArg(v, lit)] + RenderArgs(vs, lit)
  {
    assert ([v] + vs)[1..] == vs;
  }

  lemma RenderKwsCons(e: Entry, es: seq<Entry>, lit: Value -> string)
    ensures RenderKws([e] + es, lit) == [RenderKw(e, lit)] + RenderKws(es, lit)
  {
    assert ([e] + es)[1..] == es;
  }

  lemma SigSome(rs: seq<Rule>, lit: Value -> string)
    ensures Sig(Some(rs), lit) == Call("Some", RenderRules(rs, lit))
  {
  }

  lemma SigAllOf(args: seq<Value>, lit: Value -> string)
    ensures Sig(AllOf(args), lit) == Call("AllOf", RenderArgs(args, lit))
  {
  }

  lemma SigObject(rs: seq<Rule>, attrs: seq<Entry>, lit: Value -> string)
    ensures Sig(SomeObject(rs, attrs), lit) == Call("SomeObject", RenderRules(rs, lit) + RenderKws(attrs, lit))
  {
  }

  lemma SigDict(p: seq<Entry>, lit: Value -> string)
    ensures Sig(SomeDict(p), lit) == Call("SomeDict", RenderKws(p, lit))
  {
  }

  /** `Some(int)` and `Some(str)`. */
  lemma SimpleSignatures(lit: Value -> string)
    ensures Sig(Some([TypeRule(Int)]), lit) == "Some(int)"
    ensures Sig(Some([TypeRule(Str)]), lit) == "Some(str)"
  {
    SigSome([TypeRule(Int)], lit);
    SigSome([TypeRule(Str)], lit);
    RenderRulesCons(TypeRule(Int), [], lit);
    RenderRulesCons(TypeRule(Str), [], lit);
    assert "Some" + "(" + "int" + ")" == "Some(int)";
    assert "Some" + "(" + "str" + ")" == "Some(str)";
  }

  /** `Some(float, int)` */
  lemma TwoTypeSignature(lit: Value -> string)
    ensures Sig(Some([TypeRule(Float), TypeRule(Int)]), lit) == "Some(float, int)"
  {
    SigSome([TypeRule(Float), TypeRule(Int)], lit);
    RenderRulesCons(TypeRule(Int), [], lit);
    RenderRulesCons(TypeRule(Float), [TypeRule(Int)], lit);
    assert [TypeRule(Float)] + [TypeRule(Int)] == [TypeRule(Float), TypeRule(Int)];
    assert RenderRules([TypeRule(Float), TypeRule(Int)], lit) == ["float", "int"];
    JoinCons("float", ["int"]);
    assert "float" + ", " + "int" == "float, int";
    assert "Some" + "(" + "float, int" + ")" == "Some(float, int)";
  }

  /** A nested matcher renders as its own signature. */
  lemma NestedRenders(m: Matcher, lit: Value -> string)
    ensures RenderArg(VMatcher(m), lit) == Sig(m, lit)
    ensures RenderRule(NestedRule(m), lit) == Sig(m, lit)
  {
    assert PyStr(VMatcher(m), lit) == Sig(m, lit);
  }

  /** `SomeWithLen(length=12)`: only the bounds that were given appear. */
  lemma WithLenSignatureExample(lit: Value -> string)
    ensures Sig(SomeWithLen(Present(12), Absent, Absent), lit) == "SomeWithLen(length=12)"
  {
    assert Digits(12) == "12";
    assert "length" + "=" + "12" == "length=12";
    assert ["length=12"] + [] + [] == ["length=12"];
    assert "SomeWithLen" + "(" + "length=12" + ")" == "SomeWithLen(length=12)";
  }

  /** `SomeStr(regex=abc)`: only the options that were given appear. */
  lemma StrSignatureExample(lit: Value -> string)
    ensures Sig(SomeStr(Present("abc"), Absent, Absent, Absent), lit) == "SomeStr(regex=abc)"
  {
    assert "regex" + "=" + "abc" == "regex=abc";
    assert ["regex=abc"] + [] + [] + [] == ["regex=abc"];
    assert "SomeStr" + "(" + "regex=abc" + ")" == "SomeStr(regex=abc)";
  }

  /** `SomeObject(b=Some(int))` */
  lemma AttrSignature(lit: Value -> string)
    ensures Sig(SomeObject([], [Entry("b", VMatcher(Some([TypeRule(Int)])))]), lit) == "SomeObject(b=Some(int))"
  {
    SimpleSignatures(lit);
    var eb := Entry("b", VMatcher(Some([TypeRule(Int)])));
    NestedRenders(Some([TypeRule(Int)]), lit);
    assert "b" + "=" + "Some(int)" == "b=Some(int)";
    assert RenderKw(eb, lit) == "b=Some(int)";
    RenderKwsCons(eb, [], lit);
    assert [eb] + [] == [eb];
    SigObject([], [eb], lit);
    assert RenderRules([], lit) == [];
    assert [] + ["b=Some(int)"] == ["b=Some(int)"];
    assert "SomeObject" + "(" + "b=Some(int)" + ")" == "SomeObject(b=Some(int))";
  }

  /** `SomeDict({"a": 12, "b": int}, c=SomeOrNone())` merges the keyword
      argument into the dict. */
  lemma SomeDictMergeExample()
    ensures Construct.MakeSomeDict(VDict([Entry("a", VInt(12)), Entry("b", VType(Int))]),
                                   [Entry("c", VMatcher(SomeOrNone([])))])
         == Ok(SomeDict([Entry("a", VInt(12)), Entry("b", VType(Int)), Entry("c", VMatcher(SomeOrNone([])))]))
  {
    var ea := Entry("a", VInt(12));
    var eb := Entry("b", VType(Int));
    var ec := Entry("c", VMatcher(SomeOrNone([])));
    MergedPattern();
    assert !HasKey([ec], "self") && !HasKey([ec], "cls");
    assert !HasKey([ea, eb], "cls");
  }

  /** `dict({"a": 12, "b": int}, c=SomeOrNone())` appends `c` after `a`, `b`. */
  lemma MergedPattern()
    ensures Construct.Update([Entry("a", VInt(12)), Entry("b", VType(Int))], [Entry("c", VMatcher(SomeOrNone([])))])
         == [Entry("a", VInt(12)), Entry("b", VType(Int)), Entry("c", VMatcher(SomeOrNone([])))]
  {
    var ea := Entry("a", VInt(12));
    var eb := Entry("b", VType(Int));
    var ec := Entry("c", VMatcher(SomeOrNone([])));
    assert !HasKey([ea, eb], "c");
    Construct.PutNewAppends([ea, eb], ec);
    assert [ea, eb] + [ec] == [ea, eb, ec];
    assert Construct.Update([ea, eb], [ec]) == Construct.Update([ea, eb, ec], []);
  }

  /** `str(SomeDict({"a": 12, "b": int}, c=SomeOrNone()))` is
      "SomeDict(a=12, b=int, c=SomeOrNone())". */
  lemma SomeDictMergeSignature(lit: Value -> string)
    ensures Sig(SomeDict([Entry("a", VInt(12)), Entry("b", VType(Int)), Entry("c", VMatcher(SomeOrNone([])))]), lit)
         == "SomeDict(a=12, b=int, c=SomeOrNone())"
  {
    var p := [Entry("a", VInt(12)), Entry("b", VType(Int)), Entry("c", VMatcher(SomeOrNone([])))];
    SigDict(p, lit);
    MergedEntriesRender(lit);
    MergedCall();
  }

  lemma MergedCall()
    ensures Call("SomeDict", ["a=12", "b=int", "c=SomeOrNone()"]) == "SomeDict(a=12, b=int, c=SomeOrNone())"
  {
    MergedEntriesJoin();
    assert "SomeDict" + "(" + "a=12, b=int, c=SomeOrNone()" + ")" == "SomeDict(a=12, b=int, c=SomeOrNone())";
  }

  lemma MergedEntriesJoin()
    ensures Join(["a=12", "b=int", "c=SomeOrNone()"]) == "a=12, b=int, c=SomeOrNone()"
  {
    JoinCons("b=int", ["c=SomeOrNone()"]);
    assert ["b=int"] + ["c=SomeOrNone()"] == ["b=int", "c=SomeOrNone()"];
    assert "b=int" + ", " + "c=SomeOrNone()" == "b=int, c=SomeOrNone()";
    JoinCons("a=12", ["b=int", "c=SomeOrNone()"]);
    assert ["a=12"] + ["b=int", "c=SomeOrNone()"] == ["a=12", "b=int", "c=SomeOrNone()"];
    assert "a=12" + ", " + "b=int, c=SomeOrNone()" == "a=12, b=int, c=SomeOrNone()";
  }

  /** The entries of the merged `SomeDict` above, rendered as keyword arguments. */
  lemma MergedEntriesRender(lit: Value -> string)
    ensures RenderKws([Entry("a", VInt(12)), Entry("b", VType(Int)), Entry("c", VMatcher(SomeOrNone([])))], lit)
         == ["a=12", "b=int", "c=SomeOrNone()"]
  {
    var ea := Entry("a", VInt(12));
    var eb := Entry("b", VType(Int));
    var ec := Entry("c", VMatcher(SomeOrNone([])));
    assert Digits(12) == "12";
    assert RenderKw(ea, lit) == "a=12";
    assert RenderKw(eb, lit) == "b=int";
    NestedRenders(SomeOrNone([]), lit);
    assert Sig(SomeOrNone([]), lit) == "SomeOrNone()";
    assert RenderKw(ec, lit) == "c=SomeOrNone()";
    RenderKwsCons(ec, [], lit);
    RenderKwsCons(eb, [ec], lit);
    RenderKwsCons(ea, [eb, ec], lit);
    assert [ea] + [eb, ec] == [ea, eb, ec];
    assert [eb] + [ec] == [eb, ec];
  }

}

=== FILE: test_cases.dfy ===
/** Cases from the repository's unit tests and docstrings, evaluated in the
    model. */
module TestCases {
  import opened Results
  import opened Values
  import opened SameStates
  import opened Eval
  import Construct
  import Text
  import MatcherProps
  import SameProps

  /** `Some(int, str)`, `Some(int, "a")`, `Some(int, f)` with a
      two-parameter `f`, and `Some()`. */
  lemma ConstructionCases()
    ensures Construct.MakeSome([VType(Int), VType(Str)]) == Ok(Some([TypeRule(Int), TypeRule(Str)]))
    ensures Construct.MakeSome([VType(Int), VStr("a")]) == Err(InvalidArgument)
    ensures Construct.MakeSome([VType(Int), VFunc(Func("func", 2))]) == Err(InvalidFunction)
    ensures Construct.MakeSome([]) == Ok(Some([]))
    ensures Construct.MakeSomeIterable(VMatcher(Some([])), VNone, VInt(12)) == Err(InvalidArgument)
    ensures Construct.MakeSomeIn(VInt(42)) == Err(InvalidArgument)
    ensures Construct.MakeSomeStr(VInt(12), VNone, VNone, VNone) == Err(InvalidArgument)
  {
    var args := [VType(Int), VType(Str)];
    assert Construct.ArgToRule(args[0]) == Ok(TypeRule(Int));
    assert Construct.ArgToRule(args[1]) == Ok(TypeRule(Str));
    var rules := Construct.ValidateArgs(args).value;
    assert rules == [TypeRule(Int), TypeRule(Str)];
    assert !Construct.ArgToRule(VStr("a")).Ok?;
    assert !Construct.MakeSome([VType(Int), VStr("a")]).Ok?;
    assert Construct.ArgToRule(VFunc(Func("func", 2))) == Err(InvalidFunction);
  }

  /** `SomeDict({"cls": 1})`, `SomeDict(cls=1)`, `SomeObject(cls=Some(int))`
      and `SomeDict(self=1)` raise TypeError: `cls` is the first parameter
      of `get_signature`, `self` the first parameter of `__init__`. */
  lemma KeywordClashCases()
    ensures Construct.MakeSomeDict(VDict([Entry("cls", VInt(1))]), []) == Err(TypeError)
    ensures Construct.MakeSomeDict(VNone, [Entry("cls", VInt(1))]) == Err(TypeError)
    ensures Construct.MakeSomeObject([], [Entry("cls", VMatcher(Some([TypeRule(Int)])))]) == Err(TypeError)
    ensures Construct.MakeSomeDict(VNone, [Entry("self", VInt(1))]) == Err(TypeError)
  {
    var c1 := [Entry("cls", VInt(1))];
    var c2 := [Entry("cls", VMatcher(Some([TypeRule(Int)])))];
    var s1 := [Entry("self", VInt(1))];
    assert c1[0].key == "cls" && c2[0].key == "cls" && s1[0].key == "self";
    assert !HasKey(c1, "self") && !HasKey(c2, "self");
  }

  /** `Some(str, int) == 1` and `== "ab"`: the order of the rules does not
      change the verdict. */
  lemma SomeStrIntCases(env: Env, st: SameState)
    ensures MatcherProps.Holds(Match(env, 1, Some([TypeRule(Str), TypeRule(Int)]), VInt(1), st))
    ensures MatcherProps.Holds(Match(env, 1, Some([TypeRule(Int), TypeRule(Str)]), VStr("ab"), st))
  {
    MatcherProps.FirstRuleAcceptsIffSomeAccepts(env, 1, [TypeRule(Str), TypeRule(Int)], 0, VInt(1), st);
    assert MatcherProps.FirstAcceptAt(env, 1, [TypeRule(Str), TypeRule(Int)], 0, 1, VInt(1), st);
    MatcherProps.FirstRuleAcceptsIffSomeAccepts(env, 1, [TypeRule(Int), TypeRule(Str)], 0, VStr("ab"), st);
    assert MatcherProps.FirstAcceptAt(env, 1, [TypeRule(Int), TypeRule(Str)], 0, 1, VStr("ab"), st);
  }

  /** A predicate returning `"False"` raises `MustReturnBool`. */
  lemma PredicateReturningStrRaises(env: Env, f: Func, st: SameState)
    requires env.call(f, VStr("")) == VStr("False")
    ensures Match(env, 1, Some([PredRule(f)]), VStr(""), st) == Err(MustReturnBool)
  {
    MatcherProps.PredicateMustReturnBool(env, 1, [PredRule(f)], 0, VStr(""), st);
  }

  /** `(Some(f),) == (1, 2)` with `f(1) == "x"`: tuples compare their
      common prefix before their lengths, so the predicate runs and its
      non-bool answer raises although the lengths differ. */
  lemma TuplePrefixRunsPredicate(env: Env, f: Func, st: SameState)
    requires env.call(f, VInt(1)) == VStr("x")
    ensures Eq(env, 3, VTuple([VMatcher(Some([PredRule(f)]))]), VTuple([VInt(1), VInt(2)]), st) == Err(MustReturnBool)
  {
    MatcherProps.PredicateMustReturnBool(env, 2, [PredRule(f)], 0, VInt(1), st);
    assert Eq(env, 2, VMatcher(Some([PredRule(f)])), VInt(1), st) == Err(MustReturnBool);
  }

  /** `(Some(int),) == ("a", 2)` is False and appends the one message of the
      miss inside the prefix. */
  lemma TuplePrefixLogsMiss(env: Env, st: SameState)
    ensures Eq(env, 3, VTuple([VMatcher(Some([TypeRule(Int)]))]), VTuple([VStr("a"), VInt(2)]), st)
         == Ok(Step(false, st, 1))
  {
    MatcherProps.SomeEqOfOneClass(env, 2, Int, VStr("a"), st);
    assert Eq(env, 2, VMatcher(Some([TypeRule(Int)])), VStr("a"), st) == Ok(Step(false, st, 1));
  }

  /** In an open window, `(Same(int),) == (1, 2)` is False, yet binds 1. */
  lemma TuplePrefixBindsSame(env: Env)
    ensures Eq(env, 4, VTuple([VSame(Same([TypeRule(Int)], DefaultName))]), VTuple([VInt(1), VInt(2)]), Window)
         == Ok(Step(false, Window.(state := Window.state["Same" := map[DefaultName := VInt(1)]]), 0))
  {
    var s := Same([TypeRule(Int)], DefaultName);
    var bound := Window.(state := Window.state["Same" := map[DefaultName := VInt(1)]]);
    SameProps.FirstOneBinds(env, s);
    assert Eq(env, 3, VSame(s), VInt(1), Window) == Ok(Step(true, bound, 0));
    assert SeqEq(env, 4, [VSame(s)], [VInt(1)], 1, bound) == Ok(Step(true, bound, 0));
  }

  /** `SomeIn("abcdefg")` accepts `"ab"` and `"b"` but not `"ac"`;
      `SomeIn([1, 2, 3])` accepts `1`. */
  lemma SomeInCases(env: Env, st: SameState)
    ensures MatcherProps.Holds(Match(env, 1, SomeIn(VStr("abcdefg")), VStr("ab"), st))
    ensures MatcherProps.Holds(Match(env, 1, SomeIn(VStr("abcdefg")), VStr("b"), st))
    ensures MatcherProps.Fails(Match(env, 1, SomeIn(VStr("abcdefg")), VStr("ac"), st))
    ensures Match(env, 1, SomeIn(VStr("abcdefg")), VInt(1), st) == Err(TypeError)
    ensures MatcherProps.Holds(Match(env, 2, SomeIn(VList([VInt(1), VInt(2), VInt(3)])), VInt(1), st))
  {
    var s := "abcdefg";
    assert Text.OccursAt("ab", s, 0);
    assert Text.OccursAt("b", s, 1);
    forall i | 0 <= i <= |s| ensures !Text.OccursAt("ac", s, i) {
      if 0 <= i <= |s| - 2 {
        assert s[i..i + 2][0] == s[i] && s[i..i + 2][1] == s[i + 1];
      }
    }
    assert Eq(env, 1, VInt(1), VInt(1), st) == Ok(Step(true, st, 0));
  }

  /** `SomeIn({"a", "b"})` accepts `"a"` and rejects `"c"`; an unhashable
      candidate raises TypeError. */
  lemma SomeInSetCases(env: Env, st: SameState)
    ensures MatcherProps.Holds(Match(env, 2, SomeIn(VSet([VStr("a"), VStr("b")])), VStr("a"), st))
    ensures MatcherProps.Fails(Match(env, 2, SomeIn(VSet([VStr("a"), VStr("b")])), VStr("c"), st))
    ensures Match(env, 2, SomeIn(VSet([VStr("a"), VStr("b")])), VList([]), st) == Err(TypeError)
  {
    assert Eq(env, 1, VStr("a"), VStr("a"), st) == Ok(Step(true, st, 0));
    assert Eq(env, 1, VStr("c"), VStr("a"), st) == Ok(Step(false, st, 0));
    assert Eq(env, 1, VStr("c"), VStr("b"), st) == Ok(Step(false, st, 0));
  }

  /** `SomeStr(pattern="py_om_")` accepts `"pysome"` and `"pyxomx"` but not
      `"pxsome"`, `"pysome "` or `" pysome"`. */
  lemma PatternCases(env: Env)
    ensures var pat := Present("py_om_");
            && StrAccepts(env, Absent, pat, Absent, Absent, VStr("pysome"))
            && StrAccepts(env, Absent, pat, Absent, Absent, VStr("pyxomx"))
            && !StrAccepts(env, Absent, pat, Absent, Absent, VStr("pxsome"))
            && !StrAccepts(env, Absent, pat, Absent, Absent, VStr("pysome "))
            && !StrAccepts(env, Absent, pat, Absent, Absent, VStr(" pysome"))
  {
    var p := "py_om_";
    assert Text.IsTemplate(p) by {
      forall i | 0 <= i < |p| ensures p[i] == '.' || !Text.IsMeta(p[i]) {
        assert p[i] in "py_om";
      }
    }
    assert !Text.CharFits(p[1], "pxsome"[1]);
    assert !Text.CharFits(p[0], " pysome"[0]);
  }

  /** `SomeStr(endswith="some")` and `SomeStr(startswith="py")`. */
  lemma AffixCases(env: Env)
    ensures StrAccepts(env, Absent, Absent, Present("some"), Absent, VStr("handsome"))
    ensures !StrAccepts(env, Absent, Absent, Present("some"), Absent, VStr("handsome "))
    ensures StrAccepts(env, Absent, Absent, Absent, Present("py"), VStr("python"))
    ensures !StrAccepts(env, Absent, Absent, Absent, Present("py"), VStr(" python"))
    ensures !StrAccepts(env, Absent, Absent, Absent, Absent, VInt(42))
  {
    assert "handsome"[4..] == "some";
    assert "handsome "[5..][3] != "some"[3];
    assert "python"[..2] == "py";
    assert " python"[..2][0] != "py"[0];
  }

  /** `SomeWithLen(2) == [1, 2]`, `SomeWithLen(2) != (1,)`,
      `SomeWithLen(0) == []`, and, because 0 is no bound,
      `SomeWithLen(0) == [1]`. */
  lemma WithLenCases()
    ensures WithLenAccepts(Present(2), Absent, Absent, VList([VInt(1), VInt(2)])) == Ok(true)
    ensures WithLenAccepts(Present(2), Absent, Absent, VTuple([VInt(1)])) == Ok(false)
    ensures WithLenAccepts(Present(0), Absent, Absent, VList([])) == Ok(true)
    ensures WithLenAccepts(Present(0), Absent, Absent, VList([VInt(1)])) == Ok(true)
    ensures WithLenAccepts(Present(2), Absent, Absent, VInt(12)) == Ok(false)
  {
  }

  /** The pattern dict `{"id": Some(int), "name": Some(str)}`. */
  const UserPattern: Value :=
    VDict([Entry("id", VMatcher(Some([TypeRule(Int)]))), Entry("name", VMatcher(Some([TypeRule(Str)])))])

  function User(id: Value, name: string): Value {
    VDict([Entry("id", id), Entry("name", VStr(name))])
  }

  /** `{"id": Some(int), "name": Some(str)} == {"id": id, "name": name}`:
      the pattern's values are compared on the left. */
  lemma UserPatternCompares(env: Env, fuel: nat, id: Value, name: string, st: SameState)
    requires fuel >= 2
    ensures Eq(env, fuel, UserPattern, User(id, name), st) ==
            Ok(Step(IsInstance(id, Int), st, if IsInstance(id, Int) then 0 else 1))
  {
    var es := UserPattern.entries;
    var fs := User(id, name).entries;
    assert fs[0].key == "id";
    assert HasKey(fs, "id") && Get(fs, "id") == id;
    MatcherProps.SomeOfOneClass(env, fuel - 1, Int, id, st);
    UserNameEntry(env, fuel, id, name, st);
    DictEntryDecides(env, fuel, es, fs, 0, st, IsInstance(id, Int), if IsInstance(id, Int) then 0 else 1);
    DictsCompareEntrywise(env, fuel, es, fs, st);
  }

  /** The second entry of the pattern, `"name": Some(str)`, accepts any
      string name and leaves no message. */
  lemma UserNameEntry(env: Env, fuel: nat, id: Value, name: string, st: SameState)
    requires fuel >= 2
    ensures DictEq(env, fuel, UserPattern.entries, User(id, name).entries, 1, st) == Ok(Step(true, st, 0))
  {
    var es := UserPattern.entries;
    var fs := User(id, name).entries;
    assert fs[0].key == "id" && fs[1].key == "name";
    assert fs[1..] == [Entry("name", VStr(name))];
    assert HasKey(fs, "name") && Get(fs, "name") == VStr(name);
    MatcherProps.SomeOfOneClass(env, fuel - 1, Str, VStr(name), st);
    assert DictEq(env, fuel, es, fs, 2, st) == Ok(Step(true, st, 0));
    DictEntryDecides(env, fuel, es, fs, 1, st, true, 0);
  }

  /** Two dicts of the same size compare entry by entry. */
  lemma DictsCompareEntrywise(env: Env, fuel: nat, es: seq<Entry>, fs: seq<Entry>, st: SameState)
    requires fuel > 0 && |es| == |fs|
    ensures Eq(env, fuel, VDict(es), VDict(fs), st) == DictEq(env, fuel, es, fs, 0, st)
  {
    assert Eq(env, fuel, VDict(es), VDict(fs), st) == Builtin(env, fuel, VDict(es), VDict(fs), st);
  }

  /** When the entries after `i` all compare equal without a message, the
      verdict of entry `i` is the verdict of the dict comparison. */
  lemma DictEntryDecides(env: Env, fuel: nat, es: seq<Entry>, fs: seq<Entry>, i: nat, st: SameState, e: bool, u: nat)
    requires fuel > 0 && i < |es| && HasKey(fs, es[i].key)
    requires Eq(env, fuel - 1, es[i].val, Get(fs, es[i].key), st) == Ok(Step(e, st, u))
    requires DictEq(env, fuel, es, fs, i + 1, st) == Ok(Step(true, st, 0))
    ensures DictEq(env, fuel, es, fs, i, st) == Ok(Step(e, st, u))
  {
  }

  const Users: Matcher := SomeIterable(UserPattern, VNone, Iterable)

  /** `SomeIterable(arg) == [x0, x1]` when `arg == x0` holds: the verdict
      on `x1` decides. */
  lemma IterablePairCase(env: Env, fuel: nat, arg: Value, x0: Value, x1: Value, e1: bool, u1: nat, st: SameState)
    requires fuel > 0
    requires Eq(env, fuel - 1, arg, x0, st) == Ok(Step(true, st, 0))
    requires Eq(env, fuel - 1, arg, x1, st) == Ok(Step(e1, st, u1))
    ensures Match(env, fuel, SomeIterable(arg, VNone, Iterable), VList([x0, x1]), st) == Ok(Conclude(Step(e1, st, u1)))
  {
    var xs := [x0, x1];
    assert Items(VList(xs)) == Ok(xs);
    AllEqLastItem(env, fuel, arg, xs, st, e1, u1);
    AllEqSkipsAccepted(env, fuel, arg, xs, 0, st, Step(e1, st, u1));
    assert IterValidate(env, fuel, arg, VNone, Iterable, VList(xs), st) == Ok(Step(e1, st, u1));
    MatcherProps.MatchIterable(env, fuel, arg, VNone, Iterable, VList(xs), st);
  }

  /** The verdict on the last item is the verdict of its suffix. */
  lemma AllEqLastItem(env: Env, fuel: nat, arg: Value, xs: seq<Value>, st: SameState, e: bool, u: nat)
    requires fuel > 0 && |xs| > 0
    requires Eq(env, fuel - 1, arg, xs[|xs| - 1], st) == Ok(Step(e, st, u))
    ensures AllEq(env, fuel, arg, xs, |xs| - 1, st) == Ok(Step(e, st, u))
  {
    assert AllEq(env, fuel, arg, xs, |xs|, st) == Ok(Step(true, st, 0));
  }

  /** An item that compares equal without a message leaves the verdict to
      the items after it. */
  lemma AllEqSkipsAccepted(env: Env, fuel: nat, arg: Value, xs: seq<Value>, i: nat, st: SameState, r: Step)
    requires fuel > 0 && i < |xs|
    requires Eq(env, fuel - 1, arg, xs[i], st) == Ok(Step(true, st, 0))
    requires AllEq(env, fuel, arg, xs, i + 1, st) == Ok(r)
    ensures AllEq(env, fuel, arg, xs, i, st) == Ok(r)
  {
  }

  /** `SomeIterable(pattern) == [anna, bert]` with int ids. */
  lemma GoodUsersMatch(env: Env, st: SameState)
    ensures Match(env, 3, Users, VList([User(VInt(1), "anna"), User(VInt(2), "bert")]), st) == Ok(Step(true, st, 0))
  {
    UserPatternCompares(env, 2, VInt(1), "anna", st);
    UserPatternCompares(env, 2, VInt(2), "bert", st);
    assert IsInstance(VInt(1), Int) && IsInstance(VInt(2), Int);
    IterablePairCase(env, 3, UserPattern, User(VInt(1), "anna"), User(VInt(2), "bert"), true, 0, st);
  }

  /** `SomeIterable(pattern) == [anna, claus]` where claus's id is `"3"`. */
  lemma BadUsersFail(env: Env, st: SameState)
    ensures Match(env, 3, Users, VList([User(VInt(1), "anna"), User(VStr("3"), "claus")]), st) == Ok(Step(false, st, 2))
  {
    UserPatternCompares(env, 2, VInt(1), "anna", st);
    UserPatternCompares(env, 2, VStr("3"), "claus", st);
    assert IsInstance(VInt(1), Int) && !IsInstance(VStr("3"), Int);
    IterablePairCase(env, 3, UserPattern, User(VInt(1), "anna"), User(VStr("3"), "claus"), false, 1, st);
  }

  /** `{"users": xs} == {"users": SomeIterable(pattern)}` is the matcher's
      verdict on `xs`, reached through the dict's value comparison. */
  lemma UsersDictDefersToMatcher(env: Env, xs: seq<Value>, st: SameState)
    requires Match(env, 3, Users, VList(xs), st).Ok?
    ensures Eq(env, 4, VDict([Entry("users", VList(xs))]), VDict([Entry("users", VMatcher(Users))]), st) ==
            Match(env, 3, Users, VList(xs), st)
  {
    var pattern := [Entry("users", VMatcher(Users))];
    assert pattern[0].key == "users";
    assert HasKey(pattern, "users") && Get(pattern, "users") == VMatcher(Users);
    assert Eq(env, 3, VList(xs), VMatcher(Users), st) == Match(env, 3, Users, VList(xs), st);
  }

  /** The nested test of `SomeIterable`: a dict holding a list of users
      equals `{"users": SomeIterable(pattern)}` when every id is an int,
      and not when one id is the string `"3"`. */
  lemma NestedIterableCase(env: Env, st: SameState)
    ensures var pattern := VDict([Entry("users", VMatcher(Users))]);
            && MatcherProps.Holds(Eq(env, 4, VDict([Entry("users", VList([User(VInt(1), "anna"), User(VInt(2), "bert")]))]), pattern, st))
            && MatcherProps.Fails(Eq(env, 4, VDict([Entry("users", VList([User(VInt(1), "anna"), User(VStr("3"), "claus")]))]), pattern, st))
  {
    GoodUsersMatch(env, st);
    BadUsersFail(env, st);
    UsersDictDefersToMatcher(env, [User(VInt(1), "anna"), User(VInt(2), "bert")], st);
    UsersDictDefersToMatcher(env, [User(VInt(1), "anna"), User(VStr("3"), "claus")], st);
  }

  /** `SomeDict({"a": Some(dict)})` accepts `{"a": {...}, "b": 3}`, and
      `SomeDict(a=SomeOrNone(int))` accepts `{}`. */
  lemma SomeDictCases(env: Env, st: SameState)
    ensures MatcherProps.Holds(Match(env, 2, SomeDict([Entry("a", VMatcher(Some([TypeRule(Dict)])))]),
                                     VDict([Entry("a", VDict([Entry("a1", VInt(1))])), Entry("b", VInt(3))]), st))
    ensures MatcherProps.Holds(Match(env, 2, SomeDict([Entry("a", VMatcher(SomeOrNone([TypeRule(Int)])))]), VDict([]), st))
  {
    var cand := [Entry("a", VDict([Entry("a1", VInt(1))])), Entry("b", VInt(3))];
    assert Get(cand, "a") == VDict([Entry("a1", VInt(1))]);
    MatcherProps.SomeOfOneClass(env, 1, Dict, VDict([Entry("a1", VInt(1))]), st);
    assert Eq(env, 1, VDict([Entry("a1", VInt(1))]), VMatcher(Some([TypeRule(Dict)])), st)
        == Ok(Step(true, st, 0));
    assert Get([], "a") == VNone;
    var rs := [TypeRule(Int)];
    assert FirstRule(env, 1, rs, 1, VNone, st) == Ok(Step(false, st, 0));
    assert FirstRule(env, 1, rs, 0, VNone, st) == Ok(Step(false, st, 0));
    assert Eq(env, 1, VNone, VMatcher(SomeOrNone(rs)), st) == Ok(Step(true, st, 0));
  }

  /** `SomeObject(x=Some(int))` accepts an object whose `x` is 12;
      `SomeObject(x=Some(str))` rejects it and rejects `1`. */
  lemma SomeObjectCases(env: Env, st: SameState)
    ensures var foo := VObject(7, "Foo", [Entry("x", VInt(12))]);
            && MatcherProps.Holds(Match(env, 2, SomeObject([], [Entry("x", VMatcher(Some([TypeRule(Int)])))]), foo, st))
            && MatcherProps.Fails(Match(env, 2, SomeObject([], [Entry("x", VMatcher(Some([TypeRule(Str)])))]), foo, st))
            && MatcherProps.Fails(Match(env, 2, SomeObject([], [Entry("x", VMatcher(Some([TypeRule(Str)])))]), VInt(1), st))
  {
    var foo := VObject(7, "Foo", [Entry("x", VInt(12))]);
    assert foo.attrs[0].key == "x";
    assert GetAttr(foo, "x") == Present(VInt(12));
    assert GetAttr(VInt(1), "x") == Absent;
    MatcherProps.SomeOfOneClass(env, 1, Int, VInt(12), st);
    MatcherProps.SomeOfOneClass(env, 1, Str, VInt(12), st);
  }
}

=== FILE: text.dfy ===
/** String tests used by `SomeStr` and `SomeIn`, and the fragment of Python's
    `re.match` the model makes concrete: literal expressions and `pattern`
    templates whose only special characters are the wildcards. Every other
    regular expression is decided by an oracle supplied by the caller. */
module Text {

  predicate IsPrefix(p: string, s: string) {
    |p| <= |s| && s[..|p|] == p
  }

  /** `s.endswith(p)` */
  predicate IsSuffix(p: string, s: string) {
    |p| <= |s| && s[|s| - |p|..] == p
  }

  /** `sub` occurs in `s` at position `i`. */
  predicate OccursAt(sub: string, s: string, i: int) {
    0 <= i <= |s| - |sub| && s[i..i + |sub|] == sub
  }

  /** `sub in s` for strings */
  predicate IsSubstring(sub: string, s: string) {
    exists i :: 0 <= i <= |s| && OccursAt(sub, s, i)
  }

  /** The characters that have a special meaning in a Python regular expression. */
  predicate IsMeta(c: char) {
    c in ".^$*+?{}[]\\|()"
  }

  /** An expression without special characters: `re.match` then looks for it
      literally at the start of the string. */
  predicate IsLiteral(regex: string) {
    forall i :: 0 <= i < |regex| ==> !IsMeta(regex[i])
  }

  /** `re.match(regex, s)` succeeds: anchored at the start only. */
  predicate ReMatch(oracle: (string, string) -> bool, regex: string, s: string) {
    if IsLiteral(regex) then IsPrefix(regex, s) else oracle(regex, s)
  }

  /** `pattern.replace("_", ".")` */
  function Dotted(p: string): (r: string)
    ensures |r| == |p|
    ensures forall i :: 0 <= i < |p| ==> r[i] == if p[i] == '_' then '.' else p[i]
    ensures forall i :: 0 <= i < |r| ==> r[i] != '_'
    ensures IsTemplate(p) ==> IsTemplate(r)
  {
    seq(|p|, i requires 0 <= i < |p| => if p[i] == '_' then '.' else p[i])
  }

  /** A template whose only special characters are wildcards (`_`, or a `.`
      written directly). */
  predicate IsTemplate(p: string) {
    forall i :: 0 <= i < |p| ==> p[i] == '.' || !IsMeta(p[i])
  }

  /** One template position: a wildcard matches any character but a newline. */
  predicate CharFits(t: char, c: char) {
    if t == '_' || t == '.' then c != '\n' else c == t
  }

  /** `re.match(dotted + "$", s)` for a template: the template must cover the
      string from its first character, and `$` matches at the end or in front
      of one final newline. */
  predicate TemplateMatch(p: string, s: string) {
    && (|s| == |p| || (|s| == |p| + 1 && s[|p|] == '\n'))
    && forall i :: 0 <= i < |p| ==> CharFits(p[i], s[i])
  }

  /** The `pattern` test of `SomeStr`. */
  predicate PatternMatch(oracle: (string, string) -> bool, p: string, s: string) {
    if IsTemplate(p) then TemplateMatch(p, s) else oracle(Dotted(p) + "$", s)
  }

  /** Replacing `_` by `.` changes nothing a template accepts, and a second
      replacement changes nothing at all: testing the template itself is
      testing the dotted expression `re.match` receives. */
  lemma DottedKeepsTemplateMeaning(p: string, s: string)
    requires IsTemplate(p)
    ensures IsTemplate(Dotted(p))
    ensures TemplateMatch(Dotted(p), s) <==> TemplateMatch(p, s)
    ensures Dotted(Dotted(p)) == Dotted(p)
  {
    var d := Dotted(p);
    forall i | 0 <= i < |p|
      ensures forall c :: CharFits(d[i], c) == CharFits(p[i], c)
    {
    }
  }

  /** A literal regex accepts every string that starts with it, whatever
      follows: the match is not anchored at the end. */
  lemma LiteralRegexIsPrefixTest(oracle: (string, string) -> bool, regex: string, s: string)
    requires IsLiteral(regex)
    ensures ReMatch(oracle, regex, s) <==> exists rest :: s == regex + rest
  {
    if IsPrefix(regex, s) {
      assert s == regex + s[|regex|..];
    }
  }

  /** Without wildcards a template accepts exactly itself, optionally
      followed by one newline. */
  lemma PlainTemplateAcceptsItself(p: string, s: string)
    requires forall i :: 0 <= i < |p| ==> p[i] != '_' && p[i] != '.'
    ensures TemplateMatch(p, s) <==> s == p || s == p + "\n"
  {
    if TemplateMatch(p, s) {
      assert s[..|p|] == p;
      if |s| == |p| + 1 {
        assert s == s[..|p|] + [s[|p|]];
      }
    }
  }

  /** Every string contains the empty string and itself. */
  lemma SubstringBasics(s: string)
    ensures IsSubstring([], s) && IsSubstring(s, s)
  {
    assert OccursAt([], s, 0);
    assert OccursAt(s, s, 0);
  }
}

=== FILE: values.dfy ===
/** The data the matcher engine works on: Python values, matchers and the
    correlation matcher `Same`, together with the small pieces of Python's
    object model the matchers consult (isinstance, len, iteration, attributes). */
module Values {
  import opened Results

  /** A fixed lattice of classes standing in for Python's open-ended
      `isinstance`: bool is a subclass of int, every class derives from
      object, and str/list/tuple/dict/set are registered as Iterable.
      `Class(name)` is a user-defined class deriving directly from object. */
  datatype PyType =
    | NoneType | Bool | Int | Float | Str | List | Tuple | Dict | Set
    | Object | Iterable
    | Class(name: string)

  /** A user predicate: its `__name__` and the number of parameters its
      signature declares. What it returns is supplied by the evaluator's
      environment. */
  datatype Func = Func(name: string, params: nat)

  /** One key/value pair of a dict, of keyword arguments or of an object's
      attributes; keys are strings. */
  datatype Entry = Entry(key: string, val: Value)

  /** A Python value. Matchers and `Same` objects are values too, because
      literal patterns that contain them are compared by ordinary equality,
      which falls through to the matcher's `__eq__`. */
  datatype Value =
    | VNone
    | VBool(b: bool)
    | VInt(i: int)
    | VStr(s: string)
    | VList(items: seq<Value>)
    | VTuple(items: seq<Value>)
    | VDict(entries: seq<Entry>)
    | VSet(items: seq<Value>)
    | VObject(oid: nat, cls: string, attrs: seq<Entry>)
    | VType(t: PyType)
    | VFunc(f: Func)
    | VMatcher(m: Matcher)
    | VSame(same: Same)

  /** One alternative of a `Some`: a class, a nested matcher or a
      one-parameter predicate. */
  datatype Rule = TypeRule(t: PyType) | NestedRule(m: Matcher) | PredRule(f: Func)

  /** One constructor per matcher class, holding what its `__init__` keeps.
      For `Some`, `SomeOrNone` and `NotSome` an empty rule list is the
      `types is None` wildcard. `AllOf` keeps its raw arguments because it
      only validates them when it is evaluated. */
  datatype Matcher =
    | Some(rules: seq<Rule>)
    | AllOf(args: seq<Value>)
    | SomeOrNone(rules: seq<Rule>)
    | SomeIterable(arg: Value, length: Value, isType: PyType)
    | SomeList(arg: Value, length: Value)
    | SomeDict(partial: seq<Entry>)
    | SomeIn(container: Value)
    | SomeWithLen(exactLength: Option<int>, minLength: Option<int>, maxLength: Option<int>)
    | NotSome(rules: seq<Rule>)
    | SomeStr(regex: Option<string>, pattern: Option<string>, endswith: Option<string>, startswith: Option<string>)
    | SomeEmail
    | SomeUuid
    | SomeObject(rules: seq<Rule>, attrs: seq<Entry>)

  /** A correlation matcher: the wrapped `Some` rules and the binding name. */
  datatype Same = Same(rules: seq<Rule>, name: Value)

  /** The class `default_name`, the name every unnamed `Same` receives. */
  const DefaultName: Value := VType(Class("default_name"))

  /** `cls.__name__` */
  function TypeName(t: PyType): string {
    match t
    case NoneType => "NoneType"
    case Bool => "bool"
    case Int => "int"
    case Float => "float"
    case Str => "str"
    case List => "list"
    case Tuple => "tuple"
    case Dict => "dict"
    case Set => "set"
    case Object => "object"
    case Iterable => "Iterable"
    case Class(n) => n
  }

  /** `isinstance(v, t)` over the fixed lattice. */
  predicate IsInstance(v: Value, t: PyType) {
    match t
    case Object => true
    case NoneType => v.VNone?
    case Bool => v.VBool?
    case Int => v.VBool? || v.VInt?
    case Float => false
    case Str => v.VStr?
    case List => v.VList?
    case Tuple => v.VTuple?
    case Dict => v.VDict?
    case Set => v.VSet?
    case Iterable => v.VStr? || v.VList? || v.VTuple? || v.VDict? || v.VSet?
    case Class(n) => v.VObject? && v.cls == n
  }

  /** The built-in container classes; as class objects they carry
      `__len__` and `__contains__` attributes. */
  predicate IsContainerType(t: PyType) {
    t.Str? || t.List? || t.Tuple? || t.Dict? || t.Set?
  }

  /** `hasattr(v, '__len__')`, which is also `hasattr(v, '__contains__')`
      for every value of the model. */
  predicate HasLenAttr(v: Value) {
    v.VStr? || v.VList? || v.VTuple? || v.VDict? || v.VSet?
    || (v.VType? && IsContainerType(v.t))
  }

  /** `len(v)` */
  function Len(v: Value): (r: Result<nat>)
    ensures r.Ok? <==> v.VStr? || v.VList? || v.VTuple? || v.VDict? || v.VSet?
  {
    match v
    case VStr(s) => Ok(|s|)
    case VList(xs) => Ok(|xs|)
    case VTuple(xs) => Ok(|xs|)
    case VSet(xs) => Ok(|xs|)
    case VDict(es) => Ok(|es|)
    case _ => Err(TypeError)
  }

  /** The keys of a dict, as string values, in insertion order. */
  function KeyValues(es: seq<Entry>): (r: seq<Value>)
    ensures |r| == |es|
    ensures forall i :: 0 <= i < |es| ==> r[i] == VStr(es[i].key)
  {
    seq(|es|, i requires 0 <= i < |es| => VStr(es[i].key))
  }

  /** The values `for x in v` visits: characters of a string, elements of a
      sequence or set, keys of a dict. */
  function Items(v: Value): (r: Result<seq<Value>>)
    ensures r.Ok? <==> Len(v).Ok?
    ensures r.Ok? ==> |r.value| == Len(v).value
    ensures r.Ok? && SameFree(v) ==> SameFreeSeq(r.value)
    ensures r.Ok? && Plain(v) ==> forall i :: 0 <= i < |r.value| ==> Plain(r.value[i])
    ensures v.VStr? ==> forall i :: 0 <= i < |v.s| ==> r.value[i] == VStr([v.s[i]])
    ensures v.VList? || v.VTuple? || v.VSet? ==> r == Ok(v.items)
    ensures v.VDict? ==> r == Ok(KeyValues(v.entries))
  {
    match v
    case VStr(s) => Ok(seq(|s|, i requires 0 <= i < |s| => VStr([s[i]])))
    case VList(xs) => Ok(xs)
    case VTuple(xs) => Ok(xs)
    case VSet(xs) => Ok(xs)
    case VDict(es) => Ok(KeyValues(es))
    case _ => Err(TypeError)
  }

  predicate HasKey(es: seq<Entry>, k: string) {
    exists i :: 0 <= i < |es| && es[i].key == k
  }

  /** `d.get(k, None)` */
  function Get(es: seq<Entry>, k: string): (r: Value)
    ensures !HasKey(es, k) ==> r == VNone
    ensures HasKey(es, k) ==> exists i :: 0 <= i < |es| && es[i].key == k && es[i].val == r
  {
    if es == [] then VNone
    else if es[0].key == k then es[0].val
    else Get(es[1..], k)
  }

  /** Looking up a dict whose values are free of correlation matchers
      yields such a value. */
  lemma GetSameFree(es: seq<Entry>, k: string)
    requires SameFreeEntries(es)
    ensures SameFree(Get(es, k))
  {
  }

  /** No key occurs twice, as in every Python dict. */
  predicate DistinctKeys(es: seq<Entry>) {
    forall i, j :: 0 <= i < j < |es| ==> es[i].key != es[j].key
  }

  /** `getattr(v, k)` when `hasattr(v, k)`; only user objects carry
      attributes in this model. */
  function GetAttr(v: Value, k: string): (r: Option<Value>)
    ensures r.Present? <==> v.VObject? && HasKey(v.attrs, k)
    ensures r.Present? ==> r.value == Get(v.attrs, k)
  {
    if v.VObject? && HasKey(v.attrs, k) then Present(Get(v.attrs, k)) else Absent
  }

  /** `hash(v)` succeeds: lists, dicts, sets and the matcher classes (which
      define `__eq__` without `__hash__`) are unhashable. */
  predicate Hashable(v: Value) {
    match v
    case VList(_) => false
    case VDict(_) => false
    case VSet(_) => false
    case VMatcher(_) => false
    case VSame(_) => false
    case VTuple(xs) => forall i :: 0 <= i < |xs| ==> Hashable(xs[i])
    case _ => true
  }

  /** No correlation matcher occurs anywhere inside the value. Comparing
      such values never reads or writes correlation state. */
  predicate SameFree(v: Value) {
    match v
    case VList(xs) => SameFreeSeq(xs)
    case VTuple(xs) => SameFreeSeq(xs)
    case VSet(xs) => SameFreeSeq(xs)
    case VDict(es) => SameFreeEntries(es)
    case VObject(_, _, ats) => SameFreeEntries(ats)
    case VMatcher(m) => SameFreeMatcher(m)
    case VSame(_) => false
    case _ => true
  }

  /** No element of `xs` holds a correlation matcher. */
  predicate SameFreeSeq(xs: seq<Value>) {
    forall i :: 0 <= i < |xs| ==> SameFree(xs[i])
  }

  /** No value of `es` holds a correlation matcher. */
  predicate SameFreeEntries(es: seq<Entry>) {
    forall i :: 0 <= i < |es| ==> SameFree(es[i].val)
  }

  predicate SameFreeRule(r: Rule) {
    r.NestedRule? ==> SameFreeMatcher(r.m)
  }

  predicate SameFreeRules(rs: seq<Rule>) {
    forall i :: 0 <= i < |rs| ==> SameFreeRule(rs[i])
  }

  predicate SameFreeMatcher(m: Matcher) {
    match m
    case Some(rs) => SameFreeRules(rs)
    case SomeOrNone(rs) => SameFreeRules(rs)
    case NotSome(rs) => SameFreeRules(rs)
    case AllOf(args) => SameFreeSeq(args)
    case SomeIterable(arg, length, _) => SameFree(arg) && SameFree(length)
    case SomeList(arg, length) => SameFree(arg) && SameFree(length)
    case SomeDict(p) => SameFreeEntries(p)
    case SomeIn(c) => SameFree(c)
    case SomeObject(rs, ats) =>
      SameFreeRules(rs) && SameFreeEntries(ats)
    case _ => true
  }

  /** A plain value holds no matcher and no correlation matcher: its
      equality is Python's built-in structural equality. */
  predicate Plain(v: Value) {
    match v
    case VList(xs) => forall i :: 0 <= i < |xs| ==> Plain(xs[i])
    case VTuple(xs) => forall i :: 0 <= i < |xs| ==> Plain(xs[i])
    case VSet(xs) => forall i :: 0 <= i < |xs| ==> Plain(xs[i])
    case VDict(es) => forall i :: 0 <= i < |es| ==> Plain(es[i].val)
    case VObject(_, _, ats) => forall i :: 0 <= i < |ats| ==> Plain(ats[i].val)
    case VMatcher(_) => false
    case VSame(_) => false
    case _ => true
  }

  /** Nesting depth of the containers of a value. */
  function Depth(v: Value): nat {
    match v
    case VList(xs) => 1 + MaxDepth(xs)
    case VTuple(xs) => 1 + MaxDepth(xs)
    case VSet(xs) => 1 + MaxDepth(xs)
    case VDict(es) => 1 + MaxEntryDepth(es)
    case _ => 0
  }

  function MaxDepth(xs: seq<Value>): (d: nat)
    ensures forall i :: 0 <= i < |xs| ==> Depth(xs[i]) <= d
  {
    if xs == [] then 0
    else var d := MaxDepth(xs[1..]); if Depth(xs[0]) > d then Depth(xs[0]) else d
  }

  function MaxEntryDepth(es: seq<Entry>): (d: nat)
    ensures forall i :: 0 <= i < |es| ==> Depth(es[i].val) <= d
  {
    if es == [] then 0
    else var d := MaxEntryDepth(es[1..]); if Depth(es[0].val) > d then Depth(es[0].val) else d
  }

  lemma PlainIsSameFree(v: Value)
    requires Plain(v)
    ensures SameFree(v)
  {
    match v
    case VList(xs) =>
      forall i | 0 <= i < |xs| ensures SameFree(xs[i]) { PlainIsSameFree(xs[i]); }
    case VTuple(xs) =>
      forall i | 0 <= i < |xs| ensures SameFree(xs[i]) { PlainIsSameFree(xs[i]); }
    case VSet(xs) =>
      forall i | 0 <= i < |xs| ensures SameFree(xs[i]) { PlainIsSameFree(xs[i]); }
    case VDict(es) =>
      forall i | 0 <= i < |es| ensures SameFree(es[i].val) { PlainIsSameFree(es[i].val); }
    case VObject(_, _, ats) =>
      forall i | 0 <= i < |ats| ensures SameFree(ats[i].val) { PlainIsSameFree(ats[i].val); }
    case _ =>
  }
}
